=== FILE: README.md ===
# TuStockYa core, modelled in Dafny

TuStockYa is the back end of a chain of footwear stores. Its stores and warehouses
(*locations*) keep stock per reference code, size and location. The core modelled here
has five parts:

* **Transfers**: a seller asks a warehouse for a pair of shoes. The transfer then moves
  through a fixed workflow. A warehouse keeper accepts or rejects it. A courier claims
  it, picks it up and delivers it. The requester confirms reception, or reports
  problems. Cancellation and delivery failure end the workflow early.
* **Inventory ledger**: the tables of locations, products (one per reference and
  location), size rows and inventory change records.
* **Warehouse operations**: returns, moves between locations, inventory listings,
  movement history, discrepancy reports and reversal of a movement.
* **Sales**: availability net of reservations, complete sales with items and payments,
  confirmation of pending sales, and reservations that expire.
* **Administration**: users and their location assignments, administrators and the
  locations they manage, wholesale sales, approval of discount requests, and an
  overview of transfers.

Each database table the services update in place is a `class` whose fields are the
table's rows. The classes are `Ledger.Ledger`, `TransferRepository.TransferDb`,
`SalesRepository.SalesDb`, `Staff.StaffDb`, `WarehouseService.ReturnLog` and
`WarehouseService.DiscrepancyLog`. Each
service operation is a `method` over these classes. Its postcondition states:

* the answer it gives, including every HTTP error, as an `Error` value;
* the new contents of every table it touches, often through a specification function;
* that the other tables are unchanged.

Pure calculations are functions whose contracts and lemmas state what they compute.
Examples are the availability check, the totals of a wholesale sale, the permission
flags and the orderings of the queues.

A few facts hold throughout:

* Time is a parameter `now: int`, in seconds.
* Money is `real`.
* Row ids are indices into the table's sequence, or map keys.
* A product is keyed by reference and location id. The product table has a location
  name column and no location id column. The transfer module keys products by location
  name, and the model assumes location names are unique, so the two keys agree. The
  warehouse and administration queries filter on a `location_id` attribute of the
  product class that does not exist, and raise there; "## Left out" lists each
  operation this affects. The model describes those operations as keyed like the
  transfer module.

In these places the model follows the code rather than the workflow's evident intent:

* A pickup takes the stock from the courier-handing keeper's own location. A reception
  adds it at the requester's current location. Neither writes an inventory change
  record.
* A rejected transfer does not record the keeper who rejected it.
  `update_transfer_status` keeps the keeper only when the new status is `accepted`.
* The transfer table has no `cancelled_at` and no `estimated_preparation_time` column.
  The bulk status update names every keyword argument as a column, so every
  cancellation and every acceptance fails with a 500 and changes nothing. The
  `...AsWritten` members model this. The operations the rest of the model uses store
  both values, as if the table had the two columns (see "## Findings").
* A discount approval stores only the new status. The approver, the time and the notes
  go to attributes the discount table does not map.
* The transfer availability check ignores reservations.
* A stock shortage in `create_sale_complete` is raised as a 400. The catch-all around
  it turns it into a 500, modelled as `Internal(InsufficientStock)`.
* Sales stock and reservations are counted per reference over all sizes. The
  decrement after a sale is per size and silently does nothing when the size row is
  short.
* Wholesale availability is checked item by item against the stock before the sale.
  Two lines for the same size can both pass the check. The second decrement is then
  silently skipped, and the model states exactly that through `WholesaleAll`.

## Model

| member | source | states |
|---|---|---|
| TransferSchemas.StatusNameRoundTrip | app/modules/transfers/schemas.py:8-17 | every status's stored name parses back to that status, and a name parses only to the status it names |
| TransferRepository.CopyFieldsKeepsWorkflow | app/modules/transfers/repository.py:65-68 | copying the keyword arguments onto a transfer never changes its status, parties, product or stamps |
| TransferRepository.CopyFieldsVerbatim | app/modules/transfers/repository.py:65-68 | notes, received quantity and preparation estimate end up as the last such argument given, or unchanged when none is given |
| TransferRepository.UpdateStamps | app/modules/transfers/repository.py:46-78 | an update sets the status; stamps accepted_at and the keeper only on `accepted` with a keeper; stamps the courier only on `courier_assigned` with a courier; stamps picked-up, delivered and reception times on their statuses; leaves the request fields alone |
| TransferRepository.CheckProductAvailability | app/modules/transfers/repository.py:203-231 | available iff the location exists and an active product holds at least one unit of that size; the stock reported is then that size row's quantity |
| TransferRepository.QueueEntries | app/modules/transfers/repository.py:102-108 | each queued id is paired with its sort key, in order |
| TransferRepository.SortQueueIds | app/modules/transfers/repository.py:82-151 | the sorted queue holds each found id exactly once, in key order |
| TransferRepository.CustomerFirst | app/modules/transfers/repository.py:102-108 | in the pending and courier queues no restock transfer precedes a transfer for a waiting customer |
| TransferRepository.TransferDb.Insert | app/modules/transfers/repository.py:20-34 | the new transfer gets a fresh id and nothing else changes |
| TransferRepository.TransferDb.UpdateTransferStatus | app/modules/transfers/repository.py:46-78 | the corrected update, as if every argument had a column: false iff the id is unknown; otherwise exactly that transfer becomes `ApplyUpdate` of it |
| TransferRepository.TransferDb.UpdateTransferStatusAsWritten | app/modules/transfers/repository.py:46-78 | as written: a 500 with nothing changed iff some argument names no column of the table; otherwise the update above |
| TransferRepository.TransferDb.AddIncident | app/modules/transfers/repository.py:349-365 | the incident is appended and the transfers are unchanged |
| TransferRepository.TransferDb.ListQueue | app/modules/transfers/repository.py:82-151 | lists exactly the transfers in the queue, once each, in key order, customer transfers first; the pending queue holds exactly the pending transfers whose source is a location of one of the keeper's active `bodeguero` assignment rows (84-99) |
| TransferRepository.QueueAccessible | app/modules/transfers/repository.py:311-330 | whatever the keeper-accepted or courier queue shows is readable by its user in that role; a pending-queue transfer is readable by the keeper iff no other keeper holds it |
| TransferService.StepsMoveForward | app/modules/transfers/schemas.py:8-17 | every workflow step moves forward; terminal statuses have no step; every live status can still end |
| TransferService.PermissionsMatchGuards | app/modules/transfers/service.py:602-633 | each permission flag is true iff the guard of the operation it announces holds; other roles get none |
| TransferService.PermissionsNeedAccess | app/modules/transfers/repository.py:311-330 | an unknown transfer is readable by nobody and a stored one by administrators and the boss; every flag shown to a user lies on a transfer that user may read, except a keeper's acceptance of a pending transfer another keeper holds |
| TransferService.CountsPartition | app/modules/transfers/service.py:635-663 | the per-status counts add up to the number of transfers |
| TransferService.CalculateTransferSummary | app/modules/transfers/service.py:635-663 | the summary's counts are the per-status counts, and with the statuses it omits they add up to the total |
| TransferService.UpdateInventoryOnPickup | app/modules/transfers/service.py:698-729 | succeeds iff the keeper's location holds enough units; then exactly that size row loses the quantity; otherwise stock is unchanged |
| TransferService.UpdateInventoryOnReception | app/modules/transfers/service.py:731-805 | fails iff the requester has no known location; adds the received units at the requester's location, creating the product from the transfer's data when missing |
| TransferService.CreateTransferRequest | app/modules/transfers/service.py:26-73 | rejects the caller's own location, missing products and short stock in that order; stores a pending transfer to the caller's location otherwise |
| TransferService.AcceptanceUnmapped | app/modules/transfers/service.py:229-243 | an acceptance passes an argument without a column, a rejection does not |
| TransferService.AcceptTransferRequestAsWritten | app/modules/transfers/service.py:194-247 | as written: no acceptance succeeds or changes anything; one that passes the checks is a 500; a rejection behaves as corrected |
| TransferService.AcceptTransferRequest | app/modules/transfers/service.py:194-247 | corrected: 404, then 400 unless pending; acceptance re-checks stock and records keeper, time and preparation estimate; rejection cancels |
| TransferService.DeliverToCourier | app/modules/transfers/service.py:249-311 | only the accepting keeper, only after a courier claimed it; success takes the stock and moves to in transit, failure to delivery failed |
| TransferService.AcceptCourierRequest | app/modules/transfers/service.py:318-351 | a courier claims an accepted, unclaimed transfer; anything else is a 409 |
| TransferService.ConfirmPickup | app/modules/transfers/service.py:353-393 | only the assigned courier, only when assigned; the transfer goes in transit with the pickup time |
| TransferService.ConfirmDelivery | app/modules/transfers/service.py:395-443 | only the assigned courier, only in transit; delivered with its time, or delivery failed with the prefixed notes |
| TransferService.ConfirmReception | app/modules/transfers/service.py:86-150 | only the requester, only when delivered; good condition completes and adds the units at the requester's location, leaving every other stock row alone and creating only that product, or adds nothing when no product has the reference; otherwise reception issues and stock unchanged |
| TransferService.CancellationUnmapped | app/modules/transfers/service.py:162-167 | a cancellation passes an argument without a column |
| TransferService.CancelTransferRequestAsWritten | app/modules/transfers/service.py:152-182 | as written: 400 unless the requester may cancel, a 500 otherwise; nothing changes either way |
| TransferService.CancelTransferRequest | app/modules/transfers/service.py:152-182 | corrected: succeeds iff the requester may cancel; then the transfer is cancelled with the reason and the time |
| TransferService.ReportIncident | app/modules/transfers/service.py:445-482 | only the assigned courier; the incident is appended and the transfers are unchanged |
| Ledger.FindUnique | app/shared/database/models.py:84-96 | with one row per size, looking up a row's variant finds that row |
| Ledger.FindSameVariants | app/shared/database/models.py:84-96 | changing quantities never changes which row a lookup finds |
| Ledger.UnitsUpdate | app/shared/database/models.py:84-96 | replacing a row changes the total units by the quantity difference |
| Ledger.AdjustEffect | app/shared/database/models.py:84-96 | adjusting one size row changes that row's quantity alone, and the total by the same amount |
| Ledger.AppendEffect | app/shared/database/models.py:84-96 | a new size row adds its quantity for that variant alone |
| Ledger.Ledger.Shift | app/shared/database/models.py:84-96 | an in-place quantity change of one size row, keeping rows non-negative |
| Ledger.Ledger.Decrement | app/modules/transfers/service.py:698-729 | takes units iff an active product holds enough of them; otherwise nothing changes |
| Ledger.Ledger.Increase | app/modules/warehouse/service.py:492-561 | adds units to a size row, creating the row when missing |
| Ledger.Ledger.PutProduct | app/shared/database/models.py:56-82 | writes one product and nothing else |
| Ledger.Ledger.Record | app/shared/database/models.py:114-132 | appends one change record, whose id is its position |
| Ordering.SortEntriesCorrect | app/modules/transfers/repository.py:102-108 | sorting yields a sorted permutation of its input |
| Ordering.SortedQueue | app/modules/transfers/repository.py:102-108 | sorting entries with distinct ids keeps exactly those entries, ids still distinct |
| WarehouseRepository.UpdateProductLocation | app/modules/warehouse/repository.py:56-156 | refuses a move to the same location and short stock; otherwise moves the units, keeps the total, creates the destination product from the source's, and logs before and after truthfully |
| WarehouseRepository.MoveLogAsWritten | app/modules/warehouse/repository.py:83-145 | as written, a move within one location leaves stock unchanged but logs a before of quantity plus moved |
| WarehouseRepository.SameLocationMoveExample | app/modules/warehouse/repository.py:83-145 | moving 2 of 5 units within one location: stock stays 5, the log says 7 became 5 |
| WarehouseRepository.UnitsPositive | app/modules/warehouse/repository.py:158-253 | rows with positive quantities hold at least one unit each |
| WarehouseRepository.ListedAtMeaning | app/modules/warehouse/repository.py:158-253 | a location's listing holds exactly the rows there that pass the filters (location ids, type, reference and brand substrings in any case, stock bounds), all with units |
| WarehouseRepository.InventoryByLocations | app/modules/warehouse/repository.py:158-253 | groups exactly the locations with listed rows; each group's totals are its units and distinct references |
| WarehouseRepository.HistoryOrder | app/modules/warehouse/repository.py:255-327 | the history lists newest changes first |
| WarehouseRepository.HistoryEntries | app/modules/warehouse/repository.py:255-327 | every history entry describes a logged change by the user that passes the type, location and reference filters |
| WarehouseRepository.HistoryComplete | app/modules/warehouse/repository.py:255-327 | every logged change by the user that passes the type, location and reference filters is in the history |
| WarehouseRepository.MovementHistory | app/modules/warehouse/repository.py:255-327 | the newest matching changes up to the limit, newest first, each with its signed change; all of them when fewer than the limit |
| WarehouseService.ReturnLog.Add | app/modules/warehouse/repository.py:23-29 | appends the return and gives its id |
| WarehouseService.AddToInventory | app/modules/warehouse/service.py:492-561 | adds the units at the location, creating an unknown product if needed, and logs a return addition |
| WarehouseService.ProcessReturn | app/modules/warehouse/service.py:25-87 | 404 for an unknown origin; records the return; restocks at the keeper's location only when the condition allows, then that size alone gains the quantity, a missing product is created as "Unknown", and one return-addition record logs the old and new quantity |
| WarehouseService.UpdateProductLocation | app/modules/warehouse/service.py:89-151 | 404 for unknown locations, then 400 for the same location or short stock; on success the source size loses and the destination size gains the quantity, no other size changes, the destination product is inherited when missing, and one movement record logs before = after + quantity |
| WarehouseService.ReportInventoryDiscrepancy | app/modules/warehouse/service.py:289-358 | 404 iff the location is unknown, storing nothing; otherwise stores one report with the expected and actual quantities and the reporter, and answers a difference that adds to the expected to give the actual, whatever the client sent; stock is outside its frame |
| WarehouseService.ReversalQuantity | app/modules/warehouse/service.py:421 | the reported quantity is the size of the original change |
| WarehouseService.ReversalBelowZero | app/modules/warehouse/service.py:407-410 | as written, restoring subtracts the original change and goes negative exactly when live stock is below it |
| WarehouseService.ReverseInventoryMovement | app/modules/warehouse/service.py:360-431 | 404 for an unknown change; refuses a restoration that would go negative; otherwise logs the swapped before and after and restores the quantity |
| SalesRepository.StockOfNonNegative | app/modules/sales/repository.py:31-64 | stock per reference and location is never negative |
| SalesRepository.SizeWithinStock | app/modules/sales/repository.py:31-64 | one size's quantity never exceeds its reference's stock |
| SalesRepository.StockOfUpdate | app/modules/sales/repository.py:31-64 | replacing a row changes the stock by its contribution difference |
| SalesRepository.DecreasedRowsEffect | app/modules/sales/repository.py:234-261 | decreasing takes the quantity from that size only when it has enough, else changes nothing; rows stay non-negative |
| SalesRepository.DecreaseProductStock | app/modules/sales/repository.py:234-261 | the rows become `DecreasedRows`: the size loses the quantity iff it had enough |
| SalesRepository.NewSale | app/modules/sales/repository.py:341-370 | a new sale is confirmed at once iff it needs no confirmation, and pending iff it does |
| SalesRepository.Subtotal | app/modules/sales/repository.py:372-394 | a positive line costs at least its unit price; a zero line costs nothing |
| SalesRepository.ItemOf | app/modules/sales/repository.py:372-394 | an item keeps the requested line and its subtotal |
| SalesRepository.ConfirmedSale | app/modules/sales/repository.py:432-451 | sets the flag and the time iff confirmed, appends the confirmation note, and changes nothing else |
| SalesRepository.ReservedNone | app/modules/sales/repository.py:263-278 | with no active unexpired reservation, nothing is reserved |
| SalesRepository.ReservedAppend | app/modules/sales/repository.py:280-309 | a new reservation adds its quantity iff it holds |
| SalesRepository.ReservedRelease | app/modules/sales/repository.py:329-339 | releasing subtracts the quantity iff it held |
| SalesRepository.ExpireAll | app/modules/sales/repository.py:567-586 | after cleanup no reservation is overdue; each row is expired or kept |
| SalesRepository.CleanupCount | app/modules/sales/repository.py:567-586 | the expired count grows by exactly the number cleaned up |
| SalesRepository.CleanupKeepsReserved | app/modules/sales/repository.py:567-586 | cleanup never changes the reserved quantity |
| SalesRepository.SalesDb.CreateSale | app/modules/sales/repository.py:341-370 | appends `NewSale` and gives its id |
| SalesRepository.SalesDb.AddSale | app/modules/admin/repository.py:334-343 | appends a given sale row and gives its id |
| SalesRepository.SalesDb.CreateSaleItem | app/modules/sales/repository.py:372-394 | appends the item for the sale |
| SalesRepository.SalesDb.CreateSalePayment | app/modules/sales/repository.py:396-412 | appends the payment with the time |
| SalesRepository.SalesDb.ConfirmSale | app/modules/sales/repository.py:432-451 | false iff unknown; otherwise that sale becomes `ConfirmedSale` of it |
| SalesRepository.SalesDb.CreateReservation | app/modules/sales/repository.py:280-309 | appends an active reservation |
| SalesRepository.SalesDb.ReleaseReservation | app/modules/sales/repository.py:329-339 | false iff unknown; otherwise that reservation is released at the time |
| SalesRepository.SalesDb.CleanupExpiredReservations | app/modules/sales/repository.py:567-586 | reservations become `ExpireAll`, and the count returned is the number expired |
| SalesService.CheckAvailability | app/modules/sales/service.py:186-211 | available is physical minus reserved, floored at zero; can fulfil iff that is positive |
| SalesService.IssuesOfExact | app/modules/sales/service.py:346-369 | there is an issue for exactly the lines that are short, and none iff no line is short |
| SalesService.ValidateStockAvailability | app/modules/sales/service.py:346-369 | returns `IssuesOf` the lines |
| SalesService.SellAllEffect | app/modules/sales/service.py:371-385 | selling keeps rows distinct and non-negative, never adds units, and touches only the sale's location |
| SalesService.UpdateStockAfterSale | app/modules/sales/service.py:371-385 | the rows become `SellAll` of the lines |
| SalesService.StoredItemsAreRequested | app/modules/sales/service.py:235-307 | the items stored for the new sale are exactly the requested lines, in order |
| SalesService.StoreItems | app/modules/sales/service.py:271-278 | appends one item per requested line |
| SalesService.StorePayments | app/modules/sales/service.py:280-287 | appends one payment per requested payment |
| SalesService.CreateSaleComplete | app/modules/sales/service.py:235-307 | any short line makes a 500 with nothing stored; otherwise stores the sale, its items and payments, and sells the stock unless confirmation is pending |
| SalesService.DoubleConfirmAsWritten | app/modules/sales/service.py:319-336 | as written, a sale can be confirmed twice, and stock is taken twice |
| SalesService.ConfirmOnce | app/modules/sales/service.py:319-336 | under the corrected guard, a confirmed sale cannot be confirmed again |
| SalesService.ConfirmSale | app/modules/sales/service.py:309-344 | 404 unless the caller's sale; 400 unless pending; a confirmation sells the sale's items |
| SalesService.ItemsOfPositive | app/modules/sales/repository.py:420-424 | a sale's items keep positive quantities |
| SalesService.ReserveProduct | app/modules/sales/service.py:675-718 | for any quantity, succeeds iff enough is available; appends the reservation for 5 minutes for a customer and 1 otherwise, cutting availability by the quantity, so a non-positive quantity never lowers it |
| SalesService.ReleaseReservation | app/modules/sales/service.py:748-771 | 404 unless the caller's; 400 unless active; releases it and frees its quantity if it held |
| SalesService.CountFulfillable | app/modules/sales/service.py:213-233 | positive iff some product can be sold here |
| SalesService.CountTransferable | app/modules/sales/service.py:213-233 | positive iff some product can be transferred |
| SalesService.CalculateAvailabilitySummary | app/modules/sales/service.py:213-233 | the summary's flags say whether some product can be sold at once or transferred |
| Staff.FindUserAssignment | app/shared/database/models.py:290-304 | finds a row of that user and location iff one exists |
| Staff.FindAdminAssignment | app/modules/admin/repository.py:90-104 | finds a row of that admin and location iff one exists |
| AdminRepository.CreateAdminAssignment | app/modules/admin/repository.py:52-77 | reactivates the existing row or appends one; the admin then manages the location |
| AdminRepository.RemoveAdminAssignment | app/modules/admin/repository.py:90-104 | false iff no row; otherwise that row is deactivated; the admin no longer holds the location |
| AdminRepository.ItemsTotalNonNegative | app/modules/admin/repository.py:325-378 | non-negative lines give a non-negative total |
| AdminRepository.Totals | app/modules/admin/repository.py:325-378 | discount and final add up to the items' total, the discount is the percentage of it, and both lie within it |
| AdminRepository.WholesaleLogAccounts | app/modules/admin/repository.py:380-411 | the change records a wholesale sale writes account for exactly the units it removes |
| AdminRepository.UpdateInventoryForSale | app/modules/admin/repository.py:380-411 | a line takes its units and logs before and after when the size has enough; otherwise nothing changes |
| AdminRepository.AsItemRequest | app/modules/admin/repository.py:346-358 | a wholesale item becomes a sale item with the same line |
| AdminRepository.CreateWholesaleSale | app/modules/admin/repository.py:325-378 | stores the sale with the final total, its items, and takes each line from stock |
| AdminRepository.ApproveDiscountRequest | app/modules/admin/repository.py:542-567 | none iff unknown; otherwise only the status changes, by the flag |
| AdminRepository.ByRecencyCorrect | app/modules/admin/repository.py:597 | orders the transfers newest first, each once |
| AdminRepository.RecentFirst | app/modules/admin/repository.py:597-609 | the recent list is the ten newest, or all when fewer |
| AdminRepository.TallyTransfers | app/modules/admin/repository.py:588-594 | the tallies are the per-status and per-purpose counts |
| AdminRepository.DistinctCard | app/modules/admin/repository.py:569-613 | distinct ids count as many transfers as listed |
| AdminRepository.TransfersOverview | app/modules/admin/repository.py:569-613 | lists exactly the transfers touching the locations, with tallies that add up to the total and the ten newest |
| AdminService.RoleFitsExactly | app/modules/admin/service.py:72-82 | sellers go to stores, keepers to warehouses, other roles anywhere |
| AdminService.RemovalRevokes | app/modules/admin/service.py:146-162 | after removal the admin manages the location iff they are the boss |
| AdminService.AssignmentKeepsOthers | app/modules/admin/repository.py:52-77 | assigning a location never takes another one away |
| AdminService.ManagedLocationsExactly | app/modules/admin/repository.py:106-126 | the managed locations are the active ones the admin can manage; the boss manages all |
| Common.Lower | app/modules/admin/service.py:53 | same length, no capital left, each capital replaced by the same letter in lower case, every other character kept |
| Common.LowerIdempotent | app/modules/admin/service.py:88 | lowercasing twice changes nothing and leaves no capitals |
| Common.ContainsMeaning | app/modules/warehouse/repository.py:196-200 | a text contains a pattern iff the pattern starts at some position of it |
| Common.ILikeBasics | app/modules/warehouse/repository.py:196-200 | the empty pattern matches everything, and a text matches itself in any case |
| Common.ILikeIgnoresCase | app/modules/warehouse/repository.py:196-200 | lowering the pattern first never changes a match |
| AdminService.CreateUser | app/modules/admin/service.py:32-140 | 403 unless the admin manages the location; 400 for a taken email; 404 for an unknown location; 400 for a role that does not fit; creates the account and its assignment otherwise |
| AdminService.DeactivateUser | app/modules/admin/service.py:508-514 | afterwards no row of the user is active, every other user's row is unchanged, and each row keeps its user, location and role |
| AdminService.ReassignAsWrittenFails | app/modules/admin/service.py:508-523 | as written, reassignment fails iff the user already has a row at the destination |
| AdminService.ReturnToEarlierStoreFails | app/modules/admin/service.py:508-523 | moving a user to a store and back fails |
| AdminService.UpdateToSameStoreFails | app/modules/admin/service.py:339-354 | as written, updating a seller with the store they already hold fails |
| AdminService.ReassignCorrect | app/modules/admin/service.py:508-523 | the corrected reassignment keeps one row per user and location, leaves other users alone, and leaves the user active only at the destination |
| AdminService.AssignUserToLocation | app/modules/admin/service.py:429-547 | checks user, manager rights at both locations, the boss-only rule and the role; then moves the user with `Reassign` |
| AdminService.UpdateUser | app/modules/admin/service.py:264-376 | checks rights and role fit; sets the given fields and reassigns on a location change |
| AdminService.AssignAdminToLocation | app/modules/admin/service.py:164-213 | 404 unknown admin; 400 unless an administrator; 404 unknown location; then the admin manages it |
| AdminService.KnownLocations | app/modules/admin/service.py:215-240 | keeps exactly the requested locations that exist |
| AdminService.AssignAdminToMultipleLocations | app/modules/admin/service.py:215-240 | assigns every known requested location, and none for a non-administrator; only the administrator's rows at requested locations change or are added, every other row stays as it was, and every location held before is still held |
| AdminService.RemoveAdminAssignment | app/modules/admin/service.py:378-401 | 404 iff no row; otherwise exactly that row is deactivated, nothing else changes, and only the boss still manages the location |
| AdminService.CheckProductAvailability | app/modules/admin/service.py:1026-1062 | available iff an active product holds the quantity; reports the size's quantity iff the product is active |
| AdminService.AvailableIsTaken | app/modules/admin/service.py:1026-1062 | what the check reports available is what the decrement takes |
| AdminService.ProcessWholesaleSale | app/modules/admin/service.py:644-700 | 404 unknown location; 400 for any unavailable item, with nothing changed; otherwise the receipt of totals, item count and date, one sale row, one item per line and the stock taken; payments, reservations and discount requests are never touched |
| AdminService.ApproveDiscountRequest | app/modules/admin/service.py:794-834 | 404 iff unknown; otherwise only the status changes, by the flag; sales, items, payments and reservations are untouched |
| AdminService.GetTransfersOverview | app/modules/admin/service.py:866-876 | the overview covers exactly the transfers touching a location the admin manages |

## Left out

- Routers, authentication, sessions and commits: each service call is atomic here. Where the source commits in steps (sale, items, payments), the model stores all or nothing.
- Passwords, names, phone numbers and display strings of responses: they change nothing the model states.
- TransferRepository.CanUserAccessTransfer: roles are a closed datatype of the five roles, so the final refusal of an unrecognised role string (app/modules/transfers/repository.py:330) has no counterpart.
- Image and video processing with AI, receipt upload (a parameter here), dashboards, reports, performance statistics, cost configuration and inventory alerts: outside the core.
- Concurrency and row locking: calls run one at a time.
- Storage failures inside the catch-all blocks: the model has only two. One is the failure the UserLocationAssignment uniqueness constraint causes. The other is the status update's refusal of arguments without a column.
- Floating point: money is `real`, and Decimal rounding is not modelled.
- Time zones: the clock is an integer parameter.
- Location id 0: the source tests `if location_id:`, and serial keys never produce 0, so the model treats any given id as present.
- Case folding: lowercasing covers ASCII letters only, both for emails and for the `ilike` reference and brand filters (app/modules/warehouse/repository.py:197, 200 and 301), where the database folds every letter.
- AdminRepository.CreateWholesaleSale: requires positive item quantities. The source does not validate the untyped item dictionaries; a non-positive quantity would break the non-negative stock invariant.
- AdminRepository.CreateWholesaleSale: as written each sale item is built with a `total_price` keyword that the sale item class does not take (app/modules/admin/repository.py:356). That raises after the sale row is flushed and before the commit, so nothing is stored. The model stores the sale, the items with their subtotals, and the stock changes.
- AdminRepository.UpdateInventoryForSale: as written the product lookup filters on the unmapped `Product.location_id` (app/modules/admin/repository.py:386) and raises. The model takes the units keyed by location id.
- AdminService.CheckProductAvailability: as written the product lookup filters on the unmapped `Product.location_id` (app/modules/admin/service.py:1038) and raises. The model answers the check keyed by location id.
- AdminService.UpdateUser: as written a location change inserts a new assignment row (app/modules/admin/service.py:339-354), so it fails with a 500 whenever the user already has a row at the new location; the model reassigns as corrected (see "## Findings").
- AdminService.ProcessWholesaleSale: has the same requirement of positive item quantities, for the same reason.
- AdminService.ProcessWholesaleSale: as written any sale with an item at a known location fails at the availability check above with a 500. The model goes on to the sale, as corrected.
- AdminRepository.ApproveDiscountRequest: the approver, the time and the notes are written to `approved_by_user_id`, `approved_at` and `admin_notes` (app/modules/admin/repository.py:558-560), which the discount table does not map. They are never stored, and the model does not keep them.
- AdminService.ApproveDiscountRequest: as written the answer reads `sale_id`, `requester_user_id` and other attributes the discount table lacks (app/modules/admin/service.py:819-820), after the commit. So the status is stored but the caller gets a 500. The model answers the stored request. The service keeps no pending check, and neither does the model.
- AdminService.CanManage: looks the boss up by account. The boss-only rule of `assign_user_to_location` checks the caller's own role, and the model keeps that difference. Inactive locations count as manageable, as in `_can_admin_manage_location`.
- WarehouseRepository.UpdateProductLocation: as written the first query filters on `Product.location_id` (app/modules/warehouse/repository.py:75), which the product class does not map. So every move raises before anything changes. Creating the destination product would also pass `color`, `price` and `location_id`, which the class does not take (103-112). The model describes the move keyed by location id.
- WarehouseService.UpdateProductLocation: calls the move above, so as written it fails with a 500 once both locations exist. The model describes the corrected move.
- WarehouseRepository.ListedAtMeaning: as written the listing query selects `Product.color` and `Product.price` and joins on `Product.location_id` (app/modules/warehouse/repository.py:170-181). The product class maps none of them, so the listing raises. The model lists what the query describes.
- WarehouseRepository.InventoryByLocations: raises as written for the same reason. The model groups what the query describes.
- WarehouseRepository.InventoryByLocations: answers a map from location to group and keeps table order within a group; the source orders the rows by location name, brand, model and size (208-213) and returns the groups as a list in that order.
- WarehouseRepository.InventoryByLocations: an `ilike` pattern's own `%` and `_` are wildcards in the source and ordinary characters in the model.
- WarehouseRepository.HistoryEntries: as written the history query joins and filters on `Product.location_id` (app/modules/warehouse/repository.py:283, 298) and raises. The model lists what the query describes.
- WarehouseRepository.HistoryComplete: raises as written for the same reason. The start and end date filters (289-292) are not modelled, because change records carry no time.
- WarehouseRepository.MovementHistory: raises as written for the same reason, and has no date filters. It orders by record id, which is the order the log was written in; the source orders by creation time.
- WarehouseService.AddToInventory: as written the product lookup filters on `Product.location_id` (app/modules/warehouse/service.py:509), and a new product would be built with `color`, `price` and `location_id` (515-524). It raises before anything changes. The model describes the restock keyed by location id.
- WarehouseService.ReturnLog.Add: as written `create_return` builds a return row from keys the return table does not map, such as `reason`, `condition` and `received_by_user_id` (app/modules/warehouse/repository.py:23-29). That raises before anything is stored. The model keeps returns in a log of their own shape.
- WarehouseService.ProcessReturn: raises as written at the stored return above, and its restock goes through `AddToInventory`. The model describes the corrected flow.
- WarehouseService.ReverseInventoryMovement: as written the answer reads `product.location_id` (app/modules/warehouse/service.py:422) after the commit at 412. So the reversal is stored and the stock restored, but the caller gets a 500. The model answers the receipt.
- WarehouseService.ReportInventoryDiscrepancy: the source stores the report in the inventory change table with no product (app/modules/warehouse/repository.py:329-353), although that table declares the product column NOT NULL. The model keeps reports in a log of their own, so report ids and change ids are not shared. The brand and model of the answer, taken from any product with the reference, are not modelled.

## Findings

| source | as written | input that shows it | evidently intended | confidence | as-written member | corrected member |
|---|---|---|---|---|---|---|
| app/modules/warehouse/service.py:407-410 | reversing a movement adds before minus after to the live quantity without a bound | a return that added 5 units reversed when 2 are left: stock becomes -3 | refuse a reversal that would leave stock negative | not executed | WarehouseService.ReversalBelowZero | WarehouseService.ReverseInventoryMovement |
| app/modules/warehouse/repository.py:83-145 | a move to the same location decrements and increments one row, yet logs a decrement | moving 2 of 5 units within location 1 (reached once the location filter at line 75 names a mapped column): stock stays 5, the log says 7 became 5 | reject a move whose source and destination are equal | not executed | WarehouseRepository.SameLocationMoveExample | WarehouseRepository.UpdateProductLocation |
| app/modules/sales/service.py:319-336 | confirmation checks only that the sale requires confirmation, not that it is still pending | a pending sale of 2 units confirmed twice: stock 5 becomes 3, then 1 | confirm only a sale that is not yet confirmed | not executed | SalesService.DoubleConfirmAsWritten | SalesService.ConfirmOnce |
| app/modules/admin/service.py:508-523 | reassignment deactivates the user's rows and inserts a new row, violating the unique user and location constraint when one exists | user 7 at store 3, moved to store 4, then back to store 3: the insert fails | reactivate the existing row instead of inserting | not executed | AdminService.ReturnToEarlierStoreFails | AdminService.ReassignCorrect |
| app/modules/admin/service.py:339-354 | the user update deactivates the user's rows and inserts a new row, the same defect as the reassignment; the catch-all at 371-376 answers 500 | user 7 active at store 3, updated with location 3 (or moved 3 to 4 and back by two updates): the insert fails | reactivate the existing row instead of inserting | not executed | AdminService.UpdateToSameStoreFails | AdminService.UpdateUser |
| app/modules/transfers/repository.py:46-78 | the bulk status update names every keyword argument as a column, and the transfer table (app/shared/database/models.py:209-239) has no `cancelled_at` and no `estimated_preparation_time` | cancelling pending transfer 1 as its requester passes `cancelled_at`: the update raises, rolls back and answers a 500, and the transfer stays as it was | the transfer is cancelled, with the reason and the time | not executed | TransferService.CancelTransferRequestAsWritten | TransferService.CancelTransferRequest |
| app/modules/transfers/service.py:229-235 | an acceptance that passes the stock check calls the status update with `estimated_preparation_time` | any pending transfer whose source holds enough stock, accepted by a keeper: a 500, the transfer stays pending | the transfer is accepted, with keeper, time and preparation estimate | not executed | TransferService.AcceptTransferRequestAsWritten | TransferService.AcceptTransferRequest |

=== FILE: admin_repository.dfy ===
/**
 * The administrator's row-level operations: administrator-to-location
 * assignments, wholesale sales and the stock they take, the review of
 * discount requests and the transfers overview.
 */
module AdminRepository {
  import opened Common
  import opened Ledger
  import opened Staff
  import Ordering
  import SalesRepository
  import SalesService
  import TransferSchemas
  import TransferRepository
  import TransferService

  // ----- Administrator assignments -----

  /**
   * Assigns `admin` to `location`.  An existing row for the pair, active or
   * not, is reactivated and restamped instead of a second row being added.
   * Answers the row's index.
   */
  method CreateAdminAssignment(staff: StaffDb, admin: UserId, location: LocationId,
                               assignedBy: Option<UserId>, notes: Option<string>, now: int)
    returns (index: nat)
    requires staff.Valid()
    modifies staff
    ensures staff.Valid()
    ensures staff.accounts == old(staff.accounts) && staff.nextUserId == old(staff.nextUserId)
    ensures staff.userAssignments == old(staff.userAssignments)
    ensures var row := AdminAssignment(admin, location, true, now, assignedBy, notes);
      && (FindAdminAssignment(old(staff.adminAssignments), admin, location).Some? ==>
            && index == FindAdminAssignment(old(staff.adminAssignments), admin, location).value
            && staff.adminAssignments == old(staff.adminAssignments)[index := row])
      && (FindAdminAssignment(old(staff.adminAssignments), admin, location).None? ==>
            && index == |old(staff.adminAssignments)|
            && staff.adminAssignments == old(staff.adminAssignments) + [row])
    ensures ActiveAdminAssignment(staff.adminAssignments, admin, location)
  {
    var row := AdminAssignment(admin, location, true, now, assignedBy, notes);
    var found := FindAdminAssignment(staff.adminAssignments, admin, location);
    if found.Some? {
      index := found.value;
      staff.adminAssignments := staff.adminAssignments[index := row];
    } else {
      index := |staff.adminAssignments|;
      staff.adminAssignments := staff.adminAssignments + [row];
    }
    assert staff.adminAssignments[index] == row;
  }

  /**
   * Deactivates the assignment of `admin` to `location`; answers whether
   * there was one.  Afterwards the admin holds no active assignment there.
   */
  method RemoveAdminAssignment(staff: StaffDb, admin: UserId, location: LocationId) returns (removed: bool)
    requires staff.Valid()
    modifies staff
    ensures staff.Valid()
    ensures staff.accounts == old(staff.accounts) && staff.nextUserId == old(staff.nextUserId)
    ensures staff.userAssignments == old(staff.userAssignments)
    ensures removed <==> FindAdminAssignment(old(staff.adminAssignments), admin, location).Some?
    ensures removed ==> var i := FindAdminAssignment(old(staff.adminAssignments), admin, location).value;
                        staff.adminAssignments == old(staff.adminAssignments)[i := old(staff.adminAssignments)[i].(active := false)]
    ensures !removed ==> staff.adminAssignments == old(staff.adminAssignments)
    ensures !ActiveAdminAssignment(staff.adminAssignments, admin, location)
  {
    match FindAdminAssignment(staff.adminAssignments, admin, location)
    case Some(i) =>
      staff.adminAssignments := staff.adminAssignments[i := staff.adminAssignments[i].(active := false)];
      removed := true;
    case None =>
      removed := false;
  }

  // ----- Wholesale sales -----

  /** One item of a wholesale order; brand, model and color default to "Unknown" when absent. */
  datatype WholesaleItem = WholesaleItem(ref: string, size: string, quantity: int, unitPrice: real,
                                         brand: Option<string>, model: Option<string>, color: Option<string>)
  {
    function AsLine(): SalesRepository.Line { SalesRepository.Line(ref, size, quantity) }
  }

  datatype WholesaleRequest = WholesaleRequest(customerName: string, customerDocument: string, location: LocationId,
                                               items: seq<WholesaleItem>, discountPercentage: real,
                                               notes: Option<string>)

  /** The items' total before discount: the sum of quantity times unit price. */
  function ItemsTotal(items: seq<WholesaleItem>): real
  {
    if items == [] then 0.0
    else ItemsTotal(items[..|items| - 1]) + items[|items| - 1].quantity as real * items[|items| - 1].unitPrice
  }

  lemma {:induction false} ItemsTotalNonNegative(items: seq<WholesaleItem>)
    requires forall k :: 0 <= k < |items| ==> items[k].quantity >= 0 && items[k].unitPrice >= 0.0
    ensures ItemsTotal(items) >= 0.0
  {
    if items != [] {
      var n := |items| - 1;
      ItemsTotalNonNegative(items[..n]);
      var q := items[n].quantity as real;
      SalesRepository.ProductNonNegative(q, items[n].unitPrice);
    }
  }

  datatype WholesaleTotals = WholesaleTotals(itemsTotal: real, discount: real, final: real)

  /**
   * The totals of a wholesale order: the discount is the percentage of the
   * items' total, and the final amount is what remains.  A percentage within
   * 0 to 100 keeps both between 0 and the items' total.
   */
  function Totals(items: seq<WholesaleItem>, pct: real): (t: WholesaleTotals)
    ensures t.itemsTotal == ItemsTotal(items)
    ensures t.discount + t.final == t.itemsTotal
    ensures t.discount * 100.0 == t.itemsTotal * pct
    ensures pct == 0.0 ==> t.final == t.itemsTotal
    ensures pct == 100.0 ==> t.final == 0.0
    ensures (0.0 <= pct <= 100.0 && t.itemsTotal >= 0.0) ==>
              0.0 <= t.discount <= t.itemsTotal && 0.0 <= t.final <= t.itemsTotal
  {
    var total := ItemsTotal(items);
    var discount := total * (pct / 100.0);
    assert discount * 100.0 == total * pct;
    assert (0.0 <= pct <= 100.0 && total >= 0.0) ==> 0.0 <= total * pct <= total * 100.0;
    WholesaleTotals(total, discount, total - discount)
  }

  /** Whether the wholesale decrement takes `qty` units of `v`: the product and the size exist and hold enough. */
  predicate WholesaleTakes(products: map<ProductKey, Product>, rows: seq<SizeRow>, v: Variant, qty: int)
  {
    v.Key() in products && Find(rows, v).Some? && QuantityOf(rows, v) >= qty
  }

  /** Stock rows and change log together. */
  datatype StockState = StockState(rows: seq<SizeRow>, log: seq<ChangeRecord>)

  /** One wholesale decrement: taken and logged when possible, otherwise nothing. */
  function WholesaleStep(products: map<ProductKey, Product>, st: StockState, v: Variant, qty: int): StockState
  {
    if WholesaleTakes(products, st.rows, v, qty)
    then StockState(Adjust(st.rows, v, -qty),
                    st.log + [ChangeRecord(v, WholesaleSale, QuantityOf(st.rows, v), QuantityOf(st.rows, v) - qty, None, None)])
    else st
  }

  /** Every line of a wholesale order decremented at `location`, in order. */
  function WholesaleAll(products: map<ProductKey, Product>, st: StockState, lines: seq<SalesRepository.Line>,
                        location: LocationId): StockState
  {
    if lines == [] then st
    else
      var n := |lines| - 1;
      WholesaleStep(products, WholesaleAll(products, st, lines[..n], location),
                    Variant(lines[n].ref, lines[n].size, location), lines[n].quantity)
  }

  /** Units a run of change records says were removed. */
  function Removed(cs: seq<ChangeRecord>): int
  {
    if cs == [] then 0 else Removed(cs[..|cs| - 1]) + (cs[|cs| - 1].before - cs[|cs| - 1].after)
  }

  lemma RemovedAppend(cs: seq<ChangeRecord>, c: ChangeRecord)
    ensures Removed(cs + [c]) == Removed(cs) + (c.before - c.after)
  {
    assert (cs + [c])[..|cs|] == cs;
  }

  /** The records one wholesale decrement appends: one when it takes the units, none otherwise. */
  function StepRecords(products: map<ProductKey, Product>, st: StockState, v: Variant, qty: int): seq<ChangeRecord>
  {
    if WholesaleTakes(products, st.rows, v, qty)
    then [ChangeRecord(v, WholesaleSale, QuantityOf(st.rows, v), QuantityOf(st.rows, v) - qty, None, None)]
    else []
  }

  lemma WholesaleStepAccounts(products: map<ProductKey, Product>, st: StockState, v: Variant, qty: int)
    requires Distinct(st.rows)
    ensures var r := WholesaleStep(products, st, v, qty);
      && Distinct(r.rows)
      && r.log == st.log + StepRecords(products, st, v, qty)
      && Units(st.rows) - Units(r.rows) == Removed(StepRecords(products, st, v, qty))
  {
    AdjustEffect(st.rows, v, -qty);
    if WholesaleTakes(products, st.rows, v, qty) {
      RemovedAppend([], StepRecords(products, st, v, qty)[0]);
    }
  }

  /**
   * A wholesale order only appends to the log, keeps the rows distinct, and
   * the records it appends account for every unit it took from stock.
   */
  lemma {:induction false} WholesaleLogAccounts(products: map<ProductKey, Product>, st: StockState,
                                                lines: seq<SalesRepository.Line>, location: LocationId)
    requires Distinct(st.rows)
    ensures var r := WholesaleAll(products, st, lines, location);
      && Distinct(r.rows)
      && |st.log| <= |r.log| && r.log[..|st.log|] == st.log
      && Units(st.rows) - Units(r.rows) == Removed(r.log[|st.log|..])
  {
    if lines == [] {
      assert st.log[|st.log|..] == [];
    } else {
      var n := |lines| - 1;
      var prev := WholesaleAll(products, st, lines[..n], location);
      WholesaleLogAccounts(products, st, lines[..n], location);
      var v := Variant(lines[n].ref, lines[n].size, location);
      var qty := lines[n].quantity;
      WholesaleStepAccounts(products, prev, v, qty);
      var added := StepRecords(products, prev, v, qty);
      var r := WholesaleStep(products, prev, v, qty);
      assert r == WholesaleAll(products, st, lines, location);
      assert r.log[|st.log|..] == prev.log[|st.log|..] + added;
      assert r.log[..|st.log|] == prev.log[..|st.log|];
      if added != [] {
        assert added == [added[0]];
        RemovedAppend(prev.log[|st.log|..], added[0]);
        RemovedAppend([], added[0]);
      } else {
        assert prev.log[|st.log|..] + added == prev.log[|st.log|..];
      }
    }
  }

  /**
   * Takes `qty` units of one size for a wholesale order and logs the
   * quantity before and after; nothing happens when the product or the size
   * is missing or holds fewer units.
   */
  method UpdateInventoryForSale(stock: Ledger, ref: string, size: string, qty: int, location: LocationId)
    requires stock.Valid()
    modifies stock
    ensures stock.Valid()
    ensures stock.locations == old(stock.locations) && stock.products == old(stock.products)
    ensures StockState(stock.rows, stock.log)
            == WholesaleStep(old(stock.products), StockState(old(stock.rows), old(stock.log)), Variant(ref, size, location), qty)
    ensures var v := Variant(ref, size, location);
      WholesaleTakes(old(stock.products), old(stock.rows), v, qty) ==>
        && QuantityOf(stock.rows, v) == QuantityOf(old(stock.rows), v) - qty
        && stock.log[|old(stock.log)|].after == stock.log[|old(stock.log)|].before - qty
  {
    var v := Variant(ref, size, location);
    if WholesaleTakes(stock.products, stock.rows, v, qty) {
      var before := QuantityOf(stock.rows, v);
      stock.Shift(v, -qty);
      var _ := stock.Record(ChangeRecord(v, WholesaleSale, before, before - qty, None, None));
    }
  }

  function WholesaleLines(items: seq<WholesaleItem>): (r: seq<SalesRepository.Line>)
    ensures |r| == |items| && forall k :: 0 <= k < |items| ==> r[k] == items[k].AsLine()
  {
    seq(|items|, k requires 0 <= k < |items| => items[k].AsLine())
  }

  function OrUnknown(o: Option<string>): string
  {
    match o
    case None => "Unknown"
    case Some(s) => s
  }

  /** The sale item a wholesale item is stored as. */
  function AsItemRequest(it: WholesaleItem): (r: SalesRepository.ItemRequest)
    ensures r.AsLine() == it.AsLine()
  {
    SalesRepository.ItemRequest(it.ref, OrUnknown(it.brand), OrUnknown(it.model), Some(OrUnknown(it.color)),
                                it.size, it.quantity, it.unitPrice)
  }

  function AsItemRequests(items: seq<WholesaleItem>): (r: seq<SalesRepository.ItemRequest>)
    ensures |r| == |items| && forall k :: 0 <= k < |items| ==> r[k] == AsItemRequest(items[k])
  {
    seq(|items|, k requires 0 <= k < |items| => AsItemRequest(items[k]))
  }

  /** The sale row of a wholesale order: completed, confirmed, for the final amount. */
  function WholesaleSaleRow(req: WholesaleRequest, admin: UserId, now: int): SalesRepository.Sale
  {
    SalesRepository.Sale(admin, req.location, Totals(req.items, req.discountPercentage).final, None, now, "completed",
                         Some("VENTA MAYORISTA - Cliente: " + req.customerName + " (" + req.customerDocument + ") - "
                              + Show(req.notes)),
                         false, true, None)
  }

  datatype WholesaleReceipt = WholesaleReceipt(id: nat, totals: WholesaleTotals, itemsCount: nat, saleDate: int)

  /** One line of a wholesale order: its stored item and its wholesale decrement. */
  method StoreWholesaleLine(stock: Ledger, db: SalesRepository.SalesDb, id: nat, w: WholesaleItem, location: LocationId)
    requires stock.Valid() && db.Valid() && id < |db.sales| && w.quantity > 0
    modifies stock, db
    ensures stock.Valid() && db.Valid()
    ensures stock.locations == old(stock.locations) && stock.products == old(stock.products)
    ensures db.sales == old(db.sales) && db.items == old(db.items) + [SalesRepository.ItemOf(id, AsItemRequest(w))]
    ensures db.payments == old(db.payments) && db.reservations == old(db.reservations) && db.discounts == old(db.discounts)
    ensures StockState(stock.rows, stock.log)
            == WholesaleStep(old(stock.products), StockState(old(stock.rows), old(stock.log)),
                             Variant(w.ref, w.size, location), w.quantity)
  {
    var _ := db.CreateSaleItem(id, AsItemRequest(w));
    UpdateInventoryForSale(stock, w.ref, w.size, w.quantity, location);
  }

  /**
   * Records a wholesale order: one completed sale for the discounted total,
   * one item per order line, and for each line the wholesale decrement at
   * the order's location.  The receipt reports the totals.
   */
  method CreateWholesaleSale(stock: Ledger, db: SalesRepository.SalesDb, req: WholesaleRequest, admin: UserId, now: int)
    returns (receipt: WholesaleReceipt)
    requires stock.Valid() && db.Valid()
    requires forall k :: 0 <= k < |req.items| ==> req.items[k].quantity > 0
    modifies stock, db
    ensures stock.Valid() && db.Valid()
    ensures stock.locations == old(stock.locations) && stock.products == old(stock.products)
    ensures receipt == WholesaleReceipt(|old(db.sales)|, Totals(req.items, req.discountPercentage), |req.items|, now)
    ensures db.sales == old(db.sales) + [WholesaleSaleRow(req, admin, now)]
    ensures db.items == old(db.items) + SalesService.NewItems(receipt.id, AsItemRequests(req.items))
    ensures StockState(stock.rows, stock.log)
            == WholesaleAll(old(stock.products), StockState(old(stock.rows), old(stock.log)), WholesaleLines(req.items), req.location)
    ensures db.payments == old(db.payments) && db.reservations == old(db.reservations) && db.discounts == old(db.discounts)
  {
    var totals := Totals(req.items, req.discountPercentage);
    var id := db.AddSale(WholesaleSaleRow(req, admin, now));
    var its := AsItemRequests(req.items);
    var lines := WholesaleLines(req.items);
    for i := 0 to |req.items|
      invariant stock.Valid() && db.Valid() && |db.sales| == |old(db.sales)| + 1
      invariant stock.locations == old(stock.locations) && stock.products == old(stock.products)
      invariant db.sales == old(db.sales) + [WholesaleSaleRow(req, admin, now)]
      invariant db.items == old(db.items) + SalesService.NewItems(id, its[..i])
      invariant StockState(stock.rows, stock.log)
                == WholesaleAll(old(stock.products), StockState(old(stock.rows), old(stock.log)), lines[..i], req.location)
      invariant db.payments == old(db.payments) && db.reservations == old(db.reservations)
      invariant db.discounts == old(db.discounts)
    {
      assert its[..i + 1][..i] == its[..i] && lines[..i + 1][..i] == lines[..i];
      assert SalesService.NewItems(id, its[..i + 1])
             == SalesService.NewItems(id, its[..i]) + [SalesRepository.ItemOf(id, its[i])];
      assert WholesaleAll(old(stock.products), StockState(old(stock.rows), old(stock.log)), lines[..i + 1], req.location)
             == WholesaleStep(old(stock.products),
                              WholesaleAll(old(stock.products), StockState(old(stock.rows), old(stock.log)), lines[..i], req.location),
                              Variant(req.items[i].ref, req.items[i].size, req.location), req.items[i].quantity);
      StoreWholesaleLine(stock, db, id, req.items[i], req.location);
    }
    assert its[..|req.items|] == its && lines[..|req.items|] == lines;
    receipt := WholesaleReceipt(id, totals, |req.items|, now);
  }

  // ----- Discount requests -----

  /**
   * Records an administrator's decision on discount request `id`: approved
   * or rejected by the flag.  The approver, the time and the notes are
   * written to attributes the table does not map, so only the status is
   * stored; the table's own approver, review time and comments stay as
   * they were.  An unknown id answers nothing and changes nothing.
   */
  method ApproveDiscountRequest(db: SalesRepository.SalesDb, id: nat, approved: bool, admin: UserId,
                                notes: Option<string>, now: int)
    returns (r: Option<SalesRepository.DiscountRequest>)
    requires db.Valid()
    modifies db
    ensures db.Valid()
    ensures r.None? <==> id >= |old(db.discounts)|
    ensures r.None? ==> db.discounts == old(db.discounts)
    ensures r.Some? ==>
      && r.value.status == (if approved then SalesRepository.Approved else SalesRepository.Rejected)
      && r.value.(status := old(db.discounts)[id].status) == old(db.discounts)[id]
      && db.discounts == old(db.discounts)[id := r.value]
    ensures db.sales == old(db.sales) && db.items == old(db.items) && db.payments == old(db.payments)
    ensures db.reservations == old(db.reservations)
  {
    if id >= |db.discounts| {
      return None;
    }
    var d := db.discounts[id].(status := if approved then SalesRepository.Approved else SalesRepository.Rejected);
    db.discounts := db.discounts[id := d];
    r := Some(d);
  }

  // ----- Transfers overview -----

  /** A transfer concerns a set of locations when it leaves from or arrives at one of them. */
  predicate Involves(t: TransferRepository.Transfer, locations: set<LocationId>)
  {
    t.source in locations || t.destination in locations
  }

  /** Newest first: the key orders by requested time, descending. */
  function RecencyKey(t: TransferRepository.Transfer): Ordering.Key
  {
    Ordering.Key(0, 0, -t.requestedAt)
  }

  predicate AllIn(table: map<nat, TransferRepository.Transfer>, ids: seq<nat>)
  {
    forall k :: 0 <= k < |ids| ==> ids[k] in table
  }

  predicate Unique(ids: seq<nat>)
  {
    forall i, j :: 0 <= i < j < |ids| ==> ids[i] != ids[j]
  }

  function RecencyEntries(table: map<nat, TransferRepository.Transfer>, ids: seq<nat>): (es: seq<Ordering.Entry>)
    requires AllIn(table, ids)
    ensures |es| == |ids|
    ensures forall k :: 0 <= k < |ids| ==> es[k] == Ordering.Entry(ids[k], RecencyKey(table[ids[k]]))
  {
    seq(|ids|, k requires 0 <= k < |ids| => Ordering.Entry(ids[k], RecencyKey(table[ids[k]])))
  }

  /** The ids in recency order, newest first. */
  function ByRecency(table: map<nat, TransferRepository.Transfer>, ids: seq<nat>): seq<nat>
    requires AllIn(table, ids)
  {
    Ordering.Ids(Ordering.SortEntries(RecencyEntries(table, ids)))
  }

  /** The ten most recent of the ids. */
  function RecentIds(table: map<nat, TransferRepository.Transfer>, ids: seq<nat>): seq<nat>
    requires AllIn(table, ids)
  {
    Ordering.Take(ByRecency(table, ids), 10)
  }

  /**
   * Ordering distinct ids by recency lists each of them exactly once, and
   * no id is newer than one listed before it.
   */
  lemma ByRecencyCorrect(table: map<nat, TransferRepository.Transfer>, ids: seq<nat>)
    requires AllIn(table, ids) && Unique(ids)
    ensures var all := ByRecency(table, ids);
      && |all| == |ids| && Unique(all) && AllIn(table, all)
      && (forall x :: x in all <==> x in ids)
      && (forall i, j :: 0 <= i < j < |all| ==> table[all[i]].requestedAt >= table[all[j]].requestedAt)
  {
    var entries := RecencyEntries(table, ids);
    assert Ordering.IdsDistinct(entries);
    Ordering.SortedQueue(entries);
    Ordering.SortEntriesCorrect(entries);
    var sorted := Ordering.SortEntries(entries);
    assert |sorted| == |entries| by {
      assert |multiset(sorted)| == |multiset(entries)|;
    }
    SortedRecencyMembers(table, ids, sorted);
    SortedRecencyOrder(table, sorted);
  }

  /** Sorted recency entries of `ids` carry exactly the ids, each with its transfer's key. */
  lemma SortedRecencyMembers(table: map<nat, TransferRepository.Transfer>, ids: seq<nat>, sorted: seq<Ordering.Entry>)
    requires AllIn(table, ids)
    requires forall k :: 0 <= k < |sorted| ==> sorted[k] in RecencyEntries(table, ids)
    requires forall e :: e in RecencyEntries(table, ids) ==> e in sorted
    ensures forall k :: 0 <= k < |sorted| ==>
              sorted[k].id in ids && sorted[k].id in table && sorted[k].key == RecencyKey(table[sorted[k].id])
    ensures forall x :: x in Ordering.Ids(sorted) <==> x in ids
  {
    var entries := RecencyEntries(table, ids);
    var all := Ordering.Ids(sorted);
    forall k | 0 <= k < |sorted|
      ensures sorted[k].id in ids && sorted[k].key == RecencyKey(table[sorted[k].id])
    {
      var m :| 0 <= m < |entries| && entries[m] == sorted[k];
    }
    forall x | x in ids
      ensures x in all
    {
      var k :| 0 <= k < |ids| && ids[k] == x;
      assert entries[k] in sorted;
      var m :| 0 <= m < |sorted| && sorted[m] == entries[k];
      assert all[m] == x;
    }
  }

  /** Entries sorted by recency key list newer transfers first. */
  lemma SortedRecencyOrder(table: map<nat, TransferRepository.Transfer>, sorted: seq<Ordering.Entry>)
    requires Ordering.Sorted(sorted)
    requires forall k :: 0 <= k < |sorted| ==>
               sorted[k].id in table && sorted[k].key == RecencyKey(table[sorted[k].id])
    ensures forall i, j :: 0 <= i < j < |sorted| ==>
              table[sorted[i].id].requestedAt >= table[sorted[j].id].requestedAt
  {
    forall i, j | 0 <= i < j < |sorted|
      ensures table[sorted[i].id].requestedAt >= table[sorted[j].id].requestedAt
    {
      assert Ordering.KeyLe(sorted[i].key, sorted[j].key);
    }
  }

  /**
   * The recent list of distinct ids: no more than ten, ten when there are
   * that many, each id once, newest first, and every id left out no newer
   * than any id kept.
   */
  lemma RecentFirst(table: map<nat, TransferRepository.Transfer>, ids: seq<nat>)
    requires AllIn(table, ids) && Unique(ids)
    ensures var recent := RecentIds(table, ids);
      && |recent| == (if |ids| < 10 then |ids| else 10)
      && (forall k :: 0 <= k < |recent| ==> recent[k] in ids)
      && Unique(recent)
      && (forall i, j :: 0 <= i < j < |recent| ==> table[recent[i]].requestedAt >= table[recent[j]].requestedAt)
      && (forall x, k :: x in ids && x !in recent && 0 <= k < |recent| ==>
            table[x].requestedAt <= table[recent[k]].requestedAt)
  {
    var all := ByRecency(table, ids);
    ByRecencyCorrect(table, ids);
    var recent := RecentIds(table, ids);
    assert forall k :: 0 <= k < |recent| ==> recent[k] == all[k];
    forall k | 0 <= k < |recent|
      ensures recent[k] in ids
    {
      assert all[k] in all;
    }
    forall x, k | x in ids && x !in recent && 0 <= k < |recent|
      ensures table[x].requestedAt <= table[recent[k]].requestedAt
    {
      var m :| 0 <= m < |all| && all[m] == x;
      assert forall q :: 0 <= q < |recent| ==> all[q] != x;
      assert |recent| <= m;
      assert k < m;
    }
  }

  function StatusesOf(table: map<nat, TransferRepository.Transfer>, ids: seq<nat>): (r: seq<TransferSchemas.TransferStatus>)
    requires AllIn(table, ids)
    ensures |r| == |ids| && forall k :: 0 <= k < |ids| ==> r[k] == table[ids[k]].status
  {
    seq(|ids|, k requires 0 <= k < |ids| => table[ids[k]].status)
  }

  function PurposesOf(table: map<nat, TransferRepository.Transfer>, ids: seq<nat>): (r: seq<TransferSchemas.Purpose>)
    requires AllIn(table, ids)
    ensures |r| == |ids| && forall k :: 0 <= k < |ids| ==> r[k] == table[ids[k]].purpose
  {
    seq(|ids|, k requires 0 <= k < |ids| => table[ids[k]].purpose)
  }

  function CountPurpose(s: seq<TransferSchemas.Purpose>, x: TransferSchemas.Purpose): nat
  {
    if s == [] then 0 else CountPurpose(s[..|s| - 1], x) + (if s[|s| - 1] == x then 1 else 0)
  }

  /** A tally's count for `k`; a key never seen counts 0. */
  function Tally<K(!new)>(m: map<K, nat>, k: K): nat
  {
    if k in m then m[k] else 0
  }

  function Bump<K(!new)>(m: map<K, nat>, k: K): (r: map<K, nat>)
    ensures Tally(r, k) == Tally(m, k) + 1
    ensures forall j :: j != k ==> Tally(r, j) == Tally(m, j)
  {
    m[k := Tally(m, k) + 1]
  }

  /** The set of the elements of a list. */
  function Elements(xs: seq<nat>): (r: set<nat>)
    ensures forall x :: x in r <==> x in xs
  {
    if xs == [] then {} else Elements(xs[..|xs| - 1]) + {xs[|xs| - 1]}
  }

  /** A list of distinct ids has as many elements as the set of them. */
  lemma {:induction false} DistinctCard(xs: seq<nat>)
    requires Unique(xs)
    ensures |Elements(xs)| == |xs|
  {
    if xs != [] {
      var n := |xs| - 1;
      assert Unique(xs[..n]);
      DistinctCard(xs[..n]);
      assert xs[n] !in Elements(xs[..n]);
    }
  }

  /** Counts the listed transfers by status and by purpose. */
  method TallyTransfers(table: map<nat, TransferRepository.Transfer>, listed: seq<nat>)
    returns (byStatus: map<TransferSchemas.TransferStatus, nat>, byPurpose: map<TransferSchemas.Purpose, nat>)
    requires AllIn(table, listed)
    ensures forall s :: Tally(byStatus, s) == TransferService.CountStatus(StatusesOf(table, listed), s)
    ensures forall p :: Tally(byPurpose, p) == CountPurpose(PurposesOf(table, listed), p)
  {
    byStatus := map[];
    byPurpose := map[];
    for i := 0 to |listed|
      invariant forall s :: Tally(byStatus, s) == TransferService.CountStatus(StatusesOf(table, listed[..i]), s)
      invariant forall p :: Tally(byPurpose, p) == CountPurpose(PurposesOf(table, listed[..i]), p)
    {
      assert StatusesOf(table, listed[..i + 1])[..i] == StatusesOf(table, listed[..i]);
      assert PurposesOf(table, listed[..i + 1])[..i] == PurposesOf(table, listed[..i]);
      var t := table[listed[i]];
      byStatus := Bump(byStatus, t.status);
      byPurpose := Bump(byPurpose, t.purpose);
    }
    assert listed[..|listed|] == listed;
  }

  /** The ids of the transfers that concern `locations`. */
  function Concerning(table: map<nat, TransferRepository.Transfer>, locations: set<LocationId>): (r: set<nat>)
    ensures forall id :: id in r <==> id in table && Involves(table[id], locations)
  {
    set id | id in table && Involves(table[id], locations)
  }

  datatype Overview = Overview(total: nat, byStatus: map<TransferSchemas.TransferStatus, nat>,
                               byPurpose: map<TransferSchemas.Purpose, nat>, recent: seq<nat>)

  /** The nine status tallies of an overview, added up. */
  function StatusSum(m: map<TransferSchemas.TransferStatus, nat>): nat
  {
    Tally(m, TransferSchemas.Pending) + Tally(m, TransferSchemas.Accepted)
    + Tally(m, TransferSchemas.CourierAssigned) + Tally(m, TransferSchemas.InTransit)
    + Tally(m, TransferSchemas.Delivered) + Tally(m, TransferSchemas.Completed)
    + Tally(m, TransferSchemas.Cancelled) + Tally(m, TransferSchemas.DeliveryFailed)
    + Tally(m, TransferSchemas.ReceptionIssues)
  }

  /**
   * Summarises the transfers leaving from or arriving at `locations`.  Also
   * answers the listed ids: each such transfer once.  The status tallies
   * count the listed transfers by status, and the nine of them add up to
   * the total; the purpose tallies likewise; the recent list holds the ten
   * newest, newest first.
   */
  method TransfersOverview(db: TransferRepository.TransferDb, locations: set<LocationId>)
    returns (o: Overview, listed: seq<nat>)
    ensures forall id :: id in listed <==> id in db.transfers && Involves(db.transfers[id], locations)
    ensures Unique(listed) && AllIn(db.transfers, listed)
    ensures o.total == |listed| == |Concerning(db.transfers, locations)|
    ensures forall s :: Tally(o.byStatus, s) == TransferService.CountStatus(StatusesOf(db.transfers, listed), s)
    ensures forall p :: Tally(o.byPurpose, p) == CountPurpose(PurposesOf(db.transfers, listed), p)
    ensures StatusSum(o.byStatus) == o.total
    ensures o.recent == RecentIds(db.transfers, listed)
  {
    var table := db.transfers;
    var shown := Concerning(table, locations);
    listed := Ordering.Enumerate(shown);
    assert AllIn(table, listed) by {
      forall k | 0 <= k < |listed|
        ensures listed[k] in table
      {
        assert listed[k] in listed;
      }
    }
    assert Elements(listed) == shown;
    DistinctCard(listed);
    var byStatus, byPurpose := TallyTransfers(table, listed);
    TransferService.CountsPartition(StatusesOf(table, listed));
    o := Overview(|listed|, byStatus, byPurpose, RecentIds(table, listed));
  }
}

=== FILE: admin_service.dfy ===
/**
 * The administrator's services: who may manage which location, creating
 * users and placing them at locations, assigning administrators to
 * locations, wholesale sales, the review of discount requests and the
 * transfers overview.
 */
module AdminService {
  import opened Common
  import opened Ledger
  import opened Staff
  import SalesRepository
  import SalesService
  import TransferRepository
  import AdminRepository

  // ----- Roles and location types -----

  /** A seller works at a store ("local"), a warehouse keeper at a warehouse ("bodega"); other roles anywhere. */
  predicate RoleFits(role: Role, kind: LocationKind)
  {
    (role == Vendedor ==> kind == Local) && (role == Bodeguero ==> kind == Bodega)
  }

  /** The placements the rule allows, role by role. */
  lemma RoleFitsExactly(kind: LocationKind)
    ensures RoleFits(Vendedor, kind) <==> kind == Local
    ensures RoleFits(Bodeguero, kind) <==> kind == Bodega
    ensures RoleFits(Corredor, kind) && RoleFits(Administrador, kind) && RoleFits(Boss, kind)
  {
  }

  // ----- Who manages what -----

  predicate IsBoss(accounts: map<UserId, Account>, admin: UserId)
  {
    admin in accounts && accounts[admin].role == Boss
  }

  /** A boss manages every location; anyone else the locations of their active assignments. */
  predicate CanManage(accounts: map<UserId, Account>, assignments: seq<AdminAssignment>,
                      admin: UserId, location: LocationId)
  {
    IsBoss(accounts, admin) || ActiveAdminAssignment(assignments, admin, location)
  }

  /**
   * Deactivating an administrator's assignment to a location takes that
   * location away from a non-boss, since the pair has a single row.
   */
  lemma RemovalRevokes(accounts: map<UserId, Account>, s: seq<AdminAssignment>, admin: UserId, location: LocationId)
    requires UniqueAdminPairs(s)
    requires FindAdminAssignment(s, admin, location).Some?
    ensures var i := FindAdminAssignment(s, admin, location).value;
      CanManage(accounts, s[i := s[i].(active := false)], admin, location) <==> IsBoss(accounts, admin)
  {
  }

  /** Assigning an administrator to one location keeps the active assignments to the others. */
  lemma AssignmentKeepsOthers(s: seq<AdminAssignment>, admin: UserId, location: LocationId,
                              row: AdminAssignment, other: LocationId)
    requires row.admin == admin && row.location == location && row.active
    requires ActiveAdminAssignment(s, admin, other)
    ensures ActiveAdminAssignment(s + [row], admin, other)
    ensures forall i :: 0 <= i < |s| && s[i].admin == admin && s[i].location == location ==>
              ActiveAdminAssignment(s[i := row], admin, other)
  {
    var j :| 0 <= j < |s| && s[j].admin == admin && s[j].location == other && s[j].active;
    assert (s + [row])[j] == s[j];
    forall i | 0 <= i < |s| && s[i].admin == admin && s[i].location == location
      ensures ActiveAdminAssignment(s[i := row], admin, other)
    {
      if i == j {
        assert s[i := row][i] == row;
      } else {
        assert s[i := row][j] == s[j];
      }
    }
  }

  /** The active locations an administrator oversees: all of them for a boss. */
  function ManagedLocations(accounts: map<UserId, Account>, assignments: seq<AdminAssignment>,
                            locations: map<LocationId, Location>, admin: UserId): set<LocationId>
  {
    set l | l in locations && locations[l].active && CanManage(accounts, assignments, admin, l)
  }

  /** An administrator oversees exactly the active locations they may manage. */
  lemma ManagedLocationsExactly(accounts: map<UserId, Account>, assignments: seq<AdminAssignment>,
                                locations: map<LocationId, Location>, admin: UserId)
    ensures forall l :: l in ManagedLocations(accounts, assignments, locations, admin) <==>
              l in locations && locations[l].active && CanManage(accounts, assignments, admin, l)
    ensures IsBoss(accounts, admin) ==>
              forall l :: l in locations && locations[l].active ==> l in ManagedLocations(accounts, assignments, locations, admin)
  {
  }

  // ----- Users -----

  predicate EmailTaken(accounts: map<UserId, Account>, email: string)
  {
    exists id :: id in accounts && accounts[id].email == Lower(email)
  }

  datatype NewUser = NewUser(email: string, role: Role, location: Option<LocationId>)

  /**
   * Creates a user.  A location the caller does not manage is forbidden, a
   * taken email (compared in lower case) is a bad request, an unknown
   * location is not found and a role that does not fit the location's type
   * is a bad request, in that order.  The account takes the next id, with
   * its email lowered, active; a user with a location also gets an active
   * assignment there in the user's role.
   */
  method CreateUser(staff: StaffDb, locations: map<LocationId, Location>, admin: User, req: NewUser)
    returns (r: Result<UserId>)
    requires staff.Valid()
    modifies staff
    ensures staff.Valid()
    ensures staff.adminAssignments == old(staff.adminAssignments)
    ensures req.location.Some? && !CanManage(old(staff.accounts), old(staff.adminAssignments), admin.id, req.location.value)
            ==> r == Err(Forbidden)
    ensures ((req.location.Some? ==> CanManage(old(staff.accounts), old(staff.adminAssignments), admin.id, req.location.value))
             && EmailTaken(old(staff.accounts), req.email)) ==> r == Err(BadRequest)
    ensures r.Ok? <==> && (req.location.Some? ==> CanManage(old(staff.accounts), old(staff.adminAssignments), admin.id, req.location.value)
                                                  && req.location.value in locations
                                                  && RoleFits(req.role, locations[req.location.value].kind))
                       && !EmailTaken(old(staff.accounts), req.email)
    ensures r.Err? ==> staff.accounts == old(staff.accounts) && staff.nextUserId == old(staff.nextUserId)
                       && staff.userAssignments == old(staff.userAssignments)
    ensures r.Ok? ==>
      && r.value == old(staff.nextUserId) && r.value !in old(staff.accounts)
      && staff.nextUserId == old(staff.nextUserId) + 1
      && staff.accounts == old(staff.accounts)[r.value := Account(Lower(req.email), req.role, req.location, true)]
      && staff.userAssignments == old(staff.userAssignments)
           + (if req.location.Some? then [UserAssignment(r.value, req.location.value, RoleName(req.role), true)] else [])
  {
    if req.location.Some? && !CanManage(staff.accounts, staff.adminAssignments, admin.id, req.location.value) {
      return Err(Forbidden);
    }
    if EmailTaken(staff.accounts, req.email) {
      return Err(BadRequest);
    }
    if req.location.Some? {
      if req.location.value !in locations {
        return Err(NotFound);
      }
      if !RoleFits(req.role, locations[req.location.value].kind) {
        return Err(BadRequest);
      }
    }
    var id := staff.nextUserId;
    staff.accounts := staff.accounts[id := Account(Lower(req.email), req.role, req.location, true)];
    staff.nextUserId := id + 1;
    if req.location.Some? {
      var s := staff.userAssignments;
      staff.userAssignments := s + [UserAssignment(id, req.location.value, RoleName(req.role), true)];
      assert forall i :: 0 <= i < |s| ==> s[i].user < id;
    }
    r := Ok(id);
  }

  /**
   * Every active row of `user` made inactive, in place: afterwards no row of
   * `user` is active, every row of another user is as it was, and each row
   * keeps its user, location and role.
   */
  function DeactivateUser(s: seq<UserAssignment>, user: UserId): (r: seq<UserAssignment>)
    ensures |r| == |s|
    ensures forall i :: 0 <= i < |r| && r[i].user == user ==> !r[i].active
    ensures forall i :: 0 <= i < |s| && s[i].user != user ==> r[i] == s[i]
    ensures forall i :: 0 <= i < |s| ==>
              r[i].user == s[i].user && r[i].location == s[i].location && r[i].roleAtLocation == s[i].roleAtLocation
  {
    seq(|s|, i requires 0 <= i < |s| => if s[i].user == user then s[i].(active := false) else s[i])
  }

  /**
   * Moving a user as the code does: the user's rows are deactivated and a
   * new row for the destination is inserted.  The table's constraint allows
   * one row per user and location, so the insert fails whenever the user
   * has a row for the destination already, active or not.
   */
  function ReassignAsWritten(s: seq<UserAssignment>, user: UserId, dest: LocationId, role: string)
    : Result<seq<UserAssignment>>
  {
    var d := DeactivateUser(s, user);
    if FindUserAssignment(d, user, dest).Some? then Err(StorageFailed)
    else Ok(d + [UserAssignment(user, dest, role, true)])
  }

  /** The as-written move fails exactly for a user who has ever been at the destination. */
  lemma ReassignAsWrittenFails(s: seq<UserAssignment>, user: UserId, dest: LocationId, role: string)
    ensures ReassignAsWritten(s, user, dest, role).Err? <==> FindUserAssignment(s, user, dest).Some?
  {
    var d := DeactivateUser(s, user);
    if FindUserAssignment(s, user, dest).Some? {
      var i := FindUserAssignment(s, user, dest).value;
      assert d[i].user == user && d[i].location == dest;
    }
  }

  /**
   * A seller created at store 3, moved to store 4 and then sent back to
   * store 3 cannot be moved back: the second move fails.
   */
  lemma ReturnToEarlierStoreFails()
    ensures var s0 := [UserAssignment(7, 3, "vendedor", true)];
      && ReassignAsWritten(s0, 7, 4, "vendedor")
         == Ok([UserAssignment(7, 3, "vendedor", false), UserAssignment(7, 4, "vendedor", true)])
      && ReassignAsWritten(ReassignAsWritten(s0, 7, 4, "vendedor").value, 7, 3, "vendedor") == Err(StorageFailed)
  {
    var s0 := [UserAssignment(7, 3, "vendedor", true)];
    var d0 := DeactivateUser(s0, 7);
    assert d0 == [UserAssignment(7, 3, "vendedor", false)];
    assert FindUserAssignment(d0, 7, 4).None?;
    var s1 := [UserAssignment(7, 3, "vendedor", false), UserAssignment(7, 4, "vendedor", true)];
    assert d0 + [UserAssignment(7, 4, "vendedor", true)] == s1;
    assert ReassignAsWritten(s0, 7, 4, "vendedor") == Ok(s1);
    var d1 := DeactivateUser(s1, 7);
    assert d1[0] == UserAssignment(7, 3, "vendedor", false);
    assert FindUserAssignment(d1, 7, 3).Some?;
  }

  /**
   * Updating a seller of store 3 with location 3 again, as the user update
   * does it, fails: the user's row for store 3 is deactivated and a second
   * one inserted.
   */
  lemma UpdateToSameStoreFails()
    ensures ReassignAsWritten([UserAssignment(7, 3, "vendedor", true)], 7, 3, "vendedor") == Err(StorageFailed)
  {
    var d := DeactivateUser([UserAssignment(7, 3, "vendedor", true)], 7);
    assert d[0] == UserAssignment(7, 3, "vendedor", false);
    assert FindUserAssignment(d, 7, 3).Some?;
  }

  /**
   * Moving a user as intended: the user's rows are deactivated, then the
   * destination's row is reactivated when the user has one and inserted
   * otherwise.
   */
  function Reassign(s: seq<UserAssignment>, user: UserId, dest: LocationId, role: string): seq<UserAssignment>
  {
    var d := DeactivateUser(s, user);
    match FindUserAssignment(d, user, dest)
    case Some(i) => d[i := d[i].(roleAtLocation := role, active := true)]
    case None => d + [UserAssignment(user, dest, role, true)]
  }

  /** Whether the user's only active rows are at `dest`, and there is one. */
  predicate OnlyActiveAt(s: seq<UserAssignment>, user: UserId, dest: LocationId)
  {
    (exists i :: 0 <= i < |s| && s[i].user == user && s[i].location == dest && s[i].active)
    && (forall i :: 0 <= i < |s| && s[i].user == user && s[i].active ==> s[i].location == dest)
  }

  /**
   * The intended move always succeeds: it keeps one row per user and
   * location, leaves every other user's rows alone, adds at most the
   * destination's row, and leaves the user active at the destination only.
   */
  lemma ReassignCorrect(s: seq<UserAssignment>, user: UserId, dest: LocationId, role: string)
    requires UniqueUserPairs(s)
    ensures var r := Reassign(s, user, dest, role);
      && UniqueUserPairs(r)
      && |s| <= |r| <= |s| + 1
      && (forall i :: 0 <= i < |s| && s[i].user != user ==> r[i] == s[i])
      && (forall i :: 0 <= i < |s| ==> r[i].user == s[i].user && r[i].location == s[i].location)
      && (forall i :: |s| <= i < |r| ==> r[i] == UserAssignment(user, dest, role, true))
      && OnlyActiveAt(r, user, dest)
  {
    var d := DeactivateUser(s, user);
    assert UniqueUserPairs(d);
    var r := Reassign(s, user, dest, role);
    match FindUserAssignment(d, user, dest)
    case Some(i) =>
      assert r[i].user == user && r[i].location == dest && r[i].active;
      forall j | 0 <= j < |r| && r[j].user == user && r[j].active
        ensures r[j].location == dest
      {
      }
    case None =>
      assert r[|s|].user == user && r[|s|].location == dest && r[|s|].active;
      forall j | 0 <= j < |r| && r[j].user == user && r[j].active
        ensures r[j].location == dest
      {
      }
      forall j, k | 0 <= j < k < |r|
        ensures !(r[j].user == r[k].user && r[j].location == r[k].location)
      {
        if k == |s| {
          assert r[j] == d[j];
        }
      }
  }

  /** The role stored for a placement: the one asked for, unless missing or empty, else the user's own. */
  function PlacementRole(requested: Option<string>, role: Role): string
  {
    if requested.Some? && requested.value != "" then requested.value else RoleName(role)
  }

  datatype Placement = Placement(user: UserId, location: LocationId, roleInLocation: Option<string>)

  datatype PlacementReceipt = PlacementReceipt(previous: Option<LocationId>, destination: LocationId)

  /**
   * Places a user at a location.  An unknown user is not found.  The caller
   * must manage the user's current location, and only the boss places a
   * user who has none; the destination must exist, be managed by the caller
   * and fit the user's role.  The user's location becomes the destination
   * and the assignments move as Reassign says.
   */
  method AssignUserToLocation(staff: StaffDb, locations: map<LocationId, Location>, admin: User, p: Placement)
    returns (r: Result<PlacementReceipt>)
    requires staff.Valid()
    modifies staff
    ensures staff.Valid()
    ensures staff.nextUserId == old(staff.nextUserId) && staff.adminAssignments == old(staff.adminAssignments)
    ensures p.user !in old(staff.accounts) ==> r == Err(NotFound)
    ensures p.user in old(staff.accounts) && old(staff.accounts)[p.user].location.None? && admin.role != Boss
            ==> r == Err(Forbidden)
    ensures p.user in old(staff.accounts) && old(staff.accounts)[p.user].location.Some?
            && !CanManage(old(staff.accounts), old(staff.adminAssignments), admin.id, old(staff.accounts)[p.user].location.value)
            ==> r == Err(Forbidden)
    ensures r.Ok? <==> && p.user in old(staff.accounts)
                       && (match old(staff.accounts)[p.user].location
                           case Some(l) => CanManage(old(staff.accounts), old(staff.adminAssignments), admin.id, l)
                           case None => admin.role == Boss)
                       && p.location in locations
                       && CanManage(old(staff.accounts), old(staff.adminAssignments), admin.id, p.location)
                       && RoleFits(old(staff.accounts)[p.user].role, locations[p.location].kind)
    ensures r.Err? ==> staff.accounts == old(staff.accounts) && staff.userAssignments == old(staff.userAssignments)
    ensures r.Ok? ==> var a := old(staff.accounts)[p.user];
      && r.value == PlacementReceipt(a.location, p.location)
      && staff.accounts == old(staff.accounts)[p.user := a.(location := Some(p.location))]
      && staff.userAssignments
         == Reassign(old(staff.userAssignments), p.user, p.location, PlacementRole(p.roleInLocation, a.role))
      && OnlyActiveAt(staff.userAssignments, p.user, p.location)
  {
    if p.user !in staff.accounts {
      return Err(NotFound);
    }
    var a := staff.accounts[p.user];
    match a.location {
      case Some(l) =>
        if !CanManage(staff.accounts, staff.adminAssignments, admin.id, l) {
          return Err(Forbidden);
        }
      case None =>
        if admin.role != Boss {
          return Err(Forbidden);
        }
    }
    if p.location !in locations {
      return Err(NotFound);
    }
    if !CanManage(staff.accounts, staff.adminAssignments, admin.id, p.location) {
      return Err(Forbidden);
    }
    if !RoleFits(a.role, locations[p.location].kind) {
      return Err(BadRequest);
    }
    var s := staff.userAssignments;
    var role := PlacementRole(p.roleInLocation, a.role);
    ReassignCorrect(s, p.user, p.location, role);
    staff.accounts := staff.accounts[p.user := a.(location := Some(p.location))];
    staff.userAssignments := Reassign(s, p.user, p.location, role);
    r := Ok(PlacementReceipt(a.location, p.location));
  }

  datatype UserUpdate = UserUpdate(active: Option<bool>, location: Option<LocationId>)

  /**
   * Updates a user's active flag and location.  An unknown user is not
   * found; the caller must manage the user's current location, if any; a
   * new location must be managed by the caller (checked before it is looked
   * up), exist and fit the user's role.  Given fields replace the stored
   * ones; a new location moves the assignments as Reassign says, in the
   * user's own role (the code inserts a new row instead, as ReassignAsWritten
   * does, and fails when the user already has a row there).
   */
  method UpdateUser(staff: StaffDb, locations: map<LocationId, Location>, admin: User, user: UserId, u: UserUpdate)
    returns (r: Result<Account>)
    requires staff.Valid()
    modifies staff
    ensures staff.Valid()
    ensures staff.nextUserId == old(staff.nextUserId) && staff.adminAssignments == old(staff.adminAssignments)
    ensures user !in old(staff.accounts) ==> r == Err(NotFound)
    ensures user in old(staff.accounts) && old(staff.accounts)[user].location.Some?
            && !CanManage(old(staff.accounts), old(staff.adminAssignments), admin.id, old(staff.accounts)[user].location.value)
            ==> r == Err(Forbidden)
    ensures r.Ok? <==> && user in old(staff.accounts)
                       && (old(staff.accounts)[user].location.Some? ==>
                             CanManage(old(staff.accounts), old(staff.adminAssignments), admin.id,
                                       old(staff.accounts)[user].location.value))
                       && (u.location.Some? ==>
                             && CanManage(old(staff.accounts), old(staff.adminAssignments), admin.id, u.location.value)
                             && u.location.value in locations
                             && RoleFits(old(staff.accounts)[user].role, locations[u.location.value].kind))
    ensures r.Err? ==> staff.accounts == old(staff.accounts) && staff.userAssignments == old(staff.userAssignments)
    ensures r.Ok? ==> var a := old(staff.accounts)[user];
      && r.value == a.(active := if u.active.Some? then u.active.value else a.active,
                       location := if u.location.Some? then u.location else a.location)
      && staff.accounts == old(staff.accounts)[user := r.value]
      && (u.location.None? ==> staff.userAssignments == old(staff.userAssignments))
      && (u.location.Some? ==>
            && staff.userAssignments == Reassign(old(staff.userAssignments), user, u.location.value, RoleName(a.role))
            && OnlyActiveAt(staff.userAssignments, user, u.location.value))
  {
    if user !in staff.accounts {
      return Err(NotFound);
    }
    var a := staff.accounts[user];
    if a.location.Some? && !CanManage(staff.accounts, staff.adminAssignments, admin.id, a.location.value) {
      return Err(Forbidden);
    }
    if u.location.Some? {
      if !CanManage(staff.accounts, staff.adminAssignments, admin.id, u.location.value) {
        return Err(Forbidden);
      }
      if u.location.value !in locations {
        return Err(NotFound);
      }
      if !RoleFits(a.role, locations[u.location.value].kind) {
        return Err(BadRequest);
      }
    }
    var updated := a.(active := if u.active.Some? then u.active.value else a.active,
                      location := if u.location.Some? then u.location else a.location);
    staff.accounts := staff.accounts[user := updated];
    if u.location.Some? {
      var s := staff.userAssignments;
      ReassignCorrect(s, user, u.location.value, RoleName(a.role));
      staff.userAssignments := Reassign(s, user, u.location.value, RoleName(a.role));
    }
    r := Ok(updated);
  }

  // ----- Administrator assignments -----

  /**
   * The boss assigns an administrator to a location: an unknown user is not
   * found, a user who is not an administrator is a bad request, an unknown
   * location is not found; otherwise the repository's assignment, stamped
   * with the boss as assigner.
   */
  method AssignAdminToLocation(staff: StaffDb, locations: map<LocationId, Location>, boss: User,
                               admin: UserId, location: LocationId, notes: Option<string>, now: int)
    returns (r: Result<nat>)
    requires staff.Valid()
    modifies staff
    ensures staff.Valid()
    ensures staff.accounts == old(staff.accounts) && staff.nextUserId == old(staff.nextUserId)
    ensures staff.userAssignments == old(staff.userAssignments)
    ensures admin !in staff.accounts ==> r == Err(NotFound)
    ensures admin in staff.accounts && staff.accounts[admin].role != Administrador ==> r == Err(BadRequest)
    ensures r.Ok? <==> admin in staff.accounts && staff.accounts[admin].role == Administrador && location in locations
    ensures r.Err? ==> staff.adminAssignments == old(staff.adminAssignments)
    ensures r.Ok? ==>
      var row := AdminAssignment(admin, location, true, now, Some(boss.id), notes);
      && (FindAdminAssignment(old(staff.adminAssignments), admin, location).Some? ==>
            && r.value == FindAdminAssignment(old(staff.adminAssignments), admin, location).value
            && staff.adminAssignments == old(staff.adminAssignments)[r.value := row])
      && (FindAdminAssignment(old(staff.adminAssignments), admin, location).None? ==>
            && r.value == |old(staff.adminAssignments)|
            && staff.adminAssignments == old(staff.adminAssignments) + [row])
      && CanManage(staff.accounts, staff.adminAssignments, admin, location)
  {
    if admin !in staff.accounts {
      return Err(NotFound);
    }
    if staff.accounts[admin].role != Administrador {
      return Err(BadRequest);
    }
    if location !in locations {
      return Err(NotFound);
    }
    var index := AdminRepository.CreateAdminAssignment(staff, admin, location, Some(boss.id), notes, now);
    r := Ok(index);
  }

  /** The known locations among `ls`, in order, repetitions kept. */
  function KnownLocations(ls: seq<LocationId>, locations: map<LocationId, Location>): (r: seq<LocationId>)
    ensures |r| <= |ls|
    ensures forall l :: l in r <==> l in ls && l in locations
  {
    if ls == [] then []
    else KnownLocations(ls[..|ls| - 1], locations) + (if ls[|ls| - 1] in locations then [ls[|ls| - 1]] else [])
  }

  /**
   * `after` differs from `before` only in rows of `admin` at a location of
   * `ls`: every other row is as it was, every row keeps its administrator
   * and location, and the rows added are the administrator's at locations
   * of `ls`.
   */
  predicate ChangedOnlyAt(before: seq<AdminAssignment>, after: seq<AdminAssignment>, admin: UserId, ls: seq<LocationId>)
  {
    && |before| <= |after|
    && (forall j :: 0 <= j < |before| ==> after[j].admin == before[j].admin && after[j].location == before[j].location)
    && (forall j :: 0 <= j < |before| && (before[j].admin != admin || before[j].location !in ls) ==> after[j] == before[j])
    && (forall j :: |before| <= j < |after| ==> after[j].admin == admin && after[j].location in ls)
  }

  /** Two changes confined to `xs` and then `ys` are together confined to `xs + ys`. */
  lemma ChangedOnlyAtChain(a: seq<AdminAssignment>, b: seq<AdminAssignment>, c: seq<AdminAssignment>,
                           admin: UserId, xs: seq<LocationId>, ys: seq<LocationId>)
    requires ChangedOnlyAt(a, b, admin, xs) && ChangedOnlyAt(b, c, admin, ys)
    ensures ChangedOnlyAt(a, c, admin, xs + ys)
  {
    forall j | |a| <= j < |c|
      ensures c[j].admin == admin && c[j].location in xs + ys
    {
      if j < |b| {
        assert c[j].admin == b[j].admin && c[j].location == b[j].location;
      }
    }
  }

  /**
   * One placement of `AssignAdminToMultipleLocations`: the administrator
   * holds `location` afterwards iff the assignment succeeds, and keeps
   * every location held before.
   */
  method PlaceAdmin(staff: StaffDb, locations: map<LocationId, Location>, boss: User,
                    admin: UserId, location: LocationId, notes: Option<string>, now: int)
    returns (r: Result<nat>)
    requires staff.Valid()
    modifies staff
    ensures staff.Valid()
    ensures staff.accounts == old(staff.accounts) && staff.nextUserId == old(staff.nextUserId)
    ensures staff.userAssignments == old(staff.userAssignments)
    ensures r.Ok? <==> admin in staff.accounts && staff.accounts[admin].role == Administrador && location in locations
    ensures r.Err? ==> staff.adminAssignments == old(staff.adminAssignments)
    ensures r.Ok? ==> ActiveAdminAssignment(staff.adminAssignments, admin, location)
    ensures forall l :: ActiveAdminAssignment(old(staff.adminAssignments), admin, l) ==>
              ActiveAdminAssignment(staff.adminAssignments, admin, l)
    ensures ChangedOnlyAt(old(staff.adminAssignments), staff.adminAssignments, admin, [location])
  {
    ghost var before := staff.adminAssignments;
    r := AssignAdminToLocation(staff, locations, boss, admin, location, notes, now);
    if r.Ok? {
      forall l | ActiveAdminAssignment(before, admin, l)
        ensures ActiveAdminAssignment(staff.adminAssignments, admin, l)
      {
        AssignmentKeepsOthers(before, admin, location, AdminAssignment(admin, location, true, now, Some(boss.id), notes), l);
      }
    }
  }

  /**
   * Assigns an administrator to several locations, one at a time, skipping
   * each that fails.  The assignments made are exactly those to the known
   * locations when the user is an administrator, and none otherwise;
   * afterwards the administrator manages every location placed.
   */
  method AssignAdminToMultipleLocations(staff: StaffDb, locations: map<LocationId, Location>, boss: User,
                                        admin: UserId, ls: seq<LocationId>, notes: Option<string>, now: int)
    returns (results: seq<nat>, placed: seq<LocationId>)
    requires staff.Valid()
    modifies staff
    ensures staff.Valid()
    ensures staff.accounts == old(staff.accounts) && staff.nextUserId == old(staff.nextUserId)
    ensures staff.userAssignments == old(staff.userAssignments)
    ensures |results| == |placed|
    ensures placed == if admin in staff.accounts && staff.accounts[admin].role == Administrador
                        then KnownLocations(ls, locations) else []
    ensures placed == [] ==> staff.adminAssignments == old(staff.adminAssignments)
    ensures forall l :: l in placed ==> ActiveAdminAssignment(staff.adminAssignments, admin, l)
    ensures forall l :: ActiveAdminAssignment(old(staff.adminAssignments), admin, l) ==>
              ActiveAdminAssignment(staff.adminAssignments, admin, l)
    ensures ChangedOnlyAt(old(staff.adminAssignments), staff.adminAssignments, admin, ls)
  {
    results := [];
    placed := [];
    var valid := admin in staff.accounts && staff.accounts[admin].role == Administrador;
    for k := 0 to |ls|
      invariant staff.Valid()
      invariant staff.accounts == old(staff.accounts) && staff.nextUserId == old(staff.nextUserId)
      invariant staff.userAssignments == old(staff.userAssignments)
      invariant |results| == |placed|
      invariant placed == if valid then KnownLocations(ls[..k], locations) else []
      invariant placed == [] ==> staff.adminAssignments == old(staff.adminAssignments)
      invariant forall l :: l in placed ==> ActiveAdminAssignment(staff.adminAssignments, admin, l)
      invariant forall l :: ActiveAdminAssignment(old(staff.adminAssignments), admin, l) ==>
                  ActiveAdminAssignment(staff.adminAssignments, admin, l)
      invariant ChangedOnlyAt(old(staff.adminAssignments), staff.adminAssignments, admin, ls[..k])
    {
      assert ls[..k + 1][..k] == ls[..k];
      assert KnownLocations(ls[..k + 1], locations)
             == KnownLocations(ls[..k], locations) + (if ls[k] in locations then [ls[k]] else []);
      ghost var mid := staff.adminAssignments;
      var r := PlaceAdmin(staff, locations, boss, admin, ls[k], notes, now);
      ChangedOnlyAtChain(old(staff.adminAssignments), mid, staff.adminAssignments, admin, ls[..k], [ls[k]]);
      assert ls[..k] + [ls[k]] == ls[..k + 1];
      if r.Ok? {
        results := results + [r.value];
        placed := placed + [ls[k]];
      }
    }
    assert ls[..|ls|] == ls;
  }

  /** The boss removes an assignment; a missing one is not found. */
  method RemoveAdminAssignment(staff: StaffDb, admin: UserId, location: LocationId) returns (r: Result<bool>)
    requires staff.Valid()
    modifies staff
    ensures staff.Valid()
    ensures staff.accounts == old(staff.accounts) && staff.userAssignments == old(staff.userAssignments)
    ensures staff.nextUserId == old(staff.nextUserId)
    ensures r.Err? <==> FindAdminAssignment(old(staff.adminAssignments), admin, location).None?
    ensures r.Err? ==> r == Err(NotFound) && staff.adminAssignments == old(staff.adminAssignments)
    ensures r.Ok? ==> r.value && var i := FindAdminAssignment(old(staff.adminAssignments), admin, location).value;
                      staff.adminAssignments == old(staff.adminAssignments)[i := old(staff.adminAssignments)[i].(active := false)]
    ensures !ActiveAdminAssignment(staff.adminAssignments, admin, location)
    ensures r.Ok? ==> (CanManage(staff.accounts, staff.adminAssignments, admin, location) <==> IsBoss(staff.accounts, admin))
  {
    ghost var before := staff.adminAssignments;
    var removed := AdminRepository.RemoveAdminAssignment(staff, admin, location);
    if !removed {
      return Err(NotFound);
    }
    RemovalRevokes(staff.accounts, before, admin, location);
    r := Ok(true);
  }

  // ----- Wholesale sales -----

  datatype ProductCheck = ProductCheck(available: bool, availableQuantity: Option<int>)

  /**
   * Whether one size of an active product at a location holds `qty` units:
   * missing or inactive products and missing sizes are unavailable.  The
   * quantity on hand is reported whenever the product is found.
   */
  function CheckProductAvailability(rows: seq<SizeRow>, products: map<ProductKey, Product>,
                                    ref: string, size: string, qty: int, location: LocationId): (c: ProductCheck)
    ensures c.available <==> CanTake(rows, products, Variant(ref, size, location), qty, true)
    ensures var k := ProductKey(ref, location);
      c.availableQuantity == if k in products && products[k].active
                             then Some(QuantityOf(rows, Variant(ref, size, location))) else None
  {
    var v := Variant(ref, size, location);
    if !(v.Key() in products && products[v.Key()].active) then ProductCheck(false, None)
    else if Find(rows, v).None? then ProductCheck(false, Some(0))
    else if QuantityOf(rows, v) < qty then ProductCheck(false, Some(QuantityOf(rows, v)))
    else ProductCheck(true, Some(QuantityOf(rows, v)))
  }

  /** What the check approves, the repository's wholesale decrement takes. */
  lemma AvailableIsTaken(rows: seq<SizeRow>, products: map<ProductKey, Product>,
                         ref: string, size: string, qty: int, location: LocationId)
    requires Distinct(rows)
    requires CheckProductAvailability(rows, products, ref, size, qty, location).available
    ensures AdminRepository.WholesaleTakes(products, rows, Variant(ref, size, location), qty)
    ensures QuantityOf(Adjust(rows, Variant(ref, size, location), -qty), Variant(ref, size, location))
            == QuantityOf(rows, Variant(ref, size, location)) - qty
  {
    AdjustEffect(rows, Variant(ref, size, location), -qty);
  }

  predicate AllAvailable(rows: seq<SizeRow>, products: map<ProductKey, Product>, req: AdminRepository.WholesaleRequest)
  {
    forall k :: 0 <= k < |req.items| ==>
      CheckProductAvailability(rows, products, req.items[k].ref, req.items[k].size, req.items[k].quantity, req.location).available
  }

  /**
   * Processes a wholesale order: an unknown location is not found, and an
   * item whose size does not hold its quantity before the sale is a bad
   * request, both with nothing changed; otherwise the repository records
   * the sale.
   */
  method ProcessWholesaleSale(stock: Ledger, db: SalesRepository.SalesDb, admin: User,
                              req: AdminRepository.WholesaleRequest, now: int)
    returns (r: Result<AdminRepository.WholesaleReceipt>)
    requires stock.Valid() && db.Valid()
    requires forall k :: 0 <= k < |req.items| ==> req.items[k].quantity > 0
    modifies stock, db
    ensures stock.Valid() && db.Valid()
    ensures stock.locations == old(stock.locations) && stock.products == old(stock.products)
    ensures req.location !in stock.locations ==> r == Err(NotFound)
    ensures r.Ok? <==> req.location in stock.locations && AllAvailable(old(stock.rows), stock.products, req)
    ensures r.Err? ==> r.error in {NotFound, BadRequest}
    ensures r.Err? ==> stock.rows == old(stock.rows) && stock.log == old(stock.log)
                       && db.sales == old(db.sales) && db.items == old(db.items)
    ensures db.payments == old(db.payments) && db.reservations == old(db.reservations) && db.discounts == old(db.discounts)
    ensures r.Ok? ==>
      && r.value == AdminRepository.WholesaleReceipt(|old(db.sales)|, AdminRepository.Totals(req.items, req.discountPercentage),
                                                     |req.items|, now)
      && db.sales == old(db.sales) + [AdminRepository.WholesaleSaleRow(req, admin.id, now)]
      && db.items == old(db.items) + SalesService.NewItems(r.value.id, AdminRepository.AsItemRequests(req.items))
      && AdminRepository.StockState(stock.rows, stock.log)
         == AdminRepository.WholesaleAll(old(stock.products), AdminRepository.StockState(old(stock.rows), old(stock.log)),
                                         AdminRepository.WholesaleLines(req.items), req.location)
  {
    if req.location !in stock.locations {
      return Err(NotFound);
    }
    for k := 0 to |req.items|
      invariant forall j :: 0 <= j < k ==>
        CheckProductAvailability(stock.rows, stock.products, req.items[j].ref, req.items[j].size,
                                 req.items[j].quantity, req.location).available
    {
      var it := req.items[k];
      if !CheckProductAvailability(stock.rows, stock.products, it.ref, it.size, it.quantity, req.location).available {
        return Err(BadRequest);
      }
    }
    var receipt := AdminRepository.CreateWholesaleSale(stock, db, req, admin.id, now);
    r := Ok(receipt);
  }

  // ----- Discount requests -----

  /**
   * The repository's decision on a discount request: only its status
   * changes.  An unknown request is not found.
   */
  method ApproveDiscountRequest(db: SalesRepository.SalesDb, admin: User, id: nat, approved: bool,
                                notes: Option<string>, now: int)
    returns (r: Result<SalesRepository.DiscountRequest>)
    requires db.Valid()
    modifies db
    ensures db.Valid()
    ensures r.Err? <==> id >= |old(db.discounts)|
    ensures r.Err? ==> r == Err(NotFound) && db.discounts == old(db.discounts)
    ensures r.Ok? ==> db.discounts == old(db.discounts)[id := r.value]
                      && r.value.status == (if approved then SalesRepository.Approved else SalesRepository.Rejected)
                      && r.value.(status := old(db.discounts)[id].status) == old(db.discounts)[id]
    ensures db.sales == old(db.sales) && db.items == old(db.items)
    ensures db.payments == old(db.payments) && db.reservations == old(db.reservations)
  {
    var d := AdminRepository.ApproveDiscountRequest(db, id, approved, admin.id, notes, now);
    if d.None? {
      return Err(NotFound);
    }
    r := Ok(d.value);
  }

  // ----- Transfers overview -----

  /**
   * The overview of the transfers concerning the locations the caller
   * oversees: the active locations they manage, or every active location
   * for the boss.
   */
  method GetTransfersOverview(staff: StaffDb, locations: map<LocationId, Location>,
                              tdb: TransferRepository.TransferDb, admin: User)
    returns (o: AdminRepository.Overview, listed: seq<nat>)
    ensures var managed := ManagedLocations(staff.accounts, staff.adminAssignments, locations, admin.id);
      && (forall id :: id in listed <==>
            id in tdb.transfers && AdminRepository.Involves(tdb.transfers[id], managed))
      && o.total == |listed| == |AdminRepository.Concerning(tdb.transfers, managed)|
      && AdminRepository.StatusSum(o.byStatus) == o.total
      && AdminRepository.AllIn(tdb.transfers, listed)
      && o.recent == AdminRepository.RecentIds(tdb.transfers, listed)
    ensures forall id :: id in listed ==>
              var t := tdb.transfers[id];
              (t.source in locations && locations[t.source].active
               && CanManage(staff.accounts, staff.adminAssignments, admin.id, t.source))
              || (t.destination in locations && locations[t.destination].active
                  && CanManage(staff.accounts, staff.adminAssignments, admin.id, t.destination))
  {
    var managed := ManagedLocations(staff.accounts, staff.adminAssignments, locations, admin.id);
    o, listed := AdminRepository.TransfersOverview(tdb, managed);
  }
}

=== FILE: common.dfy ===
/**
 * Values shared by every module of the TuStockYa model: optional values,
 * the errors the services answer with, and the authenticated caller.
 */
module Common {

  datatype Option<T> = None | Some(value: T)

  /** The error an operation answers with, named after the HTTP status the service raises. */
  datatype Error =
    | NotFound                // 404
    | Forbidden               // 403
    | InvalidStatus           // 400: the record is not in the status the operation needs
    | BadRequest              // 400: any other rejected request
    | SameLocation            // 400: the request names the caller's own location
    | ProductUnavailable      // 400: no stock row, or no units at all
    | InsufficientStock       // 400: fewer units than requested
    | Conflict                // 409: someone else already claimed the record
    | InventoryUpdateFailed   // 500: the inventory side of a transition failed
    | StorageFailed           // 500: the row could not be written
    | Internal(cause: Error)  // 500 raised by a catch-all around another error

  datatype Result<T> = Ok(value: T) | Err(error: Error)

  /** Roles of the system's users. */
  datatype Role = Vendedor | Bodeguero | Corredor | Administrador | Boss

  type UserId = nat
  type LocationId = nat

  /** The authenticated caller, as the services receive it. */
  datatype User = User(id: UserId, role: Role, location: Option<LocationId>)

  /** How an f-string renders an optional text: a missing value prints as "None". */
  function Show(o: Option<string>): string
  {
    match o
    case None => "None"
    case Some(s) => s
  }

  function LowerChar(c: char): char
  {
    if 'A' <= c <= 'Z' then (c as int + 32) as char else c
  }

  /**
   * A text in lower case (ASCII letters): of the same length, with no capital
   * letter left, each capital replaced by the same letter in lower case and
   * every other character kept.
   */
  function Lower(s: string): (r: string)
    ensures |r| == |s|
    ensures forall i :: 0 <= i < |r| ==> !('A' <= r[i] <= 'Z')
    ensures forall i :: 0 <= i < |s| && !('A' <= s[i] <= 'Z') ==> r[i] == s[i]
    ensures forall i :: 0 <= i < |s| && 'A' <= s[i] <= 'Z' ==>
              'a' <= r[i] <= 'z' && r[i] as int - 'a' as int == s[i] as int - 'A' as int
  {
    seq(|s|, i requires 0 <= i < |s| => LowerChar(s[i]))
  }

  /** Lowering a text twice changes nothing more, and lowering leaves no capital letter. */
  lemma LowerIdempotent(s: string)
    ensures Lower(Lower(s)) == Lower(s)
    ensures forall i :: 0 <= i < |s| ==> !('A' <= Lower(s)[i] <= 'Z')
  {
    assert forall i :: 0 <= i < |s| ==> Lower(Lower(s))[i] == Lower(s)[i];
  }

  /** `p` is a prefix of `s`. */
  predicate IsPrefix(p: string, s: string)
  {
    |p| <= |s| && s[..|p|] == p
  }

  /** `sub` occurs in `s` as a run of consecutive characters. */
  predicate Contains(s: string, sub: string)
    decreases |s|
  {
    IsPrefix(sub, s) || (s != [] && Contains(s[1..], sub))
  }

  /**
   * The match of an SQL `ilike` against the pattern `%pat%`: `pat` occurs
   * in `s` when both are lowered.
   */
  predicate ILike(s: string, pat: string)
  {
    Contains(Lower(s), Lower(pat))
  }

  /** The empty pattern matches every text, and every text matches itself, whatever the case. */
  lemma ILikeBasics(s: string, t: string)
    ensures ILike(s, "")
    ensures Lower(s) == Lower(t) ==> ILike(s, t)
  {
    assert IsPrefix(Lower(""), Lower(s));
    if Lower(s) == Lower(t) {
      assert Lower(s)[..|Lower(t)|] == Lower(s);
    }
  }

  /** Lowering the pattern first changes nothing: the match ignores case. */
  lemma ILikeIgnoresCase(s: string, pat: string)
    ensures ILike(s, pat) <==> ILike(s, Lower(pat))
  {
    LowerIdempotent(pat);
  }

  /** `Contains` holds exactly when `sub` starts at some position of `s`. */
  lemma {:induction false} ContainsMeaning(s: string, sub: string)
    ensures Contains(s, sub) <==> exists k :: 0 <= k <= |s| && IsPrefix(sub, s[k..])
    decreases |s|
  {
    assert s[0..] == s;
    if s != [] {
      ContainsMeaning(s[1..], sub);
      if Contains(s[1..], sub) {
        var k :| 0 <= k <= |s[1..]| && IsPrefix(sub, s[1..][k..]);
        assert s[1..][k..] == s[k + 1..];
      }
      if exists k :: 0 <= k <= |s| && IsPrefix(sub, s[k..]) {
        var k :| 0 <= k <= |s| && IsPrefix(sub, s[k..]);
        if k > 0 {
          assert s[1..][k - 1..] == s[k..];
        }
      }
    }
  }
}

=== FILE: ledger.dfy ===
/**
 * The inventory tables every module reads and writes: locations, products
 * (one per reference code and location), product sizes (the per-size stock
 * rows) and the inventory change log.  The class keeps the stock rows in
 * table order; a variant has at most one row, and no row is negative.
 */
module Ledger {
  import opened Common

  datatype LocationKind = Local | Bodega | OtherKind

  datatype Location = Location(name: string, kind: LocationKind, active: bool)

  /** A product is one reference code at one location. */
  datatype ProductKey = ProductKey(ref: string, location: LocationId)

  datatype Product = Product(brand: string, model: string, color: string,
                             unitPrice: real, boxPrice: real, active: bool)

  /** A stock row's identity: reference code, size and location. */
  datatype Variant = Variant(ref: string, size: string, location: LocationId)
  {
    function Key(): ProductKey { ProductKey(ref, location) }
  }

  datatype SizeRow = SizeRow(variant: Variant, quantity: int)

  datatype ChangeKind = ReturnAddition | WholesaleSale | Movement(movementType: string) | Reversal

  /** The string stored in a change record's type column. */
  function KindName(k: ChangeKind): string
  {
    match k
    case ReturnAddition => "return_addition"
    case WholesaleSale => "wholesale_sale"
    case Movement(t) => t
    case Reversal => "reversal"
  }

  /** One inventory change record; its id is its position in the log. */
  datatype ChangeRecord = ChangeRecord(variant: Variant, kind: ChangeKind,
                                       before: int, after: int,
                                       user: Option<UserId>, reference: Option<nat>)

  /** The row of `v`, searching from the most recent row backwards. */
  function Find(rows: seq<SizeRow>, v: Variant): (r: Option<nat>)
    ensures r.None? <==> forall i :: 0 <= i < |rows| ==> rows[i].variant != v
    ensures r.Some? ==> r.value < |rows| && rows[r.value].variant == v
  {
    if rows == [] then None
    else if rows[|rows| - 1].variant == v then Some(|rows| - 1)
    else Find(rows[..|rows| - 1], v)
  }

  /** Units of `v` on hand; a variant without a row holds none. */
  function QuantityOf(rows: seq<SizeRow>, v: Variant): int
  {
    match Find(rows, v)
    case None => 0
    case Some(i) => rows[i].quantity
  }

  predicate Distinct(rows: seq<SizeRow>)
  {
    forall i, j :: 0 <= i < j < |rows| ==> rows[i].variant != rows[j].variant
  }

  /** Total units over all rows. */
  function Units(rows: seq<SizeRow>): int
  {
    if rows == [] then 0 else Units(rows[..|rows| - 1]) + rows[|rows| - 1].quantity
  }

  /** The rows after adding `delta` units to the row of `v`, if it has one. */
  function Adjust(rows: seq<SizeRow>, v: Variant, delta: int): (r: seq<SizeRow>)
    ensures |r| == |rows|
    ensures forall i :: 0 <= i < |rows| ==> r[i].variant == rows[i].variant
  {
    match Find(rows, v)
    case None => rows
    case Some(i) => rows[i := SizeRow(v, rows[i].quantity + delta)]
  }

  lemma FindUnique(rows: seq<SizeRow>, i: nat)
    requires Distinct(rows) && i < |rows|
    ensures Find(rows, rows[i].variant) == Some(i)
  {
  }

  /** The search only looks at the variants, so rows with the same variants answer alike. */
  lemma {:induction false} FindSameVariants(a: seq<SizeRow>, b: seq<SizeRow>, w: Variant)
    requires |a| == |b|
    requires forall i :: 0 <= i < |a| ==> a[i].variant == b[i].variant
    ensures Find(a, w) == Find(b, w)
  {
    if a != [] && a[|a| - 1].variant != w {
      FindSameVariants(a[..|a| - 1], b[..|b| - 1], w);
    }
  }

  lemma {:induction false} UnitsUpdate(rows: seq<SizeRow>, i: nat, x: SizeRow)
    requires i < |rows|
    ensures Units(rows[i := x]) == Units(rows) - rows[i].quantity + x.quantity
  {
    var n := |rows| - 1;
    if i == n {
      assert rows[i := x][..n] == rows[..n];
    } else {
      assert rows[i := x][..n] == rows[..n][i := x];
      UnitsUpdate(rows[..n], i, x);
    }
  }

  lemma UnitsAppend(rows: seq<SizeRow>, x: SizeRow)
    ensures Units(rows + [x]) == Units(rows) + x.quantity
  {
    assert (rows + [x])[..|rows|] == rows;
  }

  /** Adjusting one variant changes that variant alone, by exactly `delta`, and the total with it. */
  lemma AdjustEffect(rows: seq<SizeRow>, v: Variant, delta: int)
    requires Distinct(rows)
    ensures Distinct(Adjust(rows, v, delta))
    ensures Find(Adjust(rows, v, delta), v) == Find(rows, v)
    ensures QuantityOf(Adjust(rows, v, delta), v)
            == QuantityOf(rows, v) + (if Find(rows, v).Some? then delta else 0)
    ensures forall w :: w != v ==> QuantityOf(Adjust(rows, v, delta), w) == QuantityOf(rows, w)
    ensures Units(Adjust(rows, v, delta)) == Units(rows) + (if Find(rows, v).Some? then delta else 0)
  {
    var r := Adjust(rows, v, delta);
    forall w
      ensures Find(r, w) == Find(rows, w)
    {
      FindSameVariants(r, rows, w);
    }
    if Find(rows, v).Some? {
      var i := Find(rows, v).value;
      UnitsUpdate(rows, i, SizeRow(v, rows[i].quantity + delta));
    }
  }

  /** Appending the first row of `v` creates it with `q` units and touches nothing else. */
  lemma AppendEffect(rows: seq<SizeRow>, v: Variant, q: int)
    requires Distinct(rows) && Find(rows, v).None?
    ensures Distinct(rows + [SizeRow(v, q)])
    ensures QuantityOf(rows + [SizeRow(v, q)], v) == q
    ensures forall w :: w != v ==> QuantityOf(rows + [SizeRow(v, q)], w) == QuantityOf(rows, w)
    ensures Units(rows + [SizeRow(v, q)]) == Units(rows) + q
  {
    var r := rows + [SizeRow(v, q)];
    assert r[..|rows|] == rows;
    UnitsAppend(rows, SizeRow(v, q));
  }

  /** Whether a guarded decrement of `qty` units of `v` goes ahead. */
  predicate CanTake(rows: seq<SizeRow>, products: map<ProductKey, Product>,
                    v: Variant, qty: int, activeOnly: bool)
  {
    Find(rows, v).Some? && QuantityOf(rows, v) >= qty
    && (!activeOnly || (v.Key() in products && products[v.Key()].active))
  }

  class Ledger {
    var locations: map<LocationId, Location>
    var products: map<ProductKey, Product>
    var rows: seq<SizeRow>
    var log: seq<ChangeRecord>

    /** Stock rows are unique per variant, never negative, and belong to a product. */
    ghost predicate Valid()
      reads this
    {
      Distinct(rows)
      && (forall i :: 0 <= i < |rows| ==> rows[i].quantity >= 0 && rows[i].variant.Key() in products)
    }

    constructor (locations: map<LocationId, Location>)
      ensures Valid()
      ensures this.locations == locations && products == map[] && rows == [] && log == []
    {
      this.locations := locations;
      products := map[];
      rows := [];
      log := [];
    }

    /** Adds `delta` units to the row of `v`, when it has one. */
    method Shift(v: Variant, delta: int)
      requires Valid()
      requires QuantityOf(rows, v) + delta >= 0
      modifies this
      ensures Valid()
      ensures locations == old(locations) && products == old(products) && log == old(log)
      ensures rows == Adjust(old(rows), v, delta)
      ensures QuantityOf(rows, v) == QuantityOf(old(rows), v) + (if Find(old(rows), v).Some? then delta else 0)
      ensures forall w :: w != v ==> QuantityOf(rows, w) == QuantityOf(old(rows), w)
      ensures Units(rows) == Units(old(rows)) + (if Find(old(rows), v).Some? then delta else 0)
    {
      AdjustEffect(rows, v, delta);
      rows := Adjust(rows, v, delta);
    }

    /**
     * Takes `qty` units of `v` when its row exists, holds at least `qty`
     * units and, with `activeOnly`, its product is active; otherwise
     * nothing changes.  `before` is the quantity found.
     */
    method Decrement(v: Variant, qty: int, activeOnly: bool) returns (ok: bool, before: int)
      requires Valid()
      modifies this
      ensures Valid()
      ensures locations == old(locations) && products == old(products) && log == old(log)
      ensures ok == CanTake(old(rows), old(products), v, qty, activeOnly)
      ensures before == QuantityOf(old(rows), v)
      ensures ok ==> QuantityOf(rows, v) == before - qty && Units(rows) == Units(old(rows)) - qty
      ensures forall w :: w != v ==> QuantityOf(rows, w) == QuantityOf(old(rows), w)
      ensures !ok ==> rows == old(rows)
    {
      before := QuantityOf(rows, v);
      ok := CanTake(rows, products, v, qty, activeOnly);
      if ok {
        Shift(v, -qty);
      }
    }

    /** Adds `qty` units of `v`, creating its row when it has none; its product must exist. */
    method Increase(v: Variant, qty: int)
      requires Valid() && qty >= 0 && v.Key() in products
      modifies this
      ensures Valid()
      ensures locations == old(locations) && products == old(products) && log == old(log)
      ensures Find(rows, v).Some?
      ensures QuantityOf(rows, v) == QuantityOf(old(rows), v) + qty
      ensures forall w :: w != v ==> QuantityOf(rows, w) == QuantityOf(old(rows), w)
      ensures Units(rows) == Units(old(rows)) + qty
    {
      if Find(rows, v).Some? {
        Shift(v, qty);
      } else {
        AppendEffect(rows, v, qty);
        rows := rows + [SizeRow(v, qty)];
      }
    }

    /** Writes the product row for `k`. */
    method PutProduct(k: ProductKey, p: Product)
      requires Valid()
      modifies this
      ensures Valid()
      ensures products == old(products)[k := p]
      ensures locations == old(locations) && rows == old(rows) && log == old(log)
    {
      products := products[k := p];
    }

    /** Appends a change record and answers its id. */
    method Record(c: ChangeRecord) returns (id: nat)
      requires Valid()
      modifies this
      ensures Valid()
      ensures id == |old(log)| && log == old(log) + [c]
      ensures locations == old(locations) && products == old(products) && rows == old(rows)
    {
      id := |log|;
      log := log + [c];
    }
  }
}

=== FILE: ordering.dfy ===
/**
 * The orderings the work queues and listings are returned in.  A row is
 * reduced to an Entry carrying its id and a lexicographic sort key, and the
 * rows are put in order by insertion.  The queries compose this with their
 * own filters.
 */
module Ordering {

  /**
   * A lexicographic key: `tier` first (customer transfers before restock),
   * then `nulls` (0 for a present timestamp, 1 for a missing one, so missing
   * timestamps sort last as in an ascending SQL order), then `time`.
   */
  datatype Key = Key(tier: int, nulls: int, time: int)

  datatype Entry = Entry(id: nat, key: Key)

  predicate KeyLe(a: Key, b: Key)
  {
    a.tier < b.tier
    || (a.tier == b.tier && (a.nulls < b.nulls || (a.nulls == b.nulls && a.time <= b.time)))
  }

  predicate Sorted(s: seq<Entry>)
  {
    forall i, j :: 0 <= i < j < |s| ==> KeyLe(s[i].key, s[j].key)
  }

  /** Inserts `x` before the first entry whose key it does not exceed. */
  function Insert(x: Entry, s: seq<Entry>): seq<Entry>
  {
    if s == [] then [x]
    else if KeyLe(x.key, s[0].key) then [x] + s
    else [s[0]] + Insert(x, s[1..])
  }

  function SortEntries(s: seq<Entry>): seq<Entry>
  {
    if s == [] then [] else Insert(s[0], SortEntries(s[1..]))
  }

  lemma {:induction false} InsertPermutes(x: Entry, s: seq<Entry>)
    ensures multiset(Insert(x, s)) == multiset(s) + multiset{x}
  {
    if s != [] && !KeyLe(x.key, s[0].key) {
      InsertPermutes(x, s[1..]);
      assert s == [s[0]] + s[1..];
    }
  }

  lemma {:induction false} InsertSorted(x: Entry, s: seq<Entry>)
    requires Sorted(s)
    ensures Sorted(Insert(x, s))
  {
    if s != [] && !KeyLe(x.key, s[0].key) {
      InsertSorted(x, s[1..]);
      InsertPermutes(x, s[1..]);
      var r := Insert(x, s[1..]);
      forall k | 0 <= k < |r|
        ensures KeyLe(s[0].key, r[k].key)
      {
        assert r[k] in multiset(r);
        assert r[k] in multiset(s[1..]) || r[k] == x;
        if r[k] != x {
          var m :| 0 <= m < |s[1..]| && s[1..][m] == r[k];
          assert s[m + 1] == r[k];
        }
      }
    }
  }

  lemma {:induction false} SortEntriesCorrect(s: seq<Entry>)
    ensures Sorted(SortEntries(s))
    ensures multiset(SortEntries(s)) == multiset(s)
  {
    if s != [] {
      SortEntriesCorrect(s[1..]);
      InsertSorted(s[0], SortEntries(s[1..]));
      InsertPermutes(s[0], SortEntries(s[1..]));
      assert s == [s[0]] + s[1..];
    }
  }

  /** The ids of a sequence of entries, in order. */
  function Ids(s: seq<Entry>): (r: seq<nat>)
    ensures |r| == |s|
    ensures forall k :: 0 <= k < |s| ==> r[k] == s[k].id
  {
    if s == [] then [] else [s[0].id] + Ids(s[1..])
  }

  /** The first `n` elements of `s`, or all of them when there are fewer. */
  function Take<T>(s: seq<T>, n: nat): (r: seq<T>)
    ensures |r| == if |s| < n then |s| else n
    ensures forall k :: 0 <= k < |r| ==> r[k] == s[k]
  {
    if |s| <= n then s else s[..n]
  }

  predicate IdsDistinct(s: seq<Entry>)
  {
    forall i, j :: 0 <= i < j < |s| ==> s[i].id != s[j].id
  }

  predicate NoDuplicates(s: seq<Entry>)
  {
    forall i, j :: 0 <= i < j < |s| ==> s[i] != s[j]
  }

  /** A sequence has no duplicates exactly when no element occurs twice in its multiset. */
  lemma {:induction false} NoDuplicatesMultiset(s: seq<Entry>)
    ensures NoDuplicates(s) <==> forall x :: multiset(s)[x] <= 1
  {
    if s != [] {
      var r := s[1..];
      assert s == [s[0]] + r;
      NoDuplicatesMultiset(r);
      if NoDuplicates(s) {
        assert NoDuplicates(r) by {
          forall i, j | 0 <= i < j < |r| ensures r[i] != r[j] {
            assert r[i] == s[i + 1] && r[j] == s[j + 1];
          }
        }
        forall k | 0 <= k < |r| ensures r[k] != s[0] {
          assert r[k] == s[k + 1];
        }
      }
      if forall x :: multiset(s)[x] <= 1 {
        assert forall x :: multiset(r)[x] <= multiset(s)[x];
        assert multiset(r)[s[0]] == 0;
        forall i, j | 0 <= i < j < |s| ensures s[i] != s[j] {
          if i == 0 {
            assert s[j] == r[j - 1];
          } else {
            assert s[i] == r[i - 1] && s[j] == r[j - 1];
          }
        }
      }
    }
  }

  /**
   * Sorting entries with distinct ids yields a sorted sequence of the same
   * entries, still with distinct ids.
   */
  lemma SortedQueue(a: seq<Entry>)
    requires IdsDistinct(a)
    ensures Sorted(SortEntries(a))
    ensures IdsDistinct(SortEntries(a))
    ensures forall k :: 0 <= k < |SortEntries(a)| ==> SortEntries(a)[k] in a
    ensures forall e :: e in a ==> e in SortEntries(a)
  {
    var b := SortEntries(a);
    SortEntriesCorrect(a);
    forall k | 0 <= k < |b| ensures b[k] in a {
      assert b[k] in multiset(b);
    }
    forall e | e in a ensures e in b {
      assert e in multiset(a);
    }
    assert NoDuplicates(a);
    NoDuplicatesMultiset(a);
    NoDuplicatesMultiset(b);
    forall i, j | 0 <= i < j < |b| ensures b[i].id != b[j].id {
      var p :| 0 <= p < |a| && a[p] == b[i];
      var q :| 0 <= q < |a| && a[q] == b[j];
      assert b[i] != b[j];
      assert p != q;
    }
  }

  /** Lists the elements of a finite set, once each, in no particular order. */
  method Enumerate(ids: set<nat>) returns (xs: seq<nat>)
    ensures forall x :: x in xs <==> x in ids
    ensures forall i, j :: 0 <= i < j < |xs| ==> xs[i] != xs[j]
  {
    xs := [];
    var rest := ids;
    while rest != {}
      invariant rest <= ids
      invariant forall x :: x in xs <==> x in ids && x !in rest
      invariant forall i, j :: 0 <= i < j < |xs| ==> xs[i] != xs[j]
      decreases |rest|
    {
      var x :| x in rest;
      xs := xs + [x];
      rest := rest - {x};
    }
  }
}

=== FILE: sales_repository.dfy ===
/**
 * The sales module's tables and their row-level operations: sales, their
 * items and payments, product reservations and discount requests, and the
 * stock queries and the decrement a sale performs on the inventory.
 * Ids are positions in their table.
 */
module SalesRepository {
  import opened Common
  import opened Ledger

  // ----- Physical stock -----

  /** What a row adds to the stock of `ref` at `location`: its units when its product is active. */
  function Contribution(row: SizeRow, products: map<ProductKey, Product>, ref: string, location: LocationId): int
  {
    var v := row.variant;
    if v.ref == ref && v.location == location && v.Key() in products && products[v.Key()].active
    then row.quantity else 0
  }

  /** Units of `ref` at `location` over all its sizes, counting only active products. */
  function StockOf(rows: seq<SizeRow>, products: map<ProductKey, Product>, ref: string, location: LocationId): int
  {
    if rows == [] then 0
    else StockOf(rows[..|rows| - 1], products, ref, location) + Contribution(rows[|rows| - 1], products, ref, location)
  }

  /** The physical stock of a reference at a location; an unknown location holds none. */
  function PhysicalStock(locations: map<LocationId, Location>, rows: seq<SizeRow>,
                         products: map<ProductKey, Product>, ref: string, location: LocationId): int
  {
    if location !in locations then 0 else StockOf(rows, products, ref, location)
  }

  predicate NonNegative(rows: seq<SizeRow>)
  {
    forall i :: 0 <= i < |rows| ==> rows[i].quantity >= 0
  }

  lemma {:induction false} StockOfNonNegative(rows: seq<SizeRow>, products: map<ProductKey, Product>,
                                              ref: string, location: LocationId)
    requires NonNegative(rows)
    ensures StockOf(rows, products, ref, location) >= 0
  {
    if rows != [] {
      StockOfNonNegative(rows[..|rows| - 1], products, ref, location);
    }
  }

  /** One size's units are part of the reference's stock when its product is active. */
  lemma {:induction false} SizeWithinStock(rows: seq<SizeRow>, products: map<ProductKey, Product>, v: Variant)
    requires NonNegative(rows)
    requires v.Key() in products && products[v.Key()].active
    ensures 0 <= QuantityOf(rows, v) <= StockOf(rows, products, v.ref, v.location)
  {
    if rows != [] {
      var init := rows[..|rows| - 1];
      StockOfNonNegative(init, products, v.ref, v.location);
      if rows[|rows| - 1].variant != v {
        SizeWithinStock(init, products, v);
      }
    }
  }

  lemma {:induction false} StockOfUpdate(rows: seq<SizeRow>, products: map<ProductKey, Product>,
                                         ref: string, location: LocationId, i: nat, x: SizeRow)
    requires i < |rows|
    ensures StockOf(rows[i := x], products, ref, location)
            == StockOf(rows, products, ref, location)
               - Contribution(rows[i], products, ref, location) + Contribution(x, products, ref, location)
  {
    var n := |rows| - 1;
    if i == n {
      assert rows[i := x][..n] == rows[..n];
    } else {
      assert rows[i := x][..n] == rows[..n][i := x];
      StockOfUpdate(rows[..n], products, ref, location, i, x);
    }
  }

  // ----- The sale decrement -----

  /** Whether selling `qty` units of `v` takes them: the location exists and the row holds enough. */
  predicate Decreases(locations: map<LocationId, Location>, rows: seq<SizeRow>, v: Variant, qty: int)
  {
    v.location in locations && Find(rows, v).Some? && QuantityOf(rows, v) >= qty
  }

  /** The rows after a sale of `qty` units of `v`: taken when possible, otherwise untouched. */
  function DecreasedRows(locations: map<LocationId, Location>, rows: seq<SizeRow>, v: Variant, qty: int): seq<SizeRow>
  {
    if Decreases(locations, rows, v, qty) then Adjust(rows, v, -qty) else rows
  }

  /**
   * A sale's decrement changes the sold size alone, by exactly `qty` when it
   * goes ahead, keeps the rows distinct and non-negative, and lowers the
   * reference's stock with it when the product is active.
   */
  lemma DecreasedRowsEffect(locations: map<LocationId, Location>, rows: seq<SizeRow>,
                            products: map<ProductKey, Product>, v: Variant, qty: int)
    requires Distinct(rows) && NonNegative(rows) && qty > 0
    ensures var r := DecreasedRows(locations, rows, v, qty);
      && Distinct(r) && NonNegative(r)
      && QuantityOf(r, v) == QuantityOf(rows, v) - (if Decreases(locations, rows, v, qty) then qty else 0)
      && (forall w :: w != v ==> QuantityOf(r, w) == QuantityOf(rows, w))
      && Units(r) == Units(rows) - (if Decreases(locations, rows, v, qty) then qty else 0)
      && StockOf(r, products, v.ref, v.location)
         == StockOf(rows, products, v.ref, v.location)
            - (if Decreases(locations, rows, v, qty) && v.Key() in products && products[v.Key()].active
               then qty else 0)
  {
    AdjustEffect(rows, v, -qty);
    if Decreases(locations, rows, v, qty) {
      var i := Find(rows, v).value;
      var x := SizeRow(v, rows[i].quantity - qty);
      assert Adjust(rows, v, -qty) == rows[i := x];
      StockOfUpdate(rows, products, v.ref, v.location, i, x);
    }
  }

  /**
   * Sells `qty` units of one size at `location`: nothing happens when the
   * location is unknown, the size has no row, or the row holds fewer units.
   * The product's active flag is not consulted, and no change record is written.
   */
  method DecreaseProductStock(stock: Ledger, ref: string, size: string, qty: int, location: LocationId)
    requires stock.Valid() && qty > 0
    modifies stock
    ensures stock.Valid()
    ensures stock.locations == old(stock.locations) && stock.products == old(stock.products)
    ensures stock.log == old(stock.log)
    ensures stock.rows == DecreasedRows(old(stock.locations), old(stock.rows), Variant(ref, size, location), qty)
    ensures var v := Variant(ref, size, location);
      && (Decreases(old(stock.locations), old(stock.rows), v, qty) ==>
            QuantityOf(stock.rows, v) == QuantityOf(old(stock.rows), v) - qty)
      && (!Decreases(old(stock.locations), old(stock.rows), v, qty) ==> stock.rows == old(stock.rows))
  {
    var v := Variant(ref, size, location);
    if Decreases(stock.locations, stock.rows, v, qty) {
      stock.Shift(v, -qty);
    }
  }

  // ----- Sales -----

  datatype Sale = Sale(seller: UserId, location: LocationId, total: real, receipt: Option<string>,
                       saleDate: int, status: string, notes: Option<string>,
                       requiresConfirmation: bool, confirmed: bool, confirmedAt: Option<int>)

  /** What a sale decrements: one size of one reference. */
  datatype Line = Line(ref: string, size: string, quantity: int)

  datatype ItemRequest = ItemRequest(ref: string, brand: string, model: string, color: Option<string>,
                                     size: string, quantity: int, unitPrice: real)
  {
    function AsLine(): Line { Line(ref, size, quantity) }
  }

  datatype SaleItem = SaleItem(sale: nat, ref: string, brand: string, model: string, color: Option<string>,
                               size: string, quantity: int, unitPrice: real, subtotal: real)
  {
    function AsLine(): Line { Line(ref, size, quantity) }
  }

  datatype PaymentRequest = PaymentRequest(kind: string, amount: real, reference: Option<string>)

  datatype Payment = Payment(sale: nat, kind: string, amount: real, reference: Option<string>, createdAt: int)

  /** A sale waits for confirmation while it requires one and has not been confirmed. */
  predicate PendingConfirmation(s: Sale)
  {
    s.requiresConfirmation && !s.confirmed
  }

  /**
   * A new sale is completed; it is confirmed at once, and stamped, unless it
   * requires confirmation.
   */
  function NewSale(seller: UserId, location: LocationId, total: real, receipt: Option<string>,
                   notes: Option<string>, requiresConfirmation: bool, now: int): (s: Sale)
    ensures s.seller == seller && s.location == location && s.total == total
    ensures s.receipt == receipt && s.notes == notes && s.saleDate == now && s.status == "completed"
    ensures s.requiresConfirmation == requiresConfirmation
    ensures s.confirmed <==> !requiresConfirmation
    ensures s.confirmedAt.Some? <==> s.confirmed
    ensures s.confirmedAt.Some? ==> s.confirmedAt.value == now
    ensures PendingConfirmation(s) <==> requiresConfirmation
  {
    Sale(seller, location, total, receipt, now, "completed", notes, requiresConfirmation,
         !requiresConfirmation, if requiresConfirmation then None else Some(now))
  }

  lemma ProductNonNegative(a: real, b: real)
    requires a >= 0.0 && b >= 0.0
    ensures a * b >= 0.0
  {
  }

  /** An item's subtotal: its quantity times its unit price. */
  function Subtotal(quantity: int, unitPrice: real): (s: real)
    ensures quantity > 0 && unitPrice > 0.0 ==> s >= unitPrice
    ensures quantity == 0 || unitPrice == 0.0 ==> s == 0.0
  {
    var q := quantity as real;
    if quantity > 0 && unitPrice > 0.0 then
      ProductNonNegative(q - 1.0, unitPrice);
      assert q * unitPrice == (q - 1.0) * unitPrice + unitPrice;
      q * unitPrice
    else q * unitPrice
  }

  /** The stored item of sale `saleId` for a requested item, with its subtotal. */
  function ItemOf(saleId: nat, it: ItemRequest): (r: SaleItem)
    ensures r.sale == saleId && r.AsLine() == it.AsLine()
    ensures r.subtotal == Subtotal(it.quantity, it.unitPrice)
  {
    SaleItem(saleId, it.ref, it.brand, it.model, it.color, it.size, it.quantity, it.unitPrice,
             Subtotal(it.quantity, it.unitPrice))
  }

  function OrEmpty(o: Option<string>): string
  {
    match o
    case None => ""
    case Some(s) => s
  }

  /** The notes after a confirmation: a non-empty confirmation note is appended on a line of its own. */
  function AppendNote(notes: Option<string>, confirmation: string): Option<string>
  {
    if confirmation == "" then notes else Some(OrEmpty(notes) + "\nConfirmación: " + confirmation)
  }

  /**
   * A sale after a confirmation decision: confirmed as decided and stamped
   * only when confirmed; earlier notes are kept as a prefix; nothing else
   * changes.
   */
  function ConfirmedSale(s: Sale, confirmed: bool, confirmation: string, now: int): (r: Sale)
    ensures r.confirmed == confirmed
    ensures r.confirmedAt.Some? <==> confirmed
    ensures r.confirmedAt.Some? ==> r.confirmedAt.value == now
    ensures OrEmpty(s.notes) <= OrEmpty(r.notes)
    ensures confirmation == "" ==> r.notes == s.notes
    ensures confirmation != "" ==> OrEmpty(r.notes)[|OrEmpty(s.notes)|..] == "\nConfirmación: " + confirmation
    ensures r.(confirmed := s.confirmed, confirmedAt := s.confirmedAt, notes := s.notes) == s
    ensures PendingConfirmation(r) <==> s.requiresConfirmation && !confirmed
  {
    s.(confirmed := confirmed, confirmedAt := if confirmed then Some(now) else None,
       notes := AppendNote(s.notes, confirmation))
  }

  // ----- Reservations -----

  datatype ReservationStatus = Active | Released | Expired

  datatype Reservation = Reservation(ref: string, size: string, quantity: int, user: UserId,
                                     location: LocationId, purpose: string, status: ReservationStatus,
                                     reservedAt: int, expiresAt: int, releasedAt: Option<int>)

  /** A reservation holds units of `ref` at `location` while active and not yet expired. */
  predicate Holds(r: Reservation, ref: string, location: LocationId, now: int)
  {
    r.ref == ref && r.location == location && r.status == Active && r.expiresAt > now
  }

  /** Units of `ref` held at `location` by reservations, over all sizes. */
  function ReservedQuantity(rs: seq<Reservation>, ref: string, location: LocationId, now: int): int
  {
    if rs == [] then 0
    else ReservedQuantity(rs[..|rs| - 1], ref, location, now)
         + (if Holds(rs[|rs| - 1], ref, location, now) then rs[|rs| - 1].quantity else 0)
  }

  /** Without a holding reservation nothing is reserved. */
  lemma {:induction false} ReservedNone(rs: seq<Reservation>, ref: string, location: LocationId, now: int)
    requires forall i :: 0 <= i < |rs| ==> !Holds(rs[i], ref, location, now)
    ensures ReservedQuantity(rs, ref, location, now) == 0
  {
    if rs != [] {
      ReservedNone(rs[..|rs| - 1], ref, location, now);
    }
  }

  /** A new reservation adds its quantity exactly when it holds. */
  lemma ReservedAppend(rs: seq<Reservation>, x: Reservation, ref: string, location: LocationId, now: int)
    ensures ReservedQuantity(rs + [x], ref, location, now)
            == ReservedQuantity(rs, ref, location, now) + (if Holds(x, ref, location, now) then x.quantity else 0)
  {
    assert (rs + [x])[..|rs|] == rs;
  }

  /** Releasing one reservation gives back the units it held. */
  lemma {:induction false} ReservedRelease(rs: seq<Reservation>, i: nat, now: int, ref: string, location: LocationId, t: int)
    requires i < |rs|
    ensures ReservedQuantity(rs[i := rs[i].(status := Released, releasedAt := Some(now))], ref, location, t)
            == ReservedQuantity(rs, ref, location, t) - (if Holds(rs[i], ref, location, t) then rs[i].quantity else 0)
  {
    var n := |rs| - 1;
    var x := rs[i].(status := Released, releasedAt := Some(now));
    if i == n {
      assert rs[i := x][..n] == rs[..n];
    } else {
      assert rs[i := x][..n] == rs[..n][i := x];
      ReservedRelease(rs[..n], i, now, ref, location, t);
    }
  }

  /** An active reservation whose expiry has passed. */
  predicate Overdue(r: Reservation, now: int)
  {
    r.status == Active && r.expiresAt <= now
  }

  function Expire(r: Reservation, now: int): Reservation
  {
    if Overdue(r, now) then r.(status := Expired, releasedAt := Some(now)) else r
  }

  /** The reservations after cleanup: the overdue ones marked expired, the rest untouched. */
  function ExpireAll(rs: seq<Reservation>, now: int): (r: seq<Reservation>)
    ensures |r| == |rs|
    ensures forall i :: 0 <= i < |rs| ==> r[i] == Expire(rs[i], now)
    ensures forall i :: 0 <= i < |r| ==> !Overdue(r[i], now)
  {
    if rs == [] then [] else ExpireAll(rs[..|rs| - 1], now) + [Expire(rs[|rs| - 1], now)]
  }

  function CountExpiring(rs: seq<Reservation>, now: int): nat
  {
    if rs == [] then 0
    else CountExpiring(rs[..|rs| - 1], now) + (if Overdue(rs[|rs| - 1], now) then 1 else 0)
  }

  function CountExpired(rs: seq<Reservation>): nat
  {
    if rs == [] then 0
    else CountExpired(rs[..|rs| - 1]) + (if rs[|rs| - 1].status == Expired then 1 else 0)
  }

  /** Cleanup marks exactly as many reservations expired as it counts. */
  lemma {:induction false} CleanupCount(rs: seq<Reservation>, now: int)
    ensures CountExpired(ExpireAll(rs, now)) == CountExpired(rs) + CountExpiring(rs, now)
  {
    if rs != [] {
      var n := |rs| - 1;
      CleanupCount(rs[..n], now);
      assert ExpireAll(rs, now)[..n] == ExpireAll(rs[..n], now);
    }
  }

  /** Cleanup takes nothing away from what is reserved at the moment it runs. */
  lemma {:induction false} CleanupKeepsReserved(rs: seq<Reservation>, now: int, ref: string, location: LocationId)
    ensures ReservedQuantity(ExpireAll(rs, now), ref, location, now) == ReservedQuantity(rs, ref, location, now)
  {
    if rs != [] {
      var n := |rs| - 1;
      CleanupKeepsReserved(rs[..n], now, ref, location);
      assert ExpireAll(rs, now)[..n] == ExpireAll(rs[..n], now);
    }
  }

  // ----- Discount requests -----

  datatype DiscountStatus = Pending | Approved | Rejected

  datatype DiscountRequest = DiscountRequest(seller: UserId, amount: real, reason: string,
                                             status: DiscountStatus, administrator: Option<UserId>,
                                             requestedAt: int, reviewedAt: Option<int>,
                                             comments: Option<string>)

  // ----- The tables -----

  class SalesDb {
    var sales: seq<Sale>
    var items: seq<SaleItem>
    var payments: seq<Payment>
    var reservations: seq<Reservation>
    var discounts: seq<DiscountRequest>

    /** Every item and payment belongs to a stored sale, and every item sells at least one unit. */
    ghost predicate Valid()
      reads this
    {
      (forall k :: 0 <= k < |items| ==> items[k].sale < |sales| && items[k].quantity > 0)
      && (forall k :: 0 <= k < |payments| ==> payments[k].sale < |sales|)
    }

    constructor ()
      ensures Valid()
      ensures sales == [] && items == [] && payments == [] && reservations == [] && discounts == []
    {
      sales := [];
      items := [];
      payments := [];
      reservations := [];
      discounts := [];
    }

    /** Stores a new sale and answers its id. */
    method CreateSale(seller: UserId, location: LocationId, total: real, receipt: Option<string>,
                      notes: Option<string>, requiresConfirmation: bool, now: int)
      returns (id: nat)
      requires Valid()
      modifies this
      ensures Valid()
      ensures id == |old(sales)|
      ensures sales == old(sales) + [NewSale(seller, location, total, receipt, notes, requiresConfirmation, now)]
      ensures items == old(items) && payments == old(payments)
      ensures reservations == old(reservations) && discounts == old(discounts)
    {
      id := AddSale(NewSale(seller, location, total, receipt, notes, requiresConfirmation, now));
    }

    /** Stores a sale row as given and answers its id. */
    method AddSale(s: Sale) returns (id: nat)
      requires Valid()
      modifies this
      ensures Valid()
      ensures id == |old(sales)| && sales == old(sales) + [s]
      ensures items == old(items) && payments == old(payments)
      ensures reservations == old(reservations) && discounts == old(discounts)
    {
      id := |sales|;
      sales := sales + [s];
    }

    /** Stores one item of sale `saleId`, with its subtotal. */
    method CreateSaleItem(saleId: nat, it: ItemRequest) returns (id: nat)
      requires Valid() && saleId < |sales| && it.quantity > 0
      modifies this
      ensures Valid()
      ensures id == |old(items)|
      ensures items == old(items) + [ItemOf(saleId, it)]
      ensures sales == old(sales) && payments == old(payments)
      ensures reservations == old(reservations) && discounts == old(discounts)
    {
      id := |items|;
      items := items + [ItemOf(saleId, it)];
    }

    /** Stores one payment of sale `saleId`. */
    method CreateSalePayment(saleId: nat, p: PaymentRequest, now: int) returns (id: nat)
      requires Valid() && saleId < |sales|
      modifies this
      ensures Valid()
      ensures id == |old(payments)|
      ensures payments == old(payments) + [Payment(saleId, p.kind, p.amount, p.reference, now)]
      ensures sales == old(sales) && items == old(items)
      ensures reservations == old(reservations) && discounts == old(discounts)
    {
      id := |payments|;
      payments := payments + [Payment(saleId, p.kind, p.amount, p.reference, now)];
    }

    /** Records a confirmation decision on sale `id`; an unknown id changes nothing. */
    method ConfirmSale(id: nat, confirmed: bool, confirmation: string, now: int) returns (found: bool)
      requires Valid()
      modifies this
      ensures Valid()
      ensures found <==> id < |old(sales)|
      ensures found ==> sales == old(sales)[id := ConfirmedSale(old(sales)[id], confirmed, confirmation, now)]
      ensures !found ==> sales == old(sales)
      ensures items == old(items) && payments == old(payments)
      ensures reservations == old(reservations) && discounts == old(discounts)
    {
      found := id < |sales|;
      if found {
        sales := sales[id := ConfirmedSale(sales[id], confirmed, confirmation, now)];
      }
    }

    /** Stores a new active reservation, reserved now. */
    method CreateReservation(ref: string, size: string, qty: int, user: UserId, location: LocationId,
                             purpose: string, now: int, expiresAt: int)
      returns (id: nat)
      requires Valid()
      modifies this
      ensures Valid()
      ensures id == |old(reservations)|
      ensures reservations == old(reservations)
                              + [Reservation(ref, size, qty, user, location, purpose, Active, now, expiresAt, None)]
      ensures sales == old(sales) && items == old(items) && payments == old(payments) && discounts == old(discounts)
    {
      id := |reservations|;
      reservations := reservations + [Reservation(ref, size, qty, user, location, purpose, Active, now, expiresAt, None)];
    }

    /** Marks reservation `id` released now, whatever its status; an unknown id changes nothing. */
    method ReleaseReservation(id: nat, now: int) returns (found: bool)
      requires Valid()
      modifies this
      ensures Valid()
      ensures found <==> id < |old(reservations)|
      ensures found ==> reservations == old(reservations)[id := old(reservations)[id].(status := Released,
                                                                                     releasedAt := Some(now))]
      ensures !found ==> reservations == old(reservations)
      ensures sales == old(sales) && items == old(items) && payments == old(payments) && discounts == old(discounts)
    {
      found := id < |reservations|;
      if found {
        reservations := reservations[id := reservations[id].(status := Released, releasedAt := Some(now))];
      }
    }

    /**
     * Marks every active reservation whose expiry has passed as expired at
     * `now`, leaves the rest as they are, and answers how many it marked.
     */
    method CleanupExpiredReservations(now: int) returns (count: nat)
      requires Valid()
      modifies this
      ensures Valid()
      ensures reservations == ExpireAll(old(reservations), now)
      ensures count == CountExpiring(old(reservations), now)
      ensures CountExpired(reservations) == CountExpired(old(reservations)) + count
      ensures sales == old(sales) && items == old(items) && payments == old(payments) && discounts == old(discounts)
    {
      var rs := reservations;
      var out: seq<Reservation> := [];
      count := 0;
      for i := 0 to |rs|
        invariant out == ExpireAll(rs[..i], now)
        invariant count == CountExpiring(rs[..i], now)
      {
        assert rs[..i + 1][..i] == rs[..i];
        if Overdue(rs[i], now) {
          count := count + 1;
        }
        out := out + [Expire(rs[i], now)];
      }
      assert rs[..|rs|] == rs;
      CleanupCount(rs, now);
      reservations := out;
    }
  }
}

=== FILE: sales_service.dfy ===
/**
 * The seller's operations: availability that accounts for reservations,
 * registering a sale and confirming it later, and reserving and releasing
 * stock.  Stock is decremented once per sale, at creation for a sale that
 * needs no confirmation and at confirmation for one that does.
 */
module SalesService {
  import opened Common
  import opened Ledger
  import opened SalesRepository

  // ----- Availability -----

  datatype Availability = Availability(physical: int, reserved: int, available: int, canFulfill: bool)

  /**
   * Available stock is physical minus reserved, floored at 0; the request
   * can be fulfilled exactly when that difference is positive.
   */
  function CheckAvailability(physical: int, reserved: int): (a: Availability)
    ensures a.physical == physical && a.reserved == reserved
    ensures a.available >= 0 && a.available >= physical - reserved
    ensures a.available == 0 || a.available == physical - reserved
    ensures a.canFulfill <==> physical - reserved > 0
    ensures a.canFulfill <==> a.available > 0
  {
    var d := physical - reserved;
    Availability(physical, reserved, if d > 0 then d else 0, d > 0)
  }

  /** The availability of a reference at a location against the tables. */
  function AvailabilityAt(locations: map<LocationId, Location>, rows: seq<SizeRow>, products: map<ProductKey, Product>,
                          rs: seq<Reservation>, ref: string, location: LocationId, now: int): Availability
  {
    CheckAvailability(PhysicalStock(locations, rows, products, ref, location), ReservedQuantity(rs, ref, location, now))
  }

  // ----- Stock validation -----

  datatype StockIssue = StockIssue(ref: string, size: string, requested: int, available: int)

  function Lines(its: seq<ItemRequest>): (r: seq<Line>)
    ensures |r| == |its| && forall k :: 0 <= k < |its| ==> r[k] == its[k].AsLine()
  {
    seq(|its|, k requires 0 <= k < |its| => its[k].AsLine())
  }

  function SaleLines(items: seq<SaleItem>): (r: seq<Line>)
    ensures |r| == |items| && forall k :: 0 <= k < |items| ==> r[k] == items[k].AsLine()
  {
    seq(|items|, k requires 0 <= k < |items| => items[k].AsLine())
  }

  /** A line is short when the available stock of its reference is below its quantity. */
  predicate Short(a: Availability, l: Line)
  {
    a.available < l.quantity
  }

  function IssueFor(a: Availability, l: Line): StockIssue
  {
    StockIssue(l.ref, l.size, l.quantity, a.available)
  }

  /** The stock issues of a list of lines, in order: one per short line. */
  function IssuesOf(locations: map<LocationId, Location>, rows: seq<SizeRow>, products: map<ProductKey, Product>,
                    rs: seq<Reservation>, lines: seq<Line>, location: LocationId, now: int): seq<StockIssue>
  {
    if lines == [] then []
    else
      var n := |lines| - 1;
      var a := AvailabilityAt(locations, rows, products, rs, lines[n].ref, location, now);
      IssuesOf(locations, rows, products, rs, lines[..n], location, now)
      + (if Short(a, lines[n]) then [IssueFor(a, lines[n])] else [])
  }

  /**
   * The issues name exactly the short lines: every issue is a short line's,
   * every short line has its issue, and there are none exactly when no line
   * is short.
   */
  lemma {:induction false} IssuesOfExact(locations: map<LocationId, Location>, rows: seq<SizeRow>,
                                         products: map<ProductKey, Product>, rs: seq<Reservation>,
                                         lines: seq<Line>, location: LocationId, now: int)
    ensures forall e :: e in IssuesOf(locations, rows, products, rs, lines, location, now) ==>
              exists k :: 0 <= k < |lines|
                          && Short(AvailabilityAt(locations, rows, products, rs, lines[k].ref, location, now), lines[k])
                          && e == IssueFor(AvailabilityAt(locations, rows, products, rs, lines[k].ref, location, now), lines[k])
    ensures forall k :: 0 <= k < |lines|
                        && Short(AvailabilityAt(locations, rows, products, rs, lines[k].ref, location, now), lines[k]) ==>
              IssueFor(AvailabilityAt(locations, rows, products, rs, lines[k].ref, location, now), lines[k])
                in IssuesOf(locations, rows, products, rs, lines, location, now)
    ensures IssuesOf(locations, rows, products, rs, lines, location, now) == [] <==>
              forall k :: 0 <= k < |lines| ==>
                !Short(AvailabilityAt(locations, rows, products, rs, lines[k].ref, location, now), lines[k])
  {
    if lines != [] {
      var n := |lines| - 1;
      var init := lines[..n];
      IssuesOfExact(locations, rows, products, rs, init, location, now);
      forall k | 0 <= k < n
        ensures lines[k] == init[k]
      {
      }
    }
  }

  /** Checks every requested item against the availability of its reference at `location`. */
  method ValidateStockAvailability(stock: Ledger, db: SalesDb, lines: seq<Line>, location: LocationId, now: int)
    returns (issues: seq<StockIssue>)
    ensures issues == IssuesOf(stock.locations, stock.rows, stock.products, db.reservations, lines, location, now)
  {
    issues := [];
    for i := 0 to |lines|
      invariant issues == IssuesOf(stock.locations, stock.rows, stock.products, db.reservations, lines[..i], location, now)
    {
      assert lines[..i + 1][..i] == lines[..i];
      var a := AvailabilityAt(stock.locations, stock.rows, stock.products, db.reservations, lines[i].ref, location, now);
      if Short(a, lines[i]) {
        issues := issues + [IssueFor(a, lines[i])];
      }
    }
    assert lines[..|lines|] == lines;
  }

  // ----- Stock after a sale -----

  /** The rows after selling every line at `location`, one decrement after another. */
  function SellAll(locations: map<LocationId, Location>, rows: seq<SizeRow>, lines: seq<Line>, location: LocationId)
    : seq<SizeRow>
  {
    if lines == [] then rows
    else
      var n := |lines| - 1;
      DecreasedRows(locations, SellAll(locations, rows, lines[..n], location),
                    Variant(lines[n].ref, lines[n].size, location), lines[n].quantity)
  }

  predicate PositiveLines(lines: seq<Line>)
  {
    forall k :: 0 <= k < |lines| ==> lines[k].quantity > 0
  }

  /**
   * A sale keeps the stock rows distinct and non-negative, never raises a
   * size, never lowers the total by more than it sells and touches no
   * other location.
   */
  lemma {:induction false} SellAllEffect(locations: map<LocationId, Location>, rows: seq<SizeRow>,
                                         lines: seq<Line>, location: LocationId)
    requires Distinct(rows) && NonNegative(rows) && PositiveLines(lines)
    ensures Distinct(SellAll(locations, rows, lines, location)) && NonNegative(SellAll(locations, rows, lines, location))
    ensures |SellAll(locations, rows, lines, location)| == |rows|
    ensures Units(SellAll(locations, rows, lines, location)) <= Units(rows)
    ensures forall w :: QuantityOf(SellAll(locations, rows, lines, location), w) <= QuantityOf(rows, w)
    ensures forall w: Variant :: w.location != location ==>
              QuantityOf(SellAll(locations, rows, lines, location), w) == QuantityOf(rows, w)
  {
    if lines != [] {
      var n := |lines| - 1;
      var init := lines[..n];
      assert PositiveLines(init) by {
        forall k | 0 <= k < n ensures init[k].quantity > 0 {
          assert init[k] == lines[k];
        }
      }
      SellAllEffect(locations, rows, init, location);
      DecreasedRowsEffect(locations, SellAll(locations, rows, init, location), map[],
                          Variant(lines[n].ref, lines[n].size, location), lines[n].quantity);
    }
  }

  /** Decrements every line of a sale at `location`, each as the repository's guarded decrement. */
  method UpdateStockAfterSale(stock: Ledger, lines: seq<Line>, location: LocationId)
    requires stock.Valid() && PositiveLines(lines)
    modifies stock
    ensures stock.Valid()
    ensures stock.locations == old(stock.locations) && stock.products == old(stock.products)
    ensures stock.log == old(stock.log)
    ensures stock.rows == SellAll(old(stock.locations), old(stock.rows), lines, location)
  {
    for i := 0 to |lines|
      invariant stock.Valid()
      invariant stock.locations == old(stock.locations) && stock.products == old(stock.products)
      invariant stock.log == old(stock.log)
      invariant stock.rows == SellAll(old(stock.locations), old(stock.rows), lines[..i], location)
    {
      assert lines[..i + 1][..i] == lines[..i];
      DecreaseProductStock(stock, lines[i].ref, lines[i].size, lines[i].quantity, location);
    }
    assert lines[..|lines|] == lines;
  }

  // ----- Registering a sale -----

  datatype SaleRequest = SaleRequest(items: seq<ItemRequest>, total: real, payments: seq<PaymentRequest>,
                                     notes: Option<string>, requiresConfirmation: bool)

  /** What request validation guarantees before the service runs. */
  predicate ValidSaleRequest(req: SaleRequest)
  {
    |req.items| >= 1 && |req.payments| >= 1 && req.total > 0.0
    && (forall k :: 0 <= k < |req.items| ==> req.items[k].quantity > 0 && req.items[k].unitPrice > 0.0)
    && (forall k :: 0 <= k < |req.payments| ==> req.payments[k].amount > 0.0)
  }

  /** The stored items of sale `saleId`, one per requested item, in order. */
  function NewItems(saleId: nat, its: seq<ItemRequest>): (r: seq<SaleItem>)
    ensures |r| == |its| && forall k :: 0 <= k < |its| ==> r[k] == ItemOf(saleId, its[k])
  {
    seq(|its|, k requires 0 <= k < |its| => ItemOf(saleId, its[k]))
  }

  function NewPayments(saleId: nat, ps: seq<PaymentRequest>, now: int): (r: seq<Payment>)
    ensures |r| == |ps|
    ensures forall k :: 0 <= k < |ps| ==> r[k].sale == saleId && r[k].amount == ps[k].amount
  {
    seq(|ps|, k requires 0 <= k < |ps| => Payment(saleId, ps[k].kind, ps[k].amount, ps[k].reference, now))
  }

  /** The items of one sale, in table order. */
  function ItemsOf(items: seq<SaleItem>, saleId: nat): seq<SaleItem>
  {
    if items == [] then []
    else ItemsOf(items[..|items| - 1], saleId) + (if items[|items| - 1].sale == saleId then [items[|items| - 1]] else [])
  }

  lemma {:induction false} ItemsOfAppend(a: seq<SaleItem>, b: seq<SaleItem>, saleId: nat)
    ensures ItemsOf(a + b, saleId) == ItemsOf(a, saleId) + ItemsOf(b, saleId)
  {
    if b == [] {
      assert a + b == a;
    } else {
      var n := |b| - 1;
      assert (a + b)[..|a + b| - 1] == a + b[..n];
      ItemsOfAppend(a, b[..n], saleId);
    }
  }

  lemma {:induction false} ItemsOfNone(a: seq<SaleItem>, saleId: nat)
    requires forall k :: 0 <= k < |a| ==> a[k].sale < saleId
    ensures ItemsOf(a, saleId) == []
  {
    if a != [] {
      ItemsOfNone(a[..|a| - 1], saleId);
    }
  }

  lemma {:induction false} ItemsOfAll(a: seq<SaleItem>, saleId: nat)
    requires forall k :: 0 <= k < |a| ==> a[k].sale == saleId
    ensures ItemsOf(a, saleId) == a
  {
    if a != [] {
      var n := |a| - 1;
      ItemsOfAll(a[..n], saleId);
      assert a[..n] + [a[n]] == a;
    }
  }

  /**
   * The items stored with a new sale are exactly its requested lines, so
   * the later confirmation decrements what the sale asked for.
   */
  lemma StoredItemsAreRequested(items: seq<SaleItem>, saleId: nat, its: seq<ItemRequest>)
    requires forall k :: 0 <= k < |items| ==> items[k].sale < saleId
    ensures SaleLines(ItemsOf(items + NewItems(saleId, its), saleId)) == Lines(its)
  {
    ItemsOfAppend(items, NewItems(saleId, its), saleId);
    ItemsOfNone(items, saleId);
    ItemsOfAll(NewItems(saleId, its), saleId);
    assert ItemsOf(items + NewItems(saleId, its), saleId) == NewItems(saleId, its);
  }

  /** Stores the items of sale `saleId`, one after another. */
  method StoreItems(db: SalesDb, saleId: nat, its: seq<ItemRequest>)
    requires db.Valid() && saleId < |db.sales|
    requires forall k :: 0 <= k < |its| ==> its[k].quantity > 0
    modifies db
    ensures db.Valid()
    ensures db.items == old(db.items) + NewItems(saleId, its)
    ensures db.sales == old(db.sales) && db.payments == old(db.payments)
    ensures db.reservations == old(db.reservations) && db.discounts == old(db.discounts)
  {
    for i := 0 to |its|
      invariant db.Valid()
      invariant db.items == old(db.items) + NewItems(saleId, its[..i])
      invariant db.sales == old(db.sales) && db.payments == old(db.payments)
      invariant db.reservations == old(db.reservations) && db.discounts == old(db.discounts)
    {
      assert NewItems(saleId, its[..i + 1]) == NewItems(saleId, its[..i]) + [ItemOf(saleId, its[i])];
      var _ := db.CreateSaleItem(saleId, its[i]);
    }
    assert its[..|its|] == its;
  }

  /** Stores the payments of sale `saleId`, one after another. */
  method StorePayments(db: SalesDb, saleId: nat, ps: seq<PaymentRequest>, now: int)
    requires db.Valid() && saleId < |db.sales|
    modifies db
    ensures db.Valid()
    ensures db.payments == old(db.payments) + NewPayments(saleId, ps, now)
    ensures db.sales == old(db.sales) && db.items == old(db.items)
    ensures db.reservations == old(db.reservations) && db.discounts == old(db.discounts)
  {
    for i := 0 to |ps|
      invariant db.Valid()
      invariant db.payments == old(db.payments) + NewPayments(saleId, ps[..i], now)
      invariant db.sales == old(db.sales) && db.items == old(db.items)
      invariant db.reservations == old(db.reservations) && db.discounts == old(db.discounts)
    {
      assert NewPayments(saleId, ps[..i + 1], now)
             == NewPayments(saleId, ps[..i], now) + [Payment(saleId, ps[i].kind, ps[i].amount, ps[i].reference, now)];
      var _ := db.CreateSalePayment(saleId, ps[i], now);
    }
    assert ps[..|ps|] == ps;
  }

  /**
   * Registers a sale.  When any item's reference lacks the available stock
   * the sale is refused before anything is stored, with the catch-all's
   * error.  Otherwise the sale, its items and its payments are stored, and
   * the stock is decremented now only when the sale needs no confirmation.
   * The receipt is the uploaded image's address, if any.
   */
  method CreateSaleComplete(stock: Ledger, db: SalesDb, req: SaleRequest, receipt: Option<string>,
                            seller: UserId, location: LocationId, now: int)
    returns (r: Result<nat>)
    requires stock.Valid() && db.Valid() && ValidSaleRequest(req)
    modifies stock, db
    ensures stock.Valid() && db.Valid()
    ensures stock.locations == old(stock.locations) && stock.products == old(stock.products)
    ensures stock.log == old(stock.log)
    ensures var issues := IssuesOf(old(stock.locations), old(stock.rows), old(stock.products), old(db.reservations),
                                   Lines(req.items), location, now);
      && (issues != [] ==> r == Err(Internal(InsufficientStock)))
      && (issues == [] ==> r == Ok(|old(db.sales)|))
    ensures r.Err? ==> stock.rows == old(stock.rows) && db.sales == old(db.sales) && db.items == old(db.items)
                       && db.payments == old(db.payments)
    ensures r.Ok? ==>
      && db.sales == old(db.sales) + [NewSale(seller, location, req.total, receipt, req.notes, req.requiresConfirmation, now)]
      && db.items == old(db.items) + NewItems(r.value, req.items)
      && db.payments == old(db.payments) + NewPayments(r.value, req.payments, now)
      && SaleLines(ItemsOf(db.items, r.value)) == Lines(req.items)
      && (req.requiresConfirmation ==> stock.rows == old(stock.rows))
      && (!req.requiresConfirmation ==> stock.rows == SellAll(old(stock.locations), old(stock.rows), Lines(req.items), location))
    ensures db.reservations == old(db.reservations) && db.discounts == old(db.discounts)
  {
    var issues := ValidateStockAvailability(stock, db, Lines(req.items), location, now);
    if issues != [] {
      // The refusal is raised inside the handler's catch-all, which answers 500.
      return Err(Internal(InsufficientStock));
    }
    var id := db.CreateSale(seller, location, req.total, receipt, req.notes, req.requiresConfirmation, now);
    StoreItems(db, id, req.items);
    StorePayments(db, id, req.payments, now);
    StoredItemsAreRequested(old(db.items), id, req.items);
    if !req.requiresConfirmation {
      UpdateStockAfterSale(stock, Lines(req.items), location);
    }
    r := Ok(id);
  }

  // ----- Confirming a sale -----

  /**
   * The guard the code places on a confirmation: the caller's own sale,
   * and one that requires confirmation.  Nothing stops a second
   * confirmation of a sale already confirmed.
   */
  predicate ConfirmAllowedAsWritten(s: Sale, user: UserId)
  {
    s.seller == user && s.requiresConfirmation
  }

  /** The intended guard: the caller's own sale, still waiting for confirmation. */
  predicate ConfirmAllowed(s: Sale, user: UserId)
  {
    s.seller == user && PendingConfirmation(s)
  }

  /**
   * Under the code's guard a sale can be confirmed twice, and each
   * confirmation sells its items: a pending sale of 2 units confirmed twice
   * takes a row of 5 units down to 1 rather than 3.
   */
  lemma DoubleConfirmAsWritten(loc: Location)
    ensures var s0 := Sale(7, 1, 10.0, None, 0, "completed", None, true, false, None);
            var s1 := ConfirmedSale(s0, true, "", 1);
            var rows := [SizeRow(Variant("R1", "40", 1), 5)];
            var lines := [Line("R1", "40", 2)];
            var once := SellAll(map[1 := loc], rows, lines, 1);
            && ConfirmAllowedAsWritten(s0, 7) && ConfirmAllowedAsWritten(s1, 7)
            && QuantityOf(once, Variant("R1", "40", 1)) == 3
            && QuantityOf(SellAll(map[1 := loc], once, lines, 1), Variant("R1", "40", 1)) == 1
  {
    var v := Variant("R1", "40", 1);
    var rows := [SizeRow(v, 5)];
    var lines := [Line("R1", "40", 2)];
    var m := map[1 := loc];
    assert lines[..0] == [];
    assert SellAll(m, rows, lines[..0], 1) == rows;
    assert Find(rows, v) == Some(0);
    assert Decreases(m, rows, v, 2);
    assert Adjust(rows, v, -2) == [SizeRow(v, 3)];
    var once := SellAll(m, rows, lines, 1);
    assert once == [SizeRow(v, 3)];
    assert SellAll(m, once, lines[..0], 1) == once;
    assert Find(once, v) == Some(0);
    assert Decreases(m, once, v, 2);
    assert Adjust(once, v, -2) == [SizeRow(v, 1)];
    assert SellAll(m, once, lines, 1) == [SizeRow(v, 1)];
    assert Find([SizeRow(v, 1)], v) == Some(0);
  }

  /** Under the intended guard a confirmed sale cannot be confirmed again. */
  lemma ConfirmOnce(s: Sale, user: UserId, confirmation: string, now: int)
    ensures !ConfirmAllowed(ConfirmedSale(s, true, confirmation, now), user)
    ensures ConfirmAllowed(s, user) ==> ConfirmAllowedAsWritten(s, user)
  {
  }

  /**
   * Records the seller's decision on one of their pending sales.  Another
   * seller's sale is not found; a sale that needs no confirmation, or one
   * already confirmed, is refused.  Confirming sells the sale's stored
   * items at the sale's location; declining changes no stock.
   */
  method ConfirmSale(stock: Ledger, db: SalesDb, saleId: nat, confirmed: bool, confirmation: string,
                     user: UserId, now: int)
    returns (r: Result<bool>)
    requires stock.Valid() && db.Valid()
    modifies stock, db
    ensures stock.Valid() && db.Valid()
    ensures stock.locations == old(stock.locations) && stock.products == old(stock.products)
    ensures stock.log == old(stock.log)
    ensures saleId >= |old(db.sales)| || old(db.sales)[saleId].seller != user ==> r == Err(NotFound)
    ensures (saleId < |old(db.sales)| && old(db.sales)[saleId].seller == user
             && !ConfirmAllowed(old(db.sales)[saleId], user)) ==> r == Err(BadRequest)
    ensures r.Err? ==> stock.rows == old(stock.rows) && db.sales == old(db.sales)
    ensures r.Ok? <==> saleId < |old(db.sales)| && ConfirmAllowed(old(db.sales)[saleId], user)
    ensures r.Ok? ==>
      && r.value == confirmed
      && db.sales == old(db.sales)[saleId := ConfirmedSale(old(db.sales)[saleId], confirmed, confirmation, now)]
      && (confirmed ==> stock.rows == SellAll(old(stock.locations), old(stock.rows),
                                              SaleLines(ItemsOf(old(db.items), saleId)), old(db.sales)[saleId].location))
      && (!confirmed ==> stock.rows == old(stock.rows))
    ensures db.items == old(db.items) && db.payments == old(db.payments)
    ensures db.reservations == old(db.reservations) && db.discounts == old(db.discounts)
  {
    if saleId >= |db.sales| || db.sales[saleId].seller != user {
      return Err(NotFound);
    }
    var sale := db.sales[saleId];
    if !ConfirmAllowed(sale, user) {
      return Err(BadRequest);
    }
    var _ := db.ConfirmSale(saleId, confirmed, confirmation, now);
    if confirmed {
      var items := ItemsOf(db.items, saleId);
      assert PositiveLines(SaleLines(items)) by {
        ItemsOfPositive(db.items, saleId);
      }
      UpdateStockAfterSale(stock, SaleLines(items), sale.location);
    }
    r := Ok(confirmed);
  }

  lemma {:induction false} ItemsOfPositive(items: seq<SaleItem>, saleId: nat)
    requires forall k :: 0 <= k < |items| ==> items[k].quantity > 0
    ensures forall k :: 0 <= k < |ItemsOf(items, saleId)| ==> ItemsOf(items, saleId)[k].quantity > 0
  {
    if items != [] {
      ItemsOfPositive(items[..|items| - 1], saleId);
    }
  }

  // ----- Reservations -----

  /** How long a reservation lasts: five minutes for a present customer, one otherwise. */
  function ReservationMinutes(purpose: string): (m: nat)
    ensures m == 1 || m == 5
    ensures m == 5 <==> purpose == "cliente"
  {
    if purpose == "cliente" then 5 else 1
  }

  datatype ReservationReceipt = ReservationReceipt(id: nat, minutes: nat, expiresAt: int)

  /**
   * Reserves `qty` units of one size for the caller at `location` when the
   * reference's available stock covers them, for five minutes or one
   * depending on the purpose.  A reservation lowers the reference's
   * available stock at that location by exactly `qty` while it lasts.
   * The quantity is not validated: a zero or negative one is reserved too,
   * leaving the available stock as it was or raising it.
   */
  method ReserveProduct(stock: Ledger, db: SalesDb, ref: string, size: string, qty: int, purpose: string,
                        user: UserId, location: LocationId, now: int)
    returns (r: Result<ReservationReceipt>)
    requires db.Valid()
    modifies db
    ensures db.Valid()
    ensures var a := AvailabilityAt(stock.locations, stock.rows, stock.products, old(db.reservations), ref, location, now);
      && (r.Ok? <==> a.canFulfill && a.available >= qty)
      && (r.Err? ==> r.error == InsufficientStock && db.reservations == old(db.reservations))
      && (r.Ok? ==>
            && r.value == ReservationReceipt(|old(db.reservations)|, ReservationMinutes(purpose),
                                             now + 60 * ReservationMinutes(purpose))
            && db.reservations == old(db.reservations)
                                  + [Reservation(ref, size, qty, user, location, purpose, Active, now,
                                                 now + 60 * ReservationMinutes(purpose), None)]
            && AvailabilityAt(stock.locations, stock.rows, stock.products, db.reservations, ref, location, now).available
               == a.available - qty)
    ensures r.Ok? && qty <= 0 ==>
      AvailabilityAt(stock.locations, stock.rows, stock.products, db.reservations, ref, location, now).available
      >= AvailabilityAt(stock.locations, stock.rows, stock.products, old(db.reservations), ref, location, now).available
    ensures db.sales == old(db.sales) && db.items == old(db.items) && db.payments == old(db.payments)
    ensures db.discounts == old(db.discounts)
  {
    var a := AvailabilityAt(stock.locations, stock.rows, stock.products, db.reservations, ref, location, now);
    if !a.canFulfill || a.available < qty {
      return Err(InsufficientStock);
    }
    var minutes := ReservationMinutes(purpose);
    var expiresAt := now + 60 * minutes;
    var x := Reservation(ref, size, qty, user, location, purpose, Active, now, expiresAt, None);
    ReservedAppend(db.reservations, x, ref, location, now);
    var id := db.CreateReservation(ref, size, qty, user, location, purpose, now, expiresAt);
    r := Ok(ReservationReceipt(id, minutes, expiresAt));
  }

  /**
   * Releases one of the caller's reservations.  Another user's reservation
   * is not found; one no longer active is refused.  Releasing gives back
   * the units it held.
   */
  method ReleaseReservation(db: SalesDb, id: nat, user: UserId, now: int) returns (r: Result<nat>)
    requires db.Valid()
    modifies db
    ensures db.Valid()
    ensures id >= |old(db.reservations)| || old(db.reservations)[id].user != user ==> r == Err(NotFound)
    ensures (id < |old(db.reservations)| && old(db.reservations)[id].user == user
             && old(db.reservations)[id].status != Active) ==> r == Err(BadRequest)
    ensures r.Err? ==> db.reservations == old(db.reservations)
    ensures r.Ok? <==> id < |old(db.reservations)| && old(db.reservations)[id].user == user
                       && old(db.reservations)[id].status == Active
    ensures r.Ok? ==> var x := old(db.reservations)[id];
      && r.value == id
      && db.reservations == old(db.reservations)[id := x.(status := Released, releasedAt := Some(now))]
      && ReservedQuantity(db.reservations, x.ref, x.location, now)
         == ReservedQuantity(old(db.reservations), x.ref, x.location, now) - (if x.expiresAt > now then x.quantity else 0)
    ensures db.sales == old(db.sales) && db.items == old(db.items) && db.payments == old(db.payments)
    ensures db.discounts == old(db.discounts)
  {
    if id >= |db.reservations| || db.reservations[id].user != user {
      return Err(NotFound);
    }
    var x := db.reservations[id];
    if x.status != Active {
      return Err(BadRequest);
    }
    ReservedRelease(db.reservations, id, now, x.ref, x.location, now);
    var _ := db.ReleaseReservation(id, now);
    r := Ok(id);
  }

  // ----- Availability summary -----

  /** A product found by a search: its local availability, when computed, and whether a transfer can bring it. */
  datatype ProductFound = ProductFound(availability: Option<Availability>, canRequestTransfer: bool)

  predicate Fulfillable(p: ProductFound)
  {
    p.availability.Some? && p.availability.value.canFulfill
  }

  function CountFulfillable(ps: seq<ProductFound>): (n: nat)
    ensures n <= |ps|
    ensures n > 0 <==> exists k :: 0 <= k < |ps| && Fulfillable(ps[k])
  {
    if ps == [] then 0
    else
      var init := ps[..|ps| - 1];
      assert forall k :: 0 <= k < |init| ==> init[k] == ps[k];
      CountFulfillable(init) + (if Fulfillable(ps[|ps| - 1]) then 1 else 0)
  }

  function CountTransferable(ps: seq<ProductFound>): (n: nat)
    ensures n <= |ps|
    ensures n > 0 <==> exists k :: 0 <= k < |ps| && ps[k].canRequestTransfer
  {
    if ps == [] then 0
    else
      var init := ps[..|ps| - 1];
      assert forall k :: 0 <= k < |init| ==> init[k] == ps[k];
      CountTransferable(init) + (if ps[|ps| - 1].canRequestTransfer then 1 else 0)
  }

  datatype AvailabilitySummary = AvailabilitySummary(availableLocally: nat, requiringTransfer: nat, totalFound: nat,
                                                     canSellImmediately: bool, transferOptions: bool)

  /**
   * Summarises a search: a sale can be made at once exactly when some
   * product can be fulfilled locally, and a transfer is an option exactly
   * when some product can be requested from elsewhere.
   */
  function CalculateAvailabilitySummary(ps: seq<ProductFound>): (s: AvailabilitySummary)
    ensures s.totalFound == |ps| && s.availableLocally <= |ps| && s.requiringTransfer <= |ps|
    ensures s.canSellImmediately <==> exists k :: 0 <= k < |ps| && Fulfillable(ps[k])
    ensures s.transferOptions <==> exists k :: 0 <= k < |ps| && ps[k].canRequestTransfer
  {
    var local := CountFulfillable(ps);
    var transfer := CountTransferable(ps);
    AvailabilitySummary(local, transfer, |ps|, local > 0, transfer > 0)
  }
}

=== FILE: staff.dfy ===
/**
 * The people tables: user accounts, the assignments of users to locations
 * (unique per user and location, as the table's constraint demands) and the
 * assignments of administrators to the locations they manage.
 */
module Staff {
  import opened Common

  /** How a role is written in the role columns. */
  function RoleName(r: Role): string
  {
    match r
    case Vendedor => "vendedor"
    case Bodeguero => "bodeguero"
    case Corredor => "corredor"
    case Administrador => "administrador"
    case Boss => "boss"
  }

  datatype Account = Account(email: string, role: Role, location: Option<LocationId>, active: bool)

  datatype UserAssignment = UserAssignment(user: UserId, location: LocationId,
                                           roleAtLocation: string, active: bool)

  datatype AdminAssignment = AdminAssignment(admin: UserId, location: LocationId, active: bool,
                                             assignedAt: int, assignedBy: Option<UserId>,
                                             notes: Option<string>)

  /** The assignment of `user` to `location`, if there is one. */
  function FindUserAssignment(s: seq<UserAssignment>, user: UserId, location: LocationId): (r: Option<nat>)
    ensures r.None? <==> forall i :: 0 <= i < |s| ==> !(s[i].user == user && s[i].location == location)
    ensures r.Some? ==> r.value < |s| && s[r.value].user == user && s[r.value].location == location
  {
    if s == [] then None
    else if s[|s| - 1].user == user && s[|s| - 1].location == location then Some(|s| - 1)
    else FindUserAssignment(s[..|s| - 1], user, location)
  }

  /** The assignment of `admin` to `location`, if there is one. */
  function FindAdminAssignment(s: seq<AdminAssignment>, admin: UserId, location: LocationId): (r: Option<nat>)
    ensures r.None? <==> forall i :: 0 <= i < |s| ==> !(s[i].admin == admin && s[i].location == location)
    ensures r.Some? ==> r.value < |s| && s[r.value].admin == admin && s[r.value].location == location
  {
    if s == [] then None
    else if s[|s| - 1].admin == admin && s[|s| - 1].location == location then Some(|s| - 1)
    else FindAdminAssignment(s[..|s| - 1], admin, location)
  }

  predicate UniqueUserPairs(s: seq<UserAssignment>)
  {
    forall i, j :: 0 <= i < j < |s| ==> !(s[i].user == s[j].user && s[i].location == s[j].location)
  }

  predicate UniqueAdminPairs(s: seq<AdminAssignment>)
  {
    forall i, j :: 0 <= i < j < |s| ==> !(s[i].admin == s[j].admin && s[i].location == s[j].location)
  }

  /** Whether `admin` holds an active assignment to `location`. */
  predicate ActiveAdminAssignment(s: seq<AdminAssignment>, admin: UserId, location: LocationId)
  {
    exists i :: 0 <= i < |s| && s[i].admin == admin && s[i].location == location && s[i].active
  }

  class StaffDb {
    var accounts: map<UserId, Account>
    var nextUserId: nat
    var userAssignments: seq<UserAssignment>
    var adminAssignments: seq<AdminAssignment>

    /**
     * Ids, of accounts and of assigned users alike, are below the next id to
     * hand out; each user or admin has at most one row per location.
     */
    ghost predicate Valid()
      reads this
    {
      (forall id :: id in accounts ==> id < nextUserId)
      && (forall i :: 0 <= i < |userAssignments| ==> userAssignments[i].user < nextUserId)
      && UniqueUserPairs(userAssignments)
      && UniqueAdminPairs(adminAssignments)
    }

    constructor ()
      ensures Valid()
      ensures accounts == map[] && nextUserId == 0 && userAssignments == [] && adminAssignments == []
    {
      accounts := map[];
      nextUserId := 0;
      userAssignments := [];
      adminAssignments := [];
    }
  }
}

=== FILE: transfer_repository.dfy ===
/**
 * The transfer_requests table and the queries over it: the generic status
 * update that stamps each transition's timestamp, the cancellation and
 * access checks, the stock check at the source, and the three work queues.
 */
module TransferRepository {
  import opened Common
  import opened TransferSchemas
  import opened Ordering
  import Ledger
  import Staff

  /** One transfer request row. */
  datatype Transfer = Transfer(
    requester: UserId, source: LocationId, destination: LocationId,
    ref: string, brand: string, model: string, size: string, quantity: int,
    purpose: Purpose, pickupType: PickupType, destinationType: DestinationType,
    status: TransferStatus,
    keeper: Option<UserId>, courier: Option<UserId>,
    requestedAt: int, acceptedAt: Option<int>, courierAcceptedAt: Option<int>,
    pickedUpAt: Option<int>, deliveredAt: Option<int>, confirmedReceptionAt: Option<int>,
    cancelledAt: Option<int>,
    notes: Option<string>, pickupNotes: Option<string>, courierNotes: Option<string>,
    receptionNotes: Option<string>, receivedQuantity: Option<int>,
    estimatedPickupMinutes: Option<int>, estimatedPreparationMinutes: Option<int>)

  /** A keyword argument of the status update. */
  datatype Field =
    | KeeperId(keeperId: UserId)
    | CourierId(courierId: UserId)
    | Notes(text: Option<string>)
    | PickupNotes(pickupText: Option<string>)
    | CourierNotes(courierText: Option<string>)
    | ReceptionNotes(receptionText: Option<string>)
    | ReceivedQuantity(received: int)
    | EstimatedPickupTime(pickupMinutes: int)
    | EstimatedPreparationTime(preparationMinutes: int)
    | CancelledAt(cancelledTime: int)

  datatype Incident = Incident(transfer: nat, courier: UserId, incidentType: string,
                               description: string, reportedAt: int)

  /** The keeper id among the keyword arguments, if one was passed. */
  function KeeperArg(kw: seq<Field>): Option<UserId>
  {
    if kw == [] then None
    else if kw[0].KeeperId? then Some(kw[0].keeperId)
    else KeeperArg(kw[1..])
  }

  /** The courier id among the keyword arguments, if one was passed. */
  function CourierArg(kw: seq<Field>): Option<UserId>
  {
    if kw == [] then None
    else if kw[0].CourierId? then Some(kw[0].courierId)
    else CourierArg(kw[1..])
  }

  /** The new status together with the columns that status stamps. */
  function Stamp(t: Transfer, s: TransferStatus, kw: seq<Field>, now: int): Transfer
  {
    var u := t.(status := s);
    if s == Accepted && KeeperArg(kw).Some? then u.(acceptedAt := Some(now), keeper := KeeperArg(kw))
    else if s == CourierAssigned && CourierArg(kw).Some? then u.(courier := CourierArg(kw), courierAcceptedAt := Some(now))
    else if s == InTransit then u.(pickedUpAt := Some(now))
    else if s == Delivered then u.(deliveredAt := Some(now))
    else if s == Completed then u.(confirmedReceptionAt := Some(now))
    else u
  }

  /** Copies one keyword argument into its column; the two id arguments are not copied. */
  function CopyField(t: Transfer, f: Field): Transfer
  {
    match f
    case KeeperId(_) => t
    case CourierId(_) => t
    case Notes(n) => t.(notes := n)
    case PickupNotes(n) => t.(pickupNotes := n)
    case CourierNotes(n) => t.(courierNotes := n)
    case ReceptionNotes(n) => t.(receptionNotes := n)
    case ReceivedQuantity(q) => t.(receivedQuantity := Some(q))
    case EstimatedPickupTime(m) => t.(estimatedPickupMinutes := Some(m))
    case EstimatedPreparationTime(m) => t.(estimatedPreparationMinutes := Some(m))
    case CancelledAt(c) => t.(cancelledAt := Some(c))
  }

  function CopyFields(t: Transfer, kw: seq<Field>): Transfer
  {
    if kw == [] then t else CopyField(CopyFields(t, kw[..|kw| - 1]), kw[|kw| - 1])
  }

  /** The row after the status update: stamp first, then copy the other arguments. */
  function ApplyUpdate(t: Transfer, s: TransferStatus, kw: seq<Field>, now: int): Transfer
  {
    CopyFields(Stamp(t, s, kw, now), kw)
  }

  /** The columns no keyword argument reaches: identity, status, people and workflow timestamps. */
  predicate SameWorkflow(a: Transfer, b: Transfer)
  {
    a.requester == b.requester && a.source == b.source && a.destination == b.destination
    && a.ref == b.ref && a.brand == b.brand && a.model == b.model && a.size == b.size
    && a.quantity == b.quantity && a.purpose == b.purpose && a.pickupType == b.pickupType
    && a.destinationType == b.destinationType && a.status == b.status
    && a.keeper == b.keeper && a.courier == b.courier
    && a.requestedAt == b.requestedAt && a.acceptedAt == b.acceptedAt
    && a.courierAcceptedAt == b.courierAcceptedAt && a.pickedUpAt == b.pickedUpAt
    && a.deliveredAt == b.deliveredAt && a.confirmedReceptionAt == b.confirmedReceptionAt
  }

  /** Copying the extra arguments never touches the status, the people or the workflow timestamps. */
  lemma CopyFieldKeepsWorkflow(t: Transfer, f: Field)
    ensures SameWorkflow(CopyField(t, f), t)
  {
  }

  lemma {:induction false} CopyFieldsKeepsWorkflow(t: Transfer, kw: seq<Field>)
    ensures SameWorkflow(CopyFields(t, kw), t)
  {
    if kw != [] {
      var p := CopyFields(t, kw[..|kw| - 1]);
      CopyFieldsKeepsWorkflow(t, kw[..|kw| - 1]);
      CopyFieldKeepsWorkflow(p, kw[|kw| - 1]);
      assert CopyFields(t, kw) == CopyField(p, kw[|kw| - 1]);
    }
  }

  /**
   * A keyword argument naming no column of transfer_requests: the table has
   * neither a cancellation time nor a preparation estimate.
   */
  predicate Unmapped(f: Field)
  {
    f.EstimatedPreparationTime? || f.CancelledAt?
  }

  /** Every keyword argument names a column of the table. */
  predicate AllMapped(kw: seq<Field>)
  {
    forall i :: 0 <= i < |kw| ==> !Unmapped(kw[i])
  }

  /** The last `notes` argument, if any. */
  function NotesArg(kw: seq<Field>): Option<Option<string>>
  {
    if kw == [] then None
    else if kw[|kw| - 1].Notes? then Some(kw[|kw| - 1].text)
    else NotesArg(kw[..|kw| - 1])
  }

  /** The last `received_quantity` argument, if any. */
  function ReceivedArg(kw: seq<Field>): Option<int>
  {
    if kw == [] then None
    else if kw[|kw| - 1].ReceivedQuantity? then Some(kw[|kw| - 1].received)
    else ReceivedArg(kw[..|kw| - 1])
  }

  /** The last `estimated_preparation_time` argument, if any. */
  function PreparationArg(kw: seq<Field>): Option<int>
  {
    if kw == [] then None
    else if kw[|kw| - 1].EstimatedPreparationTime? then Some(kw[|kw| - 1].preparationMinutes)
    else PreparationArg(kw[..|kw| - 1])
  }

  /** Extra arguments are copied verbatim: a passed value lands in its column, an absent one leaves it. */
  lemma {:induction false} CopyFieldsVerbatim(t: Transfer, kw: seq<Field>)
    ensures CopyFields(t, kw).notes == (match NotesArg(kw) case Some(n) => n case None => t.notes)
    ensures CopyFields(t, kw).receivedQuantity
            == (match ReceivedArg(kw) case Some(q) => Some(q) case None => t.receivedQuantity)
    ensures CopyFields(t, kw).estimatedPreparationMinutes
            == (match PreparationArg(kw) case Some(m) => Some(m) case None => t.estimatedPreparationMinutes)
  {
    if kw != [] {
      CopyFieldsVerbatim(t, kw[..|kw| - 1]);
    }
  }

  /**
   * What a status update writes: the new status; the keeper and
   * `accepted_at` when moving to accepted with a keeper; the courier and
   * `courier_accepted_at` when moving to courier_assigned with a courier;
   * the pickup, delivery or reception timestamp for those statuses; and
   * the people otherwise untouched.
   */
  lemma UpdateStamps(t: Transfer, s: TransferStatus, kw: seq<Field>, now: int)
    ensures var r := ApplyUpdate(t, s, kw, now);
      && r.status == s
      && r.requester == t.requester && r.source == t.source && r.destination == t.destination
      && r.ref == t.ref && r.size == t.size && r.quantity == t.quantity && r.purpose == t.purpose
      && r.requestedAt == t.requestedAt
      && (s == Accepted && KeeperArg(kw).Some? ==> r.acceptedAt == Some(now) && r.keeper == KeeperArg(kw))
      && (!(s == Accepted && KeeperArg(kw).Some?) ==> r.keeper == t.keeper && r.acceptedAt == t.acceptedAt)
      && (s == CourierAssigned && CourierArg(kw).Some? ==> r.courier == CourierArg(kw) && r.courierAcceptedAt == Some(now))
      && (!(s == CourierAssigned && CourierArg(kw).Some?) ==> r.courier == t.courier)
      && (s == InTransit ==> r.pickedUpAt == Some(now))
      && (s == Delivered ==> r.deliveredAt == Some(now))
      && (s == Completed ==> r.confirmedReceptionAt == Some(now))
  {
    CopyFieldsKeepsWorkflow(Stamp(t, s, kw, now), kw);
  }

  /** Stock of a variant at a location, as the transfer module checks it. */
  datatype Availability = Availability(available: bool, physicalStock: int, availableStock: int)

  /**
   * Availability at `location`: a missing location, a missing size row or
   * an inactive product is unavailable; otherwise the physical quantity is
   * both the physical and the available stock (reservations are not
   * subtracted), and the variant is available iff it is positive.
   */
  function CheckProductAvailability(db: Ledger.Ledger, ref: string, size: string, location: LocationId): (a: Availability)
    reads db
    ensures var v := Ledger.Variant(ref, size, location);
      a.available <==> location in db.locations && Ledger.CanTake(db.rows, db.products, v, 1, true)
    ensures a.available ==> a.availableStock == Ledger.QuantityOf(db.rows, Ledger.Variant(ref, size, location))
    ensures !a.available ==> a.availableStock <= 0
    ensures a.physicalStock == a.availableStock
  {
    var v := Ledger.Variant(ref, size, location);
    if location !in db.locations then Availability(false, 0, 0)
    else if Ledger.Find(db.rows, v).None? || v.Key() !in db.products || !db.products[v.Key()].active then Availability(false, 0, 0)
    else
      var q := Ledger.QuantityOf(db.rows, v);
      Availability(q > 0, q, q)
  }

  /** The cancellation check: the transfer exists, the caller requested it, and it is pending or accepted. */
  predicate CanCancelTransfer(transfers: map<nat, Transfer>, id: nat, user: UserId)
  {
    id in transfers && transfers[id].requester == user
    && (transfers[id].status == Pending || transfers[id].status == Accepted)
  }

  /**
   * Read access by role: a seller sees its own requests, a keeper or a
   * courier the requests assigned to it or not yet assigned to anyone,
   * administrators and the boss everything.
   */
  predicate CanUserAccessTransfer(transfers: map<nat, Transfer>, id: nat, user: UserId, role: Role)
  {
    id in transfers
    && match role
       case Vendedor => transfers[id].requester == user
       case Bodeguero => transfers[id].keeper == Some(user) || transfers[id].keeper.None?
       case Corredor => transfers[id].courier == Some(user) || transfers[id].courier.None?
       case Administrador => true
       case Boss => true
  }

  /** The three work queues. */
  datatype Queue = WarehousePending | KeeperAccepted | CourierAvailable

  /** Customer transfers rank before restock transfers. */
  function PurposeTier(p: Purpose): int
  {
    if p == Cliente then 1 else 2
  }

  /** An ascending key on an optional timestamp; a missing timestamp sorts last. */
  function TimeKey(tier: int, time: Option<int>): Key
  {
    match time
    case None => Key(tier, 1, 0)
    case Some(x) => Key(tier, 0, x)
  }

  /** The order of each queue. */
  function QueueKey(q: Queue, t: Transfer): Key
  {
    match q
    case WarehousePending => TimeKey(PurposeTier(t.purpose), Some(t.requestedAt))
    case KeeperAccepted => TimeKey(0, t.acceptedAt)
    case CourierAvailable => TimeKey(PurposeTier(t.purpose), t.acceptedAt)
  }

  /**
   * Which transfers each queue shows to `user`: for a keeper, the pending
   * requests from a location it is actively assigned to as keeper
   * (`sites`); the keeper's own accepted, courier-assigned or in-transit
   * requests; for a courier, the unclaimed accepted requests and its own
   * courier-assigned or in-transit ones.
   */
  predicate InQueue(q: Queue, t: Transfer, user: UserId, sites: set<LocationId>)
  {
    match q
    case WarehousePending => t.status == Pending && t.source in sites
    case KeeperAccepted =>
      t.keeper == Some(user) && (t.status == Accepted || t.status == CourierAssigned || t.status == InTransit)
    case CourierAvailable =>
      (t.status == Accepted && t.courier.None?)
      || (t.courier == Some(user) && (t.status == CourierAssigned || t.status == InTransit))
  }

  /**
   * Whatever a queue shows its user is a transfer that user may read in the
   * queue's role; in the keeper's pending queue, exactly those not yet
   * accepted by another keeper.
   */
  lemma QueueAccessible(transfers: map<nat, Transfer>, id: nat, q: Queue, user: UserId, sites: set<LocationId>)
    requires id in transfers && InQueue(q, transfers[id], user, sites)
    ensures q == KeeperAccepted ==> CanUserAccessTransfer(transfers, id, user, Bodeguero)
    ensures q == CourierAvailable ==> CanUserAccessTransfer(transfers, id, user, Corredor)
    ensures q == WarehousePending ==>
              (CanUserAccessTransfer(transfers, id, user, Bodeguero)
               <==> transfers[id].keeper.None? || transfers[id].keeper == Some(user))
  {
  }

  /** The locations `user` is actively assigned to as warehouse keeper. */
  function KeeperSites(assignments: seq<Staff.UserAssignment>, user: UserId): (sites: set<LocationId>)
    ensures forall l :: l in sites <==>
      exists i :: 0 <= i < |assignments| && assignments[i].user == user && assignments[i].active
                  && assignments[i].roleAtLocation == "bodeguero" && assignments[i].location == l
  {
    set i | 0 <= i < |assignments| && assignments[i].user == user && assignments[i].active
            && assignments[i].roleAtLocation == "bodeguero" :: assignments[i].location
  }

  /** The entries for `found`, keyed by the queue's order. */
  function QueueEntries(table: map<nat, Transfer>, q: Queue, found: seq<nat>): (es: seq<Entry>)
    requires forall k :: 0 <= k < |found| ==> found[k] in table
    ensures |es| == |found|
    ensures forall k :: 0 <= k < |found| ==> es[k] == Entry(found[k], QueueKey(q, table[found[k]]))
  {
    if found == [] then []
    else [Entry(found[0], QueueKey(q, table[found[0]]))] + QueueEntries(table, q, found[1..])
  }

  /** Sorting distinct ids by the queue's key keeps exactly the same ids, once each, in key order. */
  lemma SortQueueIds(table: map<nat, Transfer>, q: Queue, found: seq<nat>)
    requires forall k :: 0 <= k < |found| ==> found[k] in table
    requires forall i, j :: 0 <= i < j < |found| ==> found[i] != found[j]
    ensures var ids := Ids(SortEntries(QueueEntries(table, q, found)));
      && (forall k :: 0 <= k < |ids| ==> ids[k] in found && ids[k] in table)
      && (forall x :: x in found ==> x in ids)
      && (forall i, j :: 0 <= i < j < |ids| ==> ids[i] != ids[j])
      && (forall i, j :: 0 <= i < j < |ids| ==> KeyLe(QueueKey(q, table[ids[i]]), QueueKey(q, table[ids[j]])))
  {
    var entries := QueueEntries(table, q, found);
    SortedQueue(entries);
    var sorted := SortEntries(entries);
    var ids := Ids(sorted);
    forall k | 0 <= k < |sorted|
      ensures sorted[k].id in found && sorted[k].key == QueueKey(q, table[sorted[k].id])
    {
      var m :| 0 <= m < |entries| && entries[m] == sorted[k];
    }
    forall x | x in found
      ensures x in ids
    {
      var k :| 0 <= k < |found| && found[k] == x;
      assert entries[k] in entries;
      var m :| 0 <= m < |sorted| && sorted[m] == entries[k];
      assert ids[m] == x;
    }
  }

  /** In a queue ordered by purpose tier, no restock transfer comes before a customer one. */
  lemma CustomerFirst(table: map<nat, Transfer>, q: Queue, ids: seq<nat>)
    requires forall k :: 0 <= k < |ids| ==> ids[k] in table
    requires forall i, j :: 0 <= i < j < |ids| ==> KeyLe(QueueKey(q, table[ids[i]]), QueueKey(q, table[ids[j]]))
    ensures q != KeeperAccepted ==>
      forall i, j :: 0 <= i < j < |ids| && table[ids[j]].purpose == Cliente ==> table[ids[i]].purpose == Cliente
  {
  }

  class TransferDb {
    var transfers: map<nat, Transfer>
    var nextId: nat
    var incidents: seq<Incident>

    ghost predicate Valid()
      reads this
    {
      forall id :: id in transfers ==> id < nextId
    }

    constructor ()
      ensures Valid() && transfers == map[] && nextId == 0 && incidents == []
    {
      transfers := map[];
      nextId := 0;
      incidents := [];
    }

    /** Stores a new row under a fresh id. */
    method Insert(t: Transfer) returns (id: nat)
      requires Valid()
      modifies this
      ensures Valid()
      ensures id == old(nextId) && id !in old(transfers)
      ensures transfers == old(transfers)[id := t] && incidents == old(incidents)
    {
      id := nextId;
      transfers := transfers[id := t];
      nextId := nextId + 1;
    }

    /**
     * Writes `s` and the keyword arguments into row `id`, building the
     * update one argument at a time; reports whether a row was updated.
     */
    method UpdateTransferStatus(id: nat, s: TransferStatus, kw: seq<Field>, now: int) returns (updated: bool)
      requires Valid()
      modifies this
      ensures Valid() && nextId == old(nextId) && incidents == old(incidents)
      ensures updated <==> id in old(transfers)
      ensures transfers == if updated then old(transfers)[id := ApplyUpdate(old(transfers)[id], s, kw, now)]
                           else old(transfers)
    {
      if id !in transfers {
        return false;
      }
      var base := Stamp(transfers[id], s, kw, now);
      var row := base;
      var i := 0;
      while i < |kw|
        invariant 0 <= i <= |kw|
        invariant row == CopyFields(base, kw[..i])
      {
        assert kw[..i + 1][..i] == kw[..i];
        row := CopyField(row, kw[i]);
        i := i + 1;
      }
      assert kw[..|kw|] == kw;
      transfers := transfers[id := row];
      updated := true;
    }

    /**
     * The status update as the repository is written: the bulk update names
     * every keyword argument as a column, so one argument without a column
     * makes the statement fail before any row is touched; the session is
     * rolled back and the error propagates as a 500.  Otherwise it is the
     * update above.
     */
    method UpdateTransferStatusAsWritten(id: nat, s: TransferStatus, kw: seq<Field>, now: int)
      returns (r: Result<bool>)
      requires Valid()
      modifies this
      ensures Valid() && nextId == old(nextId) && incidents == old(incidents)
      ensures r.Err? <==> !AllMapped(kw)
      ensures r.Err? ==> r.error == Internal(StorageFailed) && transfers == old(transfers)
      ensures r.Ok? ==> (r.value <==> id in old(transfers))
      ensures r.Ok? ==> transfers == if r.value then old(transfers)[id := ApplyUpdate(old(transfers)[id], s, kw, now)]
                                     else old(transfers)
    {
      if !AllMapped(kw) {
        return Err(Internal(StorageFailed));
      }
      var updated := UpdateTransferStatus(id, s, kw, now);
      r := Ok(updated);
    }

    /** Appends an incident report and answers its id. */
    method AddIncident(inc: Incident) returns (id: nat)
      modifies this
      ensures id == |old(incidents)| && incidents == old(incidents) + [inc]
      ensures transfers == old(transfers) && nextId == old(nextId)
    {
      id := |incidents|;
      incidents := incidents + [inc];
    }

    /**
     * One work queue for `user`, whose keeper sites come from the staff
     * assignment rows: every transfer the queue shows, once,
     * ordered by the queue's key; in the keeper's pending queue and the
     * courier queue every customer transfer comes before every restock one.
     */
    method ListQueue(q: Queue, user: UserId, assignments: seq<Staff.UserAssignment>) returns (ids: seq<nat>)
      ensures forall k :: 0 <= k < |ids| ==> ids[k] in transfers
      ensures forall id :: id in ids <==> id in transfers && InQueue(q, transfers[id], user, KeeperSites(assignments, user))
      ensures q == WarehousePending ==>
                forall id :: id in ids <==>
                  id in transfers && transfers[id].status == Pending
                  && exists i :: 0 <= i < |assignments| && assignments[i].user == user && assignments[i].active
                                 && assignments[i].roleAtLocation == "bodeguero"
                                 && assignments[i].location == transfers[id].source
      ensures forall i, j :: 0 <= i < j < |ids| ==> ids[i] != ids[j]
      ensures forall i, j :: 0 <= i < j < |ids| ==>
                KeyLe(QueueKey(q, transfers[ids[i]]), QueueKey(q, transfers[ids[j]]))
      ensures q != KeeperAccepted ==>
                forall i, j :: 0 <= i < j < |ids| && transfers[ids[j]].purpose == Cliente ==>
                  transfers[ids[i]].purpose == Cliente
    {
      var sites := KeeperSites(assignments, user);
      var shown := set id | id in transfers && InQueue(q, transfers[id], user, sites);
      var found := Enumerate(shown);
      forall k | 0 <= k < |found|
        ensures found[k] in shown
      {
        assert found[k] in found;
      }
      SortQueueIds(transfers, q, found);
      ids := Ids(SortEntries(QueueEntries(transfers, q, found)));
      CustomerFirst(transfers, q, ids);
    }
  }
}

=== FILE: transfer_schemas.dfy ===
/**
 * The vocabulary of transfers: the nine statuses, the request purposes and
 * kinds, and the request bodies with the bounds their schemas put on them.
 */
module TransferSchemas {
  import opened Common

  datatype TransferStatus =
    | Pending | Accepted | CourierAssigned | InTransit | Delivered
    | Completed | Cancelled | DeliveryFailed | ReceptionIssues

  datatype Purpose = Cliente | Restock

  datatype PickupType = SellerPickup | CourierPickup

  datatype DestinationType = ToBodega | ToExhibicion

  /** The string stored in the status column. */
  function StatusName(s: TransferStatus): string
  {
    match s
    case Pending => "pending"
    case Accepted => "accepted"
    case CourierAssigned => "courier_assigned"
    case InTransit => "in_transit"
    case Delivered => "delivered"
    case Completed => "completed"
    case Cancelled => "cancelled"
    case DeliveryFailed => "delivery_failed"
    case ReceptionIssues => "reception_issues"
  }

  /** Reads a status column back; any other text is not a status. */
  function ParseStatus(text: string): Option<TransferStatus>
  {
    if text == "pending" then Some(Pending)
    else if text == "accepted" then Some(Accepted)
    else if text == "courier_assigned" then Some(CourierAssigned)
    else if text == "in_transit" then Some(InTransit)
    else if text == "delivered" then Some(Delivered)
    else if text == "completed" then Some(Completed)
    else if text == "cancelled" then Some(Cancelled)
    else if text == "delivery_failed" then Some(DeliveryFailed)
    else if text == "reception_issues" then Some(ReceptionIssues)
    else None
  }

  /** The status column round-trips: every status reads back as itself, and only its own name reads as it. */
  lemma StatusNameRoundTrip(s: TransferStatus, text: string)
    ensures ParseStatus(StatusName(s)) == Some(s)
    ensures ParseStatus(text) == Some(s) ==> StatusName(s) == text
  {
  }

  /** Body of a new transfer request. */
  datatype TransferRequestCreate = TransferRequestCreate(
    source: LocationId, ref: string, brand: string, model: string, size: string,
    quantity: int, purpose: Purpose, pickupType: PickupType,
    destinationType: DestinationType, notes: Option<string>)

  predicate ValidNotes(n: Option<string>, limit: nat)
  {
    n.None? || |n.value| <= limit
  }

  predicate ValidCreate(r: TransferRequestCreate)
  {
    |r.ref| >= 1 && |r.brand| >= 1 && |r.model| >= 1 && |r.size| >= 1
    && r.quantity > 0 && ValidNotes(r.notes, 500)
  }

  /** A warehouse keeper's answer to a pending request. */
  datatype TransferAcceptance = TransferAcceptance(
    transferId: nat, accepted: bool, preparationMinutes: int, notes: Option<string>)

  predicate ValidAcceptance(a: TransferAcceptance)
  {
    a.transferId > 0 && 5 <= a.preparationMinutes <= 120 && ValidNotes(a.notes, 500)
  }

  /** A courier's claim on an accepted request. */
  datatype CourierAcceptance = CourierAcceptance(pickupMinutes: int, notes: Option<string>)

  predicate ValidCourierAcceptance(c: CourierAcceptance)
  {
    5 <= c.pickupMinutes <= 60 && ValidNotes(c.notes, 300)
  }

  /** The requester's report of what arrived. */
  datatype ReceptionConfirmation = ReceptionConfirmation(
    receivedQuantity: int, conditionOk: bool, notes: Option<string>)

  predicate ValidReception(r: ReceptionConfirmation)
  {
    r.receivedQuantity > 0 && ValidNotes(r.notes, 300)
  }

  predicate ValidIncident(incidentType: string, description: string)
  {
    1 <= |incidentType| <= 100 && 10 <= |description| <= 500
  }
}

=== FILE: transfer_service.dfy ===
/**
 * The transfer workflow.  A request moves pending -> accepted ->
 * courier_assigned -> in_transit -> delivered -> completed, with the side
 * exits cancelled, delivery_failed and reception_issues.  Every transition
 * is gated on the current status, on who is acting and on an outcome flag;
 * a rejected call changes nothing.  Handing the goods to the courier takes
 * them out of stock at the keeper's location, and a good reception puts
 * them into stock at the requester's location.
 */
module TransferService {
  import opened Common
  import opened TransferSchemas
  import opened TransferRepository
  import Ledger

  // ----- The status graph -----

  /** The transitions the service performs. */
  predicate Step(from: TransferStatus, to: TransferStatus)
  {
    match from
    case Pending => to == Accepted || to == Cancelled
    case Accepted => to == CourierAssigned || to == Cancelled
    case CourierAssigned => to == InTransit || to == DeliveryFailed
    case InTransit => to == Delivered || to == DeliveryFailed
    case Delivered => to == Completed || to == ReceptionIssues
    case _ => false
  }

  /** How far along the main line a status is; every exit ranks last. */
  function Progress(s: TransferStatus): nat
  {
    match s
    case Pending => 0
    case Accepted => 1
    case CourierAssigned => 2
    case InTransit => 3
    case Delivered => 4
    case _ => 5
  }

  predicate Terminal(s: TransferStatus)
  {
    s == Completed || s == Cancelled || s == DeliveryFailed || s == ReceptionIssues
  }

  /**
   * Every transition moves forward, so no transfer returns to an earlier
   * status; the four terminal statuses have no way out, and every other
   * status has one.
   */
  lemma StepsMoveForward(from: TransferStatus, to: TransferStatus)
    ensures Step(from, to) ==> Progress(from) < Progress(to)
    ensures Terminal(from) ==> !Step(from, to)
    ensures !Terminal(from) ==> Step(from, Cancelled) || Step(from, DeliveryFailed) || Step(from, Completed)
  {
  }

  // ----- The guards -----

  /** The assigned keeper may hand a courier-assigned transfer to the courier. */
  predicate HandOffGuard(t: Transfer, keeper: UserId)
  {
    t.keeper == Some(keeper) && t.status == CourierAssigned
  }

  /** A courier may claim an accepted transfer nobody has claimed. */
  predicate ClaimGuard(t: Transfer)
  {
    t.status == Accepted && t.courier.None?
  }

  /** The assigned courier may confirm the pickup of a courier-assigned transfer. */
  predicate PickupGuard(t: Transfer, courier: UserId)
  {
    t.courier == Some(courier) && t.status == CourierAssigned
  }

  /** The assigned courier may confirm the delivery of a transfer in transit. */
  predicate DeliveryGuard(t: Transfer, courier: UserId)
  {
    t.courier == Some(courier) && t.status == InTransit
  }

  /** The requester may confirm the reception of a delivered transfer. */
  predicate ReceptionGuard(t: Transfer, requester: UserId)
  {
    t.requester == requester && t.status == Delivered
  }

  // ----- Permissions shown with a transfer -----

  datatype Permissions = Permissions(canCancel: bool, canAccept: bool, canPickup: bool,
                                     canDeliver: bool, canConfirmReception: bool)

  const NoPermissions := Permissions(false, false, false, false, false)

  /** The action flags shown to `u` beside transfer `t`. */
  function CalculatePermissions(t: Transfer, u: User): Permissions
  {
    if u.role == Vendedor && t.requester == u.id then
      NoPermissions.(canCancel := t.status == Pending || t.status == Accepted,
                     canConfirmReception := t.status == Delivered)
    else if u.role == Bodeguero then
      NoPermissions.(canAccept := t.status == Pending,
                     canPickup := t.status == CourierAssigned && t.keeper == Some(u.id))
    else if u.role == Corredor then
      NoPermissions.(canAccept := t.status == Accepted && t.courier.None?,
                     canPickup := t.status == CourierAssigned && t.courier == Some(u.id),
                     canDeliver := t.status == InTransit && t.courier == Some(u.id))
    else NoPermissions
  }

  /**
   * The flags agree with what the operations accept: the requester's
   * cancel flag with the cancellation check, its reception flag with the
   * reception guard; a keeper's flags with the acceptance status check and
   * the hand-off guard; a courier's with the claim, pickup and delivery
   * guards.  Anyone else, including a seller looking at someone else's
   * request, gets no flag at all.
   */
  lemma PermissionsMatchGuards(transfers: map<nat, Transfer>, id: nat, u: User)
    requires id in transfers
    ensures var t := transfers[id]; var p := CalculatePermissions(t, u);
      && (u.role == Vendedor && t.requester == u.id ==>
            (p.canCancel <==> CanCancelTransfer(transfers, id, u.id))
            && (p.canConfirmReception <==> ReceptionGuard(t, u.id))
            && !p.canAccept && !p.canPickup && !p.canDeliver)
      && (u.role == Bodeguero ==>
            (p.canAccept <==> t.status == Pending) && (p.canPickup <==> HandOffGuard(t, u.id))
            && !p.canCancel && !p.canDeliver && !p.canConfirmReception)
      && (u.role == Corredor ==>
            (p.canAccept <==> ClaimGuard(t)) && (p.canPickup <==> PickupGuard(t, u.id))
            && (p.canDeliver <==> DeliveryGuard(t, u.id)) && !p.canCancel && !p.canConfirmReception)
      && (u.role == Vendedor && t.requester != u.id ==> p == NoPermissions)
      && (u.role == Administrador || u.role == Boss ==> p == NoPermissions)
  {
  }

  /**
   * Every flag shown to a user is on a transfer that user may read in its
   * role, except a keeper's acceptance of a pending transfer, which another
   * keeper may already hold; administrators and the boss, who get no flag,
   * read every stored transfer, and nobody reads an unknown one.
   */
  lemma PermissionsNeedAccess(transfers: map<nat, Transfer>, id: nat, u: User)
    ensures id !in transfers ==> !CanUserAccessTransfer(transfers, id, u.id, u.role)
    ensures id in transfers && (u.role == Administrador || u.role == Boss) ==>
              CanUserAccessTransfer(transfers, id, u.id, u.role)
    ensures id in transfers ==>
              var p := CalculatePermissions(transfers[id], u);
              (p.canCancel || p.canConfirmReception || p.canPickup || p.canDeliver
               || (p.canAccept && u.role == Corredor)) ==> CanUserAccessTransfer(transfers, id, u.id, u.role)
    ensures id in transfers && u.role == Bodeguero && CalculatePermissions(transfers[id], u).canAccept ==>
              (CanUserAccessTransfer(transfers, id, u.id, u.role)
               <==> transfers[id].keeper.None? || transfers[id].keeper == Some(u.id))
  {
  }

  // ----- Summary of a listing -----

  datatype Summary = Summary(total: nat, pending: nat, accepted: nat, inTransit: nat,
                             delivered: nat, completed: nat, cancelled: nat)

  function CountStatus(s: seq<TransferStatus>, x: TransferStatus): nat
  {
    if s == [] then 0
    else CountStatus(s[..|s| - 1], x) + (if s[|s| - 1] == x then 1 else 0)
  }

  /** Every listed transfer has exactly one of the nine statuses. */
  lemma {:induction false} CountsPartition(s: seq<TransferStatus>)
    ensures CountStatus(s, Pending) + CountStatus(s, Accepted) + CountStatus(s, CourierAssigned)
            + CountStatus(s, InTransit) + CountStatus(s, Delivered) + CountStatus(s, Completed)
            + CountStatus(s, Cancelled) + CountStatus(s, DeliveryFailed) + CountStatus(s, ReceptionIssues)
            == |s|
  {
    if s != [] {
      CountsPartition(s[..|s| - 1]);
    }
  }

  /**
   * Counts a listing by status.  Only six statuses have a counter, so the
   * counters add up to the total less the courier-assigned, failed-delivery
   * and reception-issue transfers.
   */
  method CalculateTransferSummary(statuses: seq<TransferStatus>) returns (sum: Summary)
    ensures sum.total == |statuses|
    ensures sum.pending == CountStatus(statuses, Pending) && sum.accepted == CountStatus(statuses, Accepted)
    ensures sum.inTransit == CountStatus(statuses, InTransit) && sum.delivered == CountStatus(statuses, Delivered)
    ensures sum.completed == CountStatus(statuses, Completed) && sum.cancelled == CountStatus(statuses, Cancelled)
    ensures sum.pending + sum.accepted + sum.inTransit + sum.delivered + sum.completed + sum.cancelled
            + CountStatus(statuses, CourierAssigned) + CountStatus(statuses, DeliveryFailed)
            + CountStatus(statuses, ReceptionIssues) == sum.total
  {
    sum := Summary(|statuses|, 0, 0, 0, 0, 0, 0);
    var i := 0;
    while i < |statuses|
      invariant 0 <= i <= |statuses|
      invariant sum.total == |statuses|
      invariant sum.pending == CountStatus(statuses[..i], Pending)
      invariant sum.accepted == CountStatus(statuses[..i], Accepted)
      invariant sum.inTransit == CountStatus(statuses[..i], InTransit)
      invariant sum.delivered == CountStatus(statuses[..i], Delivered)
      invariant sum.completed == CountStatus(statuses[..i], Completed)
      invariant sum.cancelled == CountStatus(statuses[..i], Cancelled)
    {
      assert statuses[..i + 1][..i] == statuses[..i];
      var s := statuses[i];
      if s == Pending {
        sum := sum.(pending := sum.pending + 1);
      } else if s == Accepted {
        sum := sum.(accepted := sum.accepted + 1);
      } else if s == InTransit {
        sum := sum.(inTransit := sum.inTransit + 1);
      } else if s == Delivered {
        sum := sum.(delivered := sum.delivered + 1);
      } else if s == Completed {
        sum := sum.(completed := sum.completed + 1);
      } else if s == Cancelled {
        sum := sum.(cancelled := sum.cancelled + 1);
      }
      i := i + 1;
    }
    assert statuses[..|statuses|] == statuses;
    CountsPartition(statuses);
  }

  // ----- Inventory effects -----

  /** Whether the hand-off can take the transfer's units from stock at `location`. */
  predicate PickupPossible(locations: map<LocationId, Ledger.Location>, rows: seq<Ledger.SizeRow>,
                           products: map<Ledger.ProductKey, Ledger.Product>,
                           t: Transfer, location: Option<LocationId>)
  {
    location.Some? && location.value in locations
    && Ledger.CanTake(rows, products, Ledger.Variant(t.ref, t.size, location.value), t.quantity, true)
  }

  /**
   * Takes the transfer's units out of stock at `location` (the keeper's
   * location): it fails, changing nothing, when the location is unknown,
   * the size row is missing, its product is inactive, or it holds fewer
   * units than the transfer; no change record is written.
   */
  method UpdateInventoryOnPickup(stock: Ledger.Ledger, t: Transfer, location: Option<LocationId>) returns (ok: bool)
    requires stock.Valid()
    modifies stock
    ensures stock.Valid()
    ensures stock.locations == old(stock.locations) && stock.products == old(stock.products) && stock.log == old(stock.log)
    ensures ok == PickupPossible(old(stock.locations), old(stock.rows), old(stock.products), t, location)
    ensures ok ==> var v := Ledger.Variant(t.ref, t.size, location.value);
      && Ledger.QuantityOf(stock.rows, v) == Ledger.QuantityOf(old(stock.rows), v) - t.quantity
      && Ledger.Units(stock.rows) == Ledger.Units(old(stock.rows)) - t.quantity
      && forall w :: w != v ==> Ledger.QuantityOf(stock.rows, w) == Ledger.QuantityOf(old(stock.rows), w)
    ensures !ok ==> stock.rows == old(stock.rows)
  {
    if location.None? || location.value !in stock.locations {
      return false;
    }
    var before;
    ok, before := stock.Decrement(Ledger.Variant(t.ref, t.size, location.value), t.quantity, true);
  }

  /** Some product, at any location, carries reference `ref`. */
  predicate HasReference(products: map<Ledger.ProductKey, Ledger.Product>, ref: string)
  {
    exists k :: k in products && k.ref == ref
  }

  /** The colour a product created on reception inherits; a missing colour becomes "Varios". */
  function InheritedColor(color: string): string
  {
    if color == "" then "Varios" else color
  }

  /**
   * Puts `qty` received units into stock at `location` (the requester's
   * location).  An unknown location fails and changes nothing.  Otherwise
   * the size row there grows by `qty`, or is created with `qty` units,
   * creating the product first (brand and model from the transfer, colour
   * and prices from some product with the same reference) when the
   * location lacks it.  When no product with that reference exists
   * anywhere nothing is added, yet the call still succeeds.  No change
   * record is written.
   */
  method UpdateInventoryOnReception(stock: Ledger.Ledger, t: Transfer, qty: int, location: Option<LocationId>)
    returns (ok: bool)
    requires stock.Valid() && qty >= 0
    modifies stock
    ensures stock.Valid()
    ensures stock.locations == old(stock.locations) && stock.log == old(stock.log)
    ensures ok <==> location.Some? && location.value in old(stock.locations)
    ensures !ok || !HasReference(old(stock.products), t.ref) ==>
              stock.rows == old(stock.rows) && stock.products == old(stock.products)
    ensures ok && HasReference(old(stock.products), t.ref) ==> var v := Ledger.Variant(t.ref, t.size, location.value);
      && Ledger.Find(stock.rows, v).Some?
      && Ledger.QuantityOf(stock.rows, v) == Ledger.QuantityOf(old(stock.rows), v) + qty
      && Ledger.Units(stock.rows) == Ledger.Units(old(stock.rows)) + qty
      && (forall w :: w != v ==> Ledger.QuantityOf(stock.rows, w) == Ledger.QuantityOf(old(stock.rows), w))
      && v.Key() in stock.products
      && (v.Key() in old(stock.products) ==> stock.products == old(stock.products))
      && (v.Key() !in old(stock.products) ==>
            stock.products[v.Key()].brand == t.brand && stock.products[v.Key()].model == t.model
            && stock.products[v.Key()].active
            && stock.products == old(stock.products)[v.Key() := stock.products[v.Key()]])
  {
    if location.None? || location.value !in stock.locations {
      return false;
    }
    var v := Ledger.Variant(t.ref, t.size, location.value);
    if v.Key() in stock.products {
      stock.Increase(v, qty);
    } else if HasReference(stock.products, t.ref) {
      var k :| k in stock.products && k.ref == t.ref;
      var src := stock.products[k];
      stock.PutProduct(v.Key(), Ledger.Product(t.brand, t.model, InheritedColor(src.color),
                                               src.unitPrice, src.boxPrice, true));
      stock.Increase(v, qty);
    }
    ok := true;
  }

  // ----- The transitions -----

  /** The row a new request is stored as: pending, requested now, destined for the requester's location. */
  function NewTransfer(requester: UserId, destination: LocationId, req: TransferRequestCreate, now: int): Transfer
  {
    Transfer(requester, req.source, destination, req.ref, req.brand, req.model, req.size, req.quantity,
             req.purpose, req.pickupType, req.destinationType, Pending, None, None,
             now, None, None, None, None, None, None,
             req.notes, None, None, None, None, None, None)
  }

  /**
   * A seller asks for units held at another location.  The source may not
   * be the seller's own location; its available stock must cover the
   * quantity; the new pending request goes to the seller's location.
   */
  method CreateTransferRequest(db: TransferDb, stock: Ledger.Ledger, requester: User,
                               req: TransferRequestCreate, now: int) returns (r: Result<nat>)
    requires db.Valid() && ValidCreate(req)
    modifies db
    ensures db.Valid() && db.incidents == old(db.incidents)
    ensures var a := CheckProductAvailability(stock, req.ref, req.size, req.source);
      && (requester.location == Some(req.source) ==> r == Err(SameLocation))
      && (requester.location != Some(req.source) && !a.available ==> r == Err(ProductUnavailable))
      && (requester.location != Some(req.source) && a.available && a.availableStock < req.quantity ==>
            r == Err(InsufficientStock))
      && (requester.location.None? && a.available && a.availableStock >= req.quantity ==> r == Err(StorageFailed))
      && (r.Ok? <==> requester.location.Some? && requester.location != Some(req.source)
                     && a.available && a.availableStock >= req.quantity)
    ensures r.Err? ==> db.transfers == old(db.transfers) && db.nextId == old(db.nextId)
    ensures r.Ok? ==>
      && r.value !in old(db.transfers)
      && db.transfers == old(db.transfers)[r.value := NewTransfer(requester.id, requester.location.value, req, now)]
      && db.transfers[r.value].status == Pending
      && db.transfers[r.value].destination == requester.location.value
      && db.transfers[r.value].source != db.transfers[r.value].destination
  {
    if requester.location == Some(req.source) {
      return Err(SameLocation);
    }
    var a := CheckProductAvailability(stock, req.ref, req.size, req.source);
    if !a.available {
      return Err(ProductUnavailable);
    }
    if a.availableStock < req.quantity {
      return Err(InsufficientStock);
    }
    if requester.location.None? {
      // The destination column is mandatory, so the insert is refused.
      return Err(StorageFailed);
    }
    var id := db.Insert(NewTransfer(requester.id, requester.location.value, req, now));
    r := Ok(id);
  }

  /** The arguments an acceptance or a rejection writes. */
  function AcceptanceFields(keeper: UserId, acc: TransferAcceptance): seq<Field>
  {
    if acc.accepted then [KeeperId(keeper), EstimatedPreparationTime(acc.preparationMinutes), Notes(acc.notes)]
    else [KeeperId(keeper), Notes(Some("Rechazada por bodeguero: " + Show(acc.notes)))]
  }

  /**
   * An acceptance passes the preparation estimate, which has no column of
   * its own; a rejection passes only arguments that have one.
   */
  lemma AcceptanceUnmapped(keeper: UserId, acc: TransferAcceptance)
    ensures acc.accepted <==> !AllMapped(AcceptanceFields(keeper, acc))
  {
    if acc.accepted {
      assert Unmapped(AcceptanceFields(keeper, acc)[1]);
    }
  }

  /**
   * Acceptance as the service is written: the checks are those of
   * `AcceptTransferRequest`, but the acceptance's status update names the
   * preparation estimate, so every acceptance that passes the checks fails
   * with a 500 and changes nothing.  A rejection passes only mapped
   * arguments and behaves as in `AcceptTransferRequest`.
   */
  method AcceptTransferRequestAsWritten(db: TransferDb, stock: Ledger.Ledger, keeper: User,
                                        acc: TransferAcceptance, now: int) returns (r: Result<Transfer>)
    requires db.Valid() && ValidAcceptance(acc)
    modifies db
    ensures db.Valid() && db.nextId == old(db.nextId) && db.incidents == old(db.incidents)
    ensures acc.accepted ==> r.Err? && db.transfers == old(db.transfers)
    ensures var id := acc.transferId;
      (acc.accepted && id in old(db.transfers) && old(db.transfers[id]).status == Pending
       && CheckProductAvailability(stock, old(db.transfers[id]).ref, old(db.transfers[id]).size,
                                   old(db.transfers[id]).source).available
       && CheckProductAvailability(stock, old(db.transfers[id]).ref, old(db.transfers[id]).size,
                                   old(db.transfers[id]).source).availableStock >= old(db.transfers[id]).quantity)
      ==> r == Err(Internal(StorageFailed))
    ensures !acc.accepted ==>
      (r.Ok? <==> acc.transferId in old(db.transfers) && old(db.transfers[acc.transferId]).status == Pending)
    ensures !acc.accepted && r.Ok? ==>
      r.value.status == Cancelled && db.transfers == old(db.transfers)[acc.transferId := r.value]
  {
    var id := acc.transferId;
    if acc.accepted && id in db.transfers && db.transfers[id].status == Pending {
      var t := db.transfers[id];
      var a := CheckProductAvailability(stock, t.ref, t.size, t.source);
      if a.available && a.availableStock >= t.quantity {
        AcceptanceUnmapped(keeper.id, acc);
        var res := db.UpdateTransferStatusAsWritten(id, Accepted, AcceptanceFields(keeper.id, acc), now);
        return Err(res.error);
      }
    }
    r := AcceptTransferRequest(db, stock, keeper, acc, now);
  }

  /**
   * A keeper accepts or rejects a pending request.  Acceptance re-checks the
   * stock at the source and fails, changing nothing, when it no longer
   * covers the quantity; it records the keeper and the acceptance time.  A
   * rejection cancels the request; the keeper id is passed along but the
   * status update only records it for an acceptance.
   */
  method AcceptTransferRequest(db: TransferDb, stock: Ledger.Ledger, keeper: User,
                               acc: TransferAcceptance, now: int) returns (r: Result<Transfer>)
    requires db.Valid() && ValidAcceptance(acc)
    modifies db
    ensures db.Valid() && db.nextId == old(db.nextId) && db.incidents == old(db.incidents)
    ensures var id := acc.transferId;
      && (id !in old(db.transfers) ==> r == Err(NotFound))
      && (id in old(db.transfers) && old(db.transfers[id]).status != Pending ==> r == Err(InvalidStatus))
      && (id in old(db.transfers) && old(db.transfers[id]).status == Pending && acc.accepted ==>
            var t := old(db.transfers[id]);
            var a := CheckProductAvailability(stock, t.ref, t.size, t.source);
            (r.Ok? <==> a.available && a.availableStock >= t.quantity))
      && (id in old(db.transfers) && old(db.transfers[id]).status == Pending && !acc.accepted ==> r.Ok?)
    ensures r.Err? ==> db.transfers == old(db.transfers)
    ensures r.Ok? ==> var id := acc.transferId;
      && id in old(db.transfers) && old(db.transfers[id]).status == Pending
      && r.value == ApplyUpdate(old(db.transfers[id]), r.value.status, AcceptanceFields(keeper.id, acc), now)
      && db.transfers == old(db.transfers)[id := r.value]
      && Step(Pending, r.value.status)
      && (acc.accepted ==> r.value.status == Accepted && r.value.keeper == Some(keeper.id)
                           && r.value.acceptedAt == Some(now)
                           && r.value.estimatedPreparationMinutes == Some(acc.preparationMinutes))
      && (!acc.accepted ==> r.value.status == Cancelled && r.value.keeper == old(db.transfers[id]).keeper)
  {
    var id := acc.transferId;
    if id !in db.transfers {
      return Err(NotFound);
    }
    var t := db.transfers[id];
    if t.status != Pending {
      return Err(InvalidStatus);
    }
    var status := Cancelled;
    if acc.accepted {
      var a := CheckProductAvailability(stock, t.ref, t.size, t.source);
      if !a.available || a.availableStock < t.quantity {
        return Err(InsufficientStock);
      }
      status := Accepted;
    }
    var kw := AcceptanceFields(keeper.id, acc);
    UpdateStamps(t, status, kw, now);
    CopyFieldsVerbatim(Stamp(t, status, kw, now), kw);
    var _ := db.UpdateTransferStatus(id, status, kw, now);
    r := Ok(db.transfers[id]);
  }

  /**
   * The assigned keeper hands a courier-assigned transfer to the courier.
   * A successful hand-off first takes the units out of stock at the
   * keeper's location and moves to in_transit only if that worked; a
   * failed one moves to delivery_failed and leaves stock alone.
   */
  method DeliverToCourier(db: TransferDb, stock: Ledger.Ledger, keeper: User, id: nat,
                          successful: bool, notes: Option<string>, now: int) returns (r: Result<TransferStatus>)
    requires db.Valid() && stock.Valid()
    modifies db, stock
    ensures db.Valid() && db.nextId == old(db.nextId) && db.incidents == old(db.incidents)
    ensures stock.Valid()
    ensures stock.locations == old(stock.locations) && stock.products == old(stock.products) && stock.log == old(stock.log)
    ensures id !in old(db.transfers) ==> r == Err(NotFound)
    ensures id in old(db.transfers) && old(db.transfers[id]).keeper != Some(keeper.id) ==> r == Err(Forbidden)
    ensures (id in old(db.transfers) && old(db.transfers[id]).keeper == Some(keeper.id)
             && old(db.transfers[id]).status != CourierAssigned) ==> r == Err(InvalidStatus)
    ensures r.Err? ==> db.transfers == old(db.transfers) && stock.rows == old(stock.rows)
    ensures id in old(db.transfers) && HandOffGuard(old(db.transfers[id]), keeper.id) ==>
      var t := old(db.transfers[id]);
      var possible := PickupPossible(old(stock.locations), old(stock.rows), old(stock.products), t, keeper.location);
      && (successful && !possible ==> r == Err(InventoryUpdateFailed))
      && (successful && possible ==>
            && r == Ok(InTransit)
            && db.transfers == old(db.transfers)[id := ApplyUpdate(t, InTransit, [PickupNotes(notes)], now)]
            && var v := Ledger.Variant(t.ref, t.size, keeper.location.value);
            && Ledger.QuantityOf(stock.rows, v) == Ledger.QuantityOf(old(stock.rows), v) - t.quantity
            && forall w :: w != v ==> Ledger.QuantityOf(stock.rows, w) == Ledger.QuantityOf(old(stock.rows), w))
      && (!successful ==>
            && r == Ok(DeliveryFailed)
            && db.transfers == old(db.transfers)[id := ApplyUpdate(t, DeliveryFailed,
                                 [PickupNotes(Some("Entrega fallida: " + Show(notes)))], now)]
            && stock.rows == old(stock.rows))
    ensures r.Ok? ==> id in db.transfers && db.transfers[id].status == r.value && Step(CourierAssigned, r.value)
  {
    if id !in db.transfers {
      return Err(NotFound);
    }
    var t := db.transfers[id];
    if t.keeper != Some(keeper.id) {
      return Err(Forbidden);
    }
    if t.status != CourierAssigned {
      return Err(InvalidStatus);
    }
    if successful {
      var ok := UpdateInventoryOnPickup(stock, t, keeper.location);
      if !ok {
        return Err(InventoryUpdateFailed);
      }
      UpdateStamps(t, InTransit, [PickupNotes(notes)], now);
      var _ := db.UpdateTransferStatus(id, InTransit, [PickupNotes(notes)], now);
      r := Ok(InTransit);
    } else {
      var kw := [PickupNotes(Some("Entrega fallida: " + Show(notes)))];
      UpdateStamps(t, DeliveryFailed, kw, now);
      var _ := db.UpdateTransferStatus(id, DeliveryFailed, kw, now);
      r := Ok(DeliveryFailed);
    }
  }

  /**
   * A courier claims an accepted transfer.  The check and the claim are one
   * atomic step: if the transfer is not accepted or already has a courier
   * the call is a conflict and nothing changes; otherwise the courier and
   * the claim time are recorded.
   */
  method AcceptCourierRequest(db: TransferDb, courier: User, id: nat, acc: CourierAcceptance, now: int)
    returns (r: Result<Transfer>)
    requires db.Valid() && ValidCourierAcceptance(acc)
    modifies db
    ensures db.Valid() && db.nextId == old(db.nextId) && db.incidents == old(db.incidents)
    ensures id !in old(db.transfers) ==> r == Err(NotFound)
    ensures id in old(db.transfers) && !ClaimGuard(old(db.transfers[id])) ==> r == Err(Conflict)
    ensures r.Err? ==> db.transfers == old(db.transfers)
    ensures r.Ok? <==> id in old(db.transfers) && ClaimGuard(old(db.transfers[id]))
    ensures r.Ok? ==>
      && r.value == ApplyUpdate(old(db.transfers[id]), CourierAssigned,
                                [CourierId(courier.id), EstimatedPickupTime(acc.pickupMinutes), CourierNotes(acc.notes)], now)
      && db.transfers == old(db.transfers)[id := r.value]
      && r.value.status == CourierAssigned && r.value.courier == Some(courier.id)
      && r.value.courierAcceptedAt == Some(now) && r.value.keeper == old(db.transfers[id]).keeper
  {
    if id !in db.transfers {
      return Err(NotFound);
    }
    var t := db.transfers[id];
    if t.status != Accepted || t.courier.Some? {
      return Err(Conflict);
    }
    var kw := [CourierId(courier.id), EstimatedPickupTime(acc.pickupMinutes), CourierNotes(acc.notes)];
    UpdateStamps(t, CourierAssigned, kw, now);
    var _ := db.UpdateTransferStatus(id, CourierAssigned, kw, now);
    r := Ok(db.transfers[id]);
  }

  /**
   * The assigned courier confirms the pickup of a courier-assigned
   * transfer, which moves it to in_transit and stamps the pickup time.
   * Stock is not touched.
   */
  method ConfirmPickup(db: TransferDb, courier: User, id: nat, notes: Option<string>, now: int)
    returns (r: Result<TransferStatus>)
    requires db.Valid()
    modifies db
    ensures db.Valid() && db.nextId == old(db.nextId) && db.incidents == old(db.incidents)
    ensures id !in old(db.transfers) ==> r == Err(NotFound)
    ensures id in old(db.transfers) && old(db.transfers[id]).courier != Some(courier.id) ==> r == Err(Forbidden)
    ensures (id in old(db.transfers) && old(db.transfers[id]).courier == Some(courier.id)
             && old(db.transfers[id]).status != CourierAssigned) ==> r == Err(InvalidStatus)
    ensures r.Err? ==> db.transfers == old(db.transfers)
    ensures r.Ok? <==> id in old(db.transfers) && PickupGuard(old(db.transfers[id]), courier.id)
    ensures r.Ok? ==>
      && r == Ok(InTransit)
      && db.transfers == old(db.transfers)[id := ApplyUpdate(old(db.transfers[id]), InTransit, [PickupNotes(notes)], now)]
      && db.transfers[id].pickedUpAt == Some(now)
  {
    if id !in db.transfers {
      return Err(NotFound);
    }
    var t := db.transfers[id];
    if t.courier != Some(courier.id) {
      return Err(Forbidden);
    }
    if t.status != CourierAssigned {
      return Err(InvalidStatus);
    }
    UpdateStamps(t, InTransit, [PickupNotes(notes)], now);
    var _ := db.UpdateTransferStatus(id, InTransit, [PickupNotes(notes)], now);
    r := Ok(InTransit);
  }

  /**
   * The assigned courier reports the outcome of a delivery in transit:
   * delivered (stamping the delivery time) or delivery_failed.
   */
  method ConfirmDelivery(db: TransferDb, courier: User, id: nat, successful: bool, notes: Option<string>, now: int)
    returns (r: Result<TransferStatus>)
    requires db.Valid()
    modifies db
    ensures db.Valid() && db.nextId == old(db.nextId) && db.incidents == old(db.incidents)
    ensures id !in old(db.transfers) ==> r == Err(NotFound)
    ensures id in old(db.transfers) && old(db.transfers[id]).courier != Some(courier.id) ==> r == Err(Forbidden)
    ensures (id in old(db.transfers) && old(db.transfers[id]).courier == Some(courier.id)
             && old(db.transfers[id]).status != InTransit) ==> r == Err(InvalidStatus)
    ensures r.Err? ==> db.transfers == old(db.transfers)
    ensures r.Ok? <==> id in old(db.transfers) && DeliveryGuard(old(db.transfers[id]), courier.id)
    ensures r.Ok? ==> var t := old(db.transfers[id]);
      && (successful ==>
            && r == Ok(Delivered)
            && db.transfers == old(db.transfers)[id := ApplyUpdate(t, Delivered, [CourierNotes(notes)], now)]
            && db.transfers[id].deliveredAt == Some(now))
      && (!successful ==>
            && r == Ok(DeliveryFailed)
            && db.transfers == old(db.transfers)[id := ApplyUpdate(t, DeliveryFailed,
                                 [CourierNotes(Some("Entrega fallida: " + Show(notes)))], now)])
  {
    if id !in db.transfers {
      return Err(NotFound);
    }
    var t := db.transfers[id];
    if t.courier != Some(courier.id) {
      return Err(Forbidden);
    }
    if t.status != InTransit {
      return Err(InvalidStatus);
    }
    if successful {
      UpdateStamps(t, Delivered, [CourierNotes(notes)], now);
      var _ := db.UpdateTransferStatus(id, Delivered, [CourierNotes(notes)], now);
      r := Ok(Delivered);
    } else {
      var kw := [CourierNotes(Some("Entrega fallida: " + Show(notes)))];
      var _ := db.UpdateTransferStatus(id, DeliveryFailed, kw, now);
      r := Ok(DeliveryFailed);
    }
  }

  /**
   * The requester confirms what arrived.  With the goods in good condition
   * and a positive quantity, the received units go into stock at the
   * requester's location and the transfer completes; if the stock update
   * fails nothing changes.  Otherwise the transfer ends with reception
   * issues and stock is left alone.
   */
  method ConfirmReception(db: TransferDb, stock: Ledger.Ledger, requester: User, id: nat,
                          conf: ReceptionConfirmation, now: int) returns (r: Result<TransferStatus>)
    requires db.Valid() && stock.Valid() && ValidReception(conf)
    modifies db, stock
    ensures db.Valid() && db.nextId == old(db.nextId) && db.incidents == old(db.incidents)
    ensures stock.Valid() && stock.locations == old(stock.locations) && stock.log == old(stock.log)
    ensures id !in old(db.transfers) ==> r == Err(NotFound)
    ensures id in old(db.transfers) && old(db.transfers[id]).requester != requester.id ==> r == Err(Forbidden)
    ensures (id in old(db.transfers) && old(db.transfers[id]).requester == requester.id
             && old(db.transfers[id]).status != Delivered) ==> r == Err(InvalidStatus)
    ensures r.Err? ==> db.transfers == old(db.transfers) && stock.rows == old(stock.rows)
                       && stock.products == old(stock.products)
    ensures id in old(db.transfers) && ReceptionGuard(old(db.transfers[id]), requester.id) ==>
      var t := old(db.transfers[id]);
      var kept := requester.location.Some? && requester.location.value in old(stock.locations);
      && (conf.conditionOk && !kept ==> r == Err(InventoryUpdateFailed))
      && (conf.conditionOk && kept ==>
            && r == Ok(Completed)
            && db.transfers == old(db.transfers)[id := ApplyUpdate(t, Completed,
                                 [ReceivedQuantity(conf.receivedQuantity), ReceptionNotes(conf.notes)], now)]
            && db.transfers[id].confirmedReceptionAt == Some(now)
            && db.transfers[id].receivedQuantity == Some(conf.receivedQuantity)
            && (HasReference(old(stock.products), t.ref) ==>
                  var v := Ledger.Variant(t.ref, t.size, requester.location.value);
                  && Ledger.QuantityOf(stock.rows, v) == Ledger.QuantityOf(old(stock.rows), v) + conf.receivedQuantity
                  && Ledger.Units(stock.rows) == Ledger.Units(old(stock.rows)) + conf.receivedQuantity
                  && (forall w :: w != v ==> Ledger.QuantityOf(stock.rows, w) == Ledger.QuantityOf(old(stock.rows), w))
                  && (v.Key() in old(stock.products) ==> stock.products == old(stock.products))
                  && (v.Key() !in old(stock.products) ==>
                        stock.products[v.Key()].brand == t.brand && stock.products[v.Key()].model == t.model
                        && stock.products[v.Key()].active
                        && stock.products == old(stock.products)[v.Key() := stock.products[v.Key()]]))
            && (!HasReference(old(stock.products), t.ref) ==>
                  stock.rows == old(stock.rows) && stock.products == old(stock.products)))
      && (!conf.conditionOk ==>
            && r == Ok(ReceptionIssues)
            && db.transfers == old(db.transfers)[id := ApplyUpdate(t, ReceptionIssues,
                 [ReceivedQuantity(conf.receivedQuantity),
                  ReceptionNotes(Some("Problemas en recepción: " + Show(conf.notes)))], now)]
            && stock.rows == old(stock.rows) && stock.products == old(stock.products))
    ensures r.Ok? ==> Step(Delivered, r.value) && db.transfers[id].status == r.value
  {
    if id !in db.transfers {
      return Err(NotFound);
    }
    var t := db.transfers[id];
    if t.requester != requester.id {
      return Err(Forbidden);
    }
    if t.status != Delivered {
      return Err(InvalidStatus);
    }
    if conf.conditionOk && conf.receivedQuantity > 0 {
      var ok := UpdateInventoryOnReception(stock, t, conf.receivedQuantity, requester.location);
      if !ok {
        return Err(InventoryUpdateFailed);
      }
      var kw := [ReceivedQuantity(conf.receivedQuantity), ReceptionNotes(conf.notes)];
      UpdateStamps(t, Completed, kw, now);
      CopyFieldsVerbatim(Stamp(t, Completed, kw, now), kw);
      var _ := db.UpdateTransferStatus(id, Completed, kw, now);
      r := Ok(Completed);
    } else {
      var kw := [ReceivedQuantity(conf.receivedQuantity),
                 ReceptionNotes(Some("Problemas en recepción: " + Show(conf.notes)))];
      UpdateStamps(t, ReceptionIssues, kw, now);
      var _ := db.UpdateTransferStatus(id, ReceptionIssues, kw, now);
      r := Ok(ReceptionIssues);
    }
  }

  /** The arguments a cancellation writes: the reason and the time. */
  function CancelFields(reason: string, now: int): seq<Field>
  {
    [Notes(Some("Cancelada: " + reason)), CancelledAt(now)]
  }

  /** A cancellation passes its time, which has no column of its own. */
  lemma CancellationUnmapped(reason: string, now: int)
    ensures !AllMapped(CancelFields(reason, now))
  {
    assert Unmapped(CancelFields(reason, now)[1]);
  }

  /**
   * Cancellation as the service is written: a call the requester may make
   * passes the cancellation time to the status update, which fails with a
   * 500; no call changes anything.
   */
  method CancelTransferRequestAsWritten(db: TransferDb, requester: User, id: nat, reason: string, now: int)
    returns (r: Result<TransferStatus>)
    requires db.Valid()
    modifies db
    ensures db.Valid() && db.nextId == old(db.nextId) && db.incidents == old(db.incidents)
    ensures db.transfers == old(db.transfers)
    ensures !CanCancelTransfer(old(db.transfers), id, requester.id) ==> r == Err(BadRequest)
    ensures CanCancelTransfer(old(db.transfers), id, requester.id) ==> r == Err(Internal(StorageFailed))
  {
    if !CanCancelTransfer(db.transfers, id, requester.id) {
      return Err(BadRequest);
    }
    CancellationUnmapped(reason, now);
    var res := db.UpdateTransferStatusAsWritten(id, Cancelled, CancelFields(reason, now), now);
    r := Err(res.error);
  }

  /**
   * The requester cancels a request that is still pending or accepted,
   * recording the reason and the cancellation time; any other call is
   * refused and changes nothing.
   */
  method CancelTransferRequest(db: TransferDb, requester: User, id: nat, reason: string, now: int)
    returns (r: Result<TransferStatus>)
    requires db.Valid()
    modifies db
    ensures db.Valid() && db.nextId == old(db.nextId) && db.incidents == old(db.incidents)
    ensures r.Ok? <==> CanCancelTransfer(old(db.transfers), id, requester.id)
    ensures r.Err? ==> r == Err(BadRequest) && db.transfers == old(db.transfers)
    ensures r.Ok? ==>
      && r == Ok(Cancelled)
      && Step(old(db.transfers[id]).status, Cancelled)
      && db.transfers == old(db.transfers)[id := ApplyUpdate(old(db.transfers[id]), Cancelled,
                                                             CancelFields(reason, now), now)]
      && db.transfers[id].notes == Some("Cancelada: " + reason)
      && db.transfers[id].cancelledAt == Some(now)
  {
    if !CanCancelTransfer(db.transfers, id, requester.id) {
      return Err(BadRequest);
    }
    var t := db.transfers[id];
    var kw := CancelFields(reason, now);
    CopyFieldsVerbatim(Stamp(t, Cancelled, kw, now), kw);
    var _ := db.UpdateTransferStatus(id, Cancelled, kw, now);
    r := Ok(Cancelled);
  }

  /** The assigned courier reports an incident on a transfer, whatever its status. */
  method ReportIncident(db: TransferDb, courier: User, id: nat, incidentType: string,
                        description: string, now: int) returns (r: Result<nat>)
    requires db.Valid() && ValidIncident(incidentType, description)
    modifies db
    ensures db.Valid() && db.transfers == old(db.transfers) && db.nextId == old(db.nextId)
    ensures id !in old(db.transfers) ==> r == Err(NotFound)
    ensures id in old(db.transfers) && old(db.transfers[id]).courier != Some(courier.id) ==> r == Err(Forbidden)
    ensures r.Err? ==> db.incidents == old(db.incidents)
    ensures r.Ok? <==> id in old(db.transfers) && old(db.transfers[id]).courier == Some(courier.id)
    ensures r.Ok? ==>
      && r.value == |old(db.incidents)|
      && db.incidents == old(db.incidents) + [Incident(id, courier.id, incidentType, description, now)]
  {
    if id !in db.transfers {
      return Err(NotFound);
    }
    if db.transfers[id].courier != Some(courier.id) {
      return Err(Forbidden);
    }
    var n := db.AddIncident(Incident(id, courier.id, incidentType, description, now));
    r := Ok(n);
  }
}

=== FILE: warehouse_repository.dfy ===
/**
 * The warehouse keeper's stock queries and the move of units between two
 * locations.
 */
module WarehouseRepository {
  import opened Common
  import opened Ledger
  import Ordering

  // ----- Moving units between locations -----

  datatype MoveReceipt = MoveReceipt(movementId: nat, quantityMoved: int)

  /** The product a move creates at its destination: the source's, made active. */
  function Inherit(p: Product): Product
  {
    p.(active := true)
  }

  /**
   * Moves `qty` units of one size of `ref` from `src` to `dst`.  The source
   * row must hold at least `qty` units, or nothing changes.  The source row
   * loses exactly `qty` units and the destination row gains them (it is
   * created, and the destination product with it, when missing), so the
   * total stock is conserved.  The change record logs the source's quantity
   * before and after.  A move from a location to itself is refused.
   */
  method UpdateProductLocation(stock: Ledger, ref: string, size: string, qty: int,
                               src: LocationId, dst: LocationId, user: UserId, movementType: string)
    returns (r: Result<MoveReceipt>)
    requires stock.Valid() && qty > 0 && src in stock.locations && dst in stock.locations
    modifies stock
    ensures stock.Valid() && stock.locations == old(stock.locations)
    ensures src == dst ==> r == Err(SameLocation)
    ensures src != dst && !CanTake(old(stock.rows), old(stock.products), Variant(ref, size, src), qty, false) ==>
              r == Err(InsufficientStock)
    ensures r.Ok? <==> src != dst && CanTake(old(stock.rows), old(stock.products), Variant(ref, size, src), qty, false)
    ensures r.Err? ==> stock.rows == old(stock.rows) && stock.products == old(stock.products) && stock.log == old(stock.log)
    ensures r.Ok? ==> var vs := Variant(ref, size, src); var vd := Variant(ref, size, dst);
      && QuantityOf(stock.rows, vs) == QuantityOf(old(stock.rows), vs) - qty
      && QuantityOf(stock.rows, vd) == QuantityOf(old(stock.rows), vd) + qty
      && (forall w :: w != vs && w != vd ==> QuantityOf(stock.rows, w) == QuantityOf(old(stock.rows), w))
      && Units(stock.rows) == Units(old(stock.rows))
      && r.value == MoveReceipt(|old(stock.log)|, qty)
      && stock.log == old(stock.log) + [ChangeRecord(vs, Movement(movementType), QuantityOf(old(stock.rows), vs),
                                                     QuantityOf(stock.rows, vs), Some(user), None)]
      && stock.log[|old(stock.log)|].before == stock.log[|old(stock.log)|].after + qty
      && (vd.Key() in old(stock.products) ==> stock.products == old(stock.products))
      && (vd.Key() !in old(stock.products) ==>
            stock.products == old(stock.products)[vd.Key() := Inherit(old(stock.products)[vs.Key()])])
  {
    if src == dst {
      return Err(SameLocation);
    }
    var vs := Variant(ref, size, src);
    var vd := Variant(ref, size, dst);
    if !CanTake(stock.rows, stock.products, vs, qty, false) {
      return Err(InsufficientStock);
    }
    assert stock.rows[Find(stock.rows, vs).value].variant == vs;
    var source := stock.products[vs.Key()];
    var ok, before := stock.Decrement(vs, qty, false);
    var after := QuantityOf(stock.rows, vs);
    if vd.Key() !in stock.products {
      stock.PutProduct(vd.Key(), Inherit(source));
    }
    stock.Increase(vd, qty);
    var id := stock.Record(ChangeRecord(vs, Movement(movementType), before, after, Some(user), None));
    r := Ok(MoveReceipt(id, qty));
  }

  /**
   * A move as the code performs it when nothing stops `src == dst`: the
   * rows after the source decrement and the destination increment, and the
   * before and after quantities the change record logs, read from the
   * source row once both updates are done.
   */
  function MoveAsWritten(rows: seq<SizeRow>, vs: Variant, vd: Variant, qty: int): (seq<SizeRow>, int, int)
  {
    var afterSource := Adjust(rows, vs, -qty);
    var afterDest := if Find(afterSource, vd).Some? then Adjust(afterSource, vd, qty)
                     else afterSource + [SizeRow(vd, qty)];
    (afterDest, QuantityOf(afterDest, vs) + qty, QuantityOf(afterDest, vs))
  }

  /**
   * Between two different locations the logged quantities are the source's
   * real quantities before and after.  From a location to itself the stock
   * is left as it was, yet the record logs a decrement of `qty` from a
   * quantity the row never held.
   */
  lemma MoveLogAsWritten(rows: seq<SizeRow>, vs: Variant, vd: Variant, qty: int)
    requires Distinct(rows) && Find(rows, vs).Some?
    ensures var m := MoveAsWritten(rows, vs, vd, qty);
      && (vs != vd ==> m.1 == QuantityOf(rows, vs) && m.2 == QuantityOf(rows, vs) - qty)
      && (vs == vd ==> QuantityOf(m.0, vs) == QuantityOf(rows, vs) && m.1 == QuantityOf(rows, vs) + qty)
  {
    var a := Adjust(rows, vs, -qty);
    AdjustEffect(rows, vs, -qty);
    var m := MoveAsWritten(rows, vs, vd, qty);
    if Find(a, vd).Some? {
      AdjustEffect(a, vd, qty);
      assert m.0 == Adjust(a, vd, qty);
    } else {
      AppendEffect(a, vd, qty);
      assert m.0 == a + [SizeRow(vd, qty)];
    }
    assert QuantityOf(m.0, vs) == QuantityOf(a, vs) + (if vs == vd then qty else 0);
  }

  /** A row holding 5 units moved onto its own location: stock stays 5, the log says 7 became 5. */
  lemma SameLocationMoveExample()
    ensures var v := Variant("REF-1", "40", 1);
      var m := MoveAsWritten([SizeRow(v, 5)], v, v, 2);
      QuantityOf(m.0, v) == 5 && m.1 == 7 && m.2 == 5
  {
    var v := Variant("REF-1", "40", 1);
    MoveLogAsWritten([SizeRow(v, 5)], v, v, 2);
  }

  // ----- Inventory grouped by location -----

  /**
   * The optional filters of the grouped inventory.  An empty id list, an
   * empty text and a zero stock bound filter nothing, as an empty or zero
   * value is falsy to the code.  The reference and brand filters match
   * case-insensitively anywhere in the text.
   */
  datatype InventoryFilter = InventoryFilter(locationIds: seq<LocationId>, kind: Option<LocationKind>,
                                             ref: Option<string>, brand: Option<string>,
                                             minStock: Option<int>, maxStock: Option<int>)

  /** Whether a stock row is listed: an active location and product, units on hand, and every filter met. */
  predicate Listed(locations: map<LocationId, Location>, products: map<ProductKey, Product>,
                   f: InventoryFilter, r: SizeRow)
  {
    var l := r.variant.location;
    && l in locations && locations[l].active
    && r.variant.Key() in products && products[r.variant.Key()].active
    && r.quantity > 0
    && (f.locationIds == [] || l in f.locationIds)
    && (f.kind.None? || locations[l].kind == f.kind.value)
    && (f.ref.None? || ILike(r.variant.ref, f.ref.value))
    && (f.brand.None? || ILike(products[r.variant.Key()].brand, f.brand.value))
    && (f.minStock.None? || f.minStock.value == 0 || r.quantity >= f.minStock.value)
    && (f.maxStock.None? || f.maxStock.value == 0 || r.quantity <= f.maxStock.value)
  }

  /** The listed rows at location `l`, in table order. */
  function ListedAt(locations: map<LocationId, Location>, products: map<ProductKey, Product>,
                    f: InventoryFilter, rows: seq<SizeRow>, l: LocationId): seq<SizeRow>
  {
    if rows == [] then []
    else ListedAt(locations, products, f, rows[..|rows| - 1], l)
         + (if Listed(locations, products, f, rows[|rows| - 1]) && rows[|rows| - 1].variant.location == l
            then [rows[|rows| - 1]] else [])
  }

  /** The distinct reference codes among some rows. */
  function Refs(s: seq<SizeRow>): set<string>
  {
    set i | 0 <= i < |s| :: s[i].variant.ref
  }

  lemma RefsAppend(s: seq<SizeRow>, r: SizeRow)
    ensures Refs(s + [r]) == Refs(s) + {r.variant.ref}
  {
    var t := s + [r];
    forall x | x in Refs(t) ensures x in Refs(s) + {r.variant.ref} {
      var i :| 0 <= i < |t| && t[i].variant.ref == x;
      if i < |s| {
        assert s[i] == t[i];
      }
    }
    forall x | x in Refs(s) ensures x in Refs(t) {
      var i :| 0 <= i < |s| && s[i].variant.ref == x;
      assert t[i] == s[i];
    }
    assert t[|s|] == r;
  }

  lemma {:induction false} UnitsPositive(s: seq<SizeRow>)
    requires forall i :: 0 <= i < |s| ==> s[i].quantity > 0
    ensures Units(s) >= |s|
  {
    if s != [] {
      UnitsPositive(s[..|s| - 1]);
    }
  }

  /**
   * A location's listed rows are exactly the listed rows of the table at
   * that location, each with units on hand, so a listed location's unit
   * total is at least its number of rows.
   */
  lemma {:induction false} ListedAtMeaning(locations: map<LocationId, Location>, products: map<ProductKey, Product>,
                                           f: InventoryFilter, rows: seq<SizeRow>, l: LocationId)
    ensures var s := ListedAt(locations, products, f, rows, l);
      && (forall k :: 0 <= k < |s| ==>
            s[k] in rows && Listed(locations, products, f, s[k]) && s[k].variant.location == l && s[k].quantity > 0)
      && (forall i :: 0 <= i < |rows| && Listed(locations, products, f, rows[i]) && rows[i].variant.location == l
                      ==> rows[i] in s)
      && Units(s) >= |s|
  {
    var s := ListedAt(locations, products, f, rows, l);
    if rows != [] {
      var init := rows[..|rows| - 1];
      ListedAtMeaning(locations, products, f, init, l);
      var p := ListedAt(locations, products, f, init, l);
      forall k | 0 <= k < |s|
        ensures s[k] in rows
      {
        if k < |p| {
          assert s[k] == p[k];
          assert p[k] in init;
        }
      }
      forall i | 0 <= i < |rows| && Listed(locations, products, f, rows[i]) && rows[i].variant.location == l
        ensures rows[i] in s
      {
        if i < |rows| - 1 {
          assert rows[i] == init[i];
        }
      }
    }
    UnitsPositive(s);
  }

  datatype LocationInventory = LocationInventory(totalProducts: nat, totalUnits: int, entries: seq<SizeRow>)

  datatype Group = Group(entries: seq<SizeRow>, units: int, refs: set<string>)

  /** The listed rows gained by appending one row to the table. */
  lemma ListedAtSnoc(locations: map<LocationId, Location>, products: map<ProductKey, Product>,
                     f: InventoryFilter, rows: seq<SizeRow>, r: SizeRow, l: LocationId)
    ensures ListedAt(locations, products, f, rows + [r], l)
            == ListedAt(locations, products, f, rows, l)
               + (if Listed(locations, products, f, r) && r.variant.location == l then [r] else [])
  {
    var t := rows + [r];
    assert t[..|t| - 1] == rows;
  }

  /** `acc` holds the group of location `l`: its listed rows, their unit total and their references. */
  ghost predicate GroupedAt(locations: map<LocationId, Location>, products: map<ProductKey, Product>,
                            f: InventoryFilter, rows: seq<SizeRow>, acc: map<LocationId, Group>, l: LocationId)
  {
    && (l in acc <==> ListedAt(locations, products, f, rows, l) != [])
    && (l in acc ==>
          acc[l].entries == ListedAt(locations, products, f, rows, l)
          && acc[l].units == Units(acc[l].entries) && acc[l].refs == Refs(acc[l].entries))
  }

  ghost predicate Grouped(locations: map<LocationId, Location>, products: map<ProductKey, Product>,
                          f: InventoryFilter, rows: seq<SizeRow>, acc: map<LocationId, Group>)
  {
    forall l :: GroupedAt(locations, products, f, rows, acc, l)
  }

  /** Files row `r` under its location. */
  function AddRow(acc: map<LocationId, Group>, r: SizeRow): map<LocationId, Group>
  {
    var l := r.variant.location;
    var g := if l in acc then acc[l] else Group([], 0, {});
    acc[l := Group(g.entries + [r], g.units + r.quantity, g.refs + {r.variant.ref})]
  }

  /** Appending a row filed elsewhere, or not listed, leaves the group of `l` as it was. */
  lemma GroupedAtOther(locations: map<LocationId, Location>, products: map<ProductKey, Product>,
                       f: InventoryFilter, rows: seq<SizeRow>, acc: map<LocationId, Group>, r: SizeRow, l: LocationId)
    requires GroupedAt(locations, products, f, rows, acc, l)
    requires !(Listed(locations, products, f, r) && r.variant.location == l)
    ensures GroupedAt(locations, products, f, rows + [r],
                      if Listed(locations, products, f, r) then AddRow(acc, r) else acc, l)
  {
    ListedAtSnoc(locations, products, f, rows, r, l);
    var acc' := if Listed(locations, products, f, r) then AddRow(acc, r) else acc;
    assert (l in acc') == (l in acc);
    assert l in acc ==> acc'[l] == acc[l];
  }

  /** Appending a listed row filed under `l` extends the group of `l` by that row. */
  lemma GroupedAtSame(locations: map<LocationId, Location>, products: map<ProductKey, Product>,
                      f: InventoryFilter, rows: seq<SizeRow>, acc: map<LocationId, Group>, r: SizeRow, l: LocationId)
    requires GroupedAt(locations, products, f, rows, acc, l)
    requires Listed(locations, products, f, r) && r.variant.location == l
    ensures GroupedAt(locations, products, f, rows + [r], AddRow(acc, r), l)
  {
    ListedAtSnoc(locations, products, f, rows, r, l);
    var listed := ListedAt(locations, products, f, rows, l);
    var g := if l in acc then acc[l] else Group([], 0, {});
    assert g.entries == listed && g.units == Units(listed) && g.refs == Refs(listed);
    UnitsAppend(g.entries, r);
    RefsAppend(g.entries, r);
    assert AddRow(acc, r)[l] == Group(g.entries + [r], g.units + r.quantity, g.refs + {r.variant.ref});
  }

  lemma GroupedStep(locations: map<LocationId, Location>, products: map<ProductKey, Product>,
                    f: InventoryFilter, rows: seq<SizeRow>, acc: map<LocationId, Group>, r: SizeRow)
    requires Grouped(locations, products, f, rows, acc)
    ensures Grouped(locations, products, f, rows + [r],
                    if Listed(locations, products, f, r) then AddRow(acc, r) else acc)
  {
    var acc' := if Listed(locations, products, f, r) then AddRow(acc, r) else acc;
    forall l
      ensures GroupedAt(locations, products, f, rows + [r], acc', l)
    {
      assert GroupedAt(locations, products, f, rows, acc, l);
      if Listed(locations, products, f, r) && r.variant.location == l {
        GroupedAtSame(locations, products, f, rows, acc, r, l);
      } else {
        GroupedAtOther(locations, products, f, rows, acc, r, l);
      }
    }
  }

  /**
   * Groups the listed stock rows by location: a location appears exactly
   * when it has a listed row; its entries are those rows, its unit total
   * their sum and its product count the number of distinct references
   * among them.
   */
  method InventoryByLocations(stock: Ledger, f: InventoryFilter) returns (inv: map<LocationId, LocationInventory>)
    ensures forall l :: l in inv <==> ListedAt(stock.locations, stock.products, f, stock.rows, l) != []
    ensures forall l :: l in inv ==>
      && inv[l].entries == ListedAt(stock.locations, stock.products, f, stock.rows, l)
      && inv[l].totalUnits == Units(inv[l].entries)
      && inv[l].totalProducts == |Refs(inv[l].entries)|
  {
    var locations, products, rows := stock.locations, stock.products, stock.rows;
    var acc: map<LocationId, Group> := map[];
    var i := 0;
    while i < |rows|
      invariant 0 <= i <= |rows|
      invariant Grouped(locations, products, f, rows[..i], acc)
    {
      var r := rows[i];
      GroupedStep(locations, products, f, rows[..i], acc, r);
      assert rows[..i + 1] == rows[..i] + [r];
      if Listed(locations, products, f, r) {
        acc := AddRow(acc, r);
      }
      i := i + 1;
    }
    assert rows[..|rows|] == rows;
    inv := map l | l in acc :: LocationInventory(|acc[l].refs|, acc[l].units, acc[l].entries);
    forall l
      ensures (l in inv <==> ListedAt(locations, products, f, rows, l) != [])
      ensures l in inv ==> inv[l].entries == ListedAt(locations, products, f, rows, l)
                           && inv[l].totalUnits == Units(inv[l].entries)
                           && inv[l].totalProducts == |Refs(inv[l].entries)|
    {
      assert GroupedAt(locations, products, f, rows, acc, l);
    }
  }

  // ----- Movement history -----

  /**
   * Whose movements to list, of which types, at which locations and of
   * which reference (matched case-insensitively anywhere in the code); an
   * empty list or text filters nothing.
   */
  datatype HistoryFilter = HistoryFilter(user: UserId, types: seq<string>, locationIds: seq<LocationId>,
                                         ref: Option<string>)

  datatype MovementEntry = MovementEntry(id: nat, kind: ChangeKind, variant: Variant,
                                         change: int, before: int, after: int)

  /** Whether a change record is listed: made by the user, on a known product and location, and filtered in. */
  predicate InHistory(locations: map<LocationId, Location>, products: map<ProductKey, Product>,
                      f: HistoryFilter, c: ChangeRecord)
  {
    && c.user == Some(f.user)
    && c.variant.Key() in products && c.variant.location in locations
    && (f.types == [] || KindName(c.kind) in f.types)
    && (f.locationIds == [] || c.variant.location in f.locationIds)
    && (f.ref.None? || ILike(c.variant.ref, f.ref.value))
  }

  /** How record `id` is listed: its quantity change is after minus before. */
  function Describe(id: nat, c: ChangeRecord): MovementEntry
  {
    MovementEntry(id, c.kind, c.variant, c.after - c.before, c.before, c.after)
  }

  /** The listed records among the first `n` of the log, newest first. */
  function History(locations: map<LocationId, Location>, products: map<ProductKey, Product>,
                   f: HistoryFilter, log: seq<ChangeRecord>, n: nat): seq<MovementEntry>
    requires n <= |log|
  {
    if n == 0 then []
    else (if InHistory(locations, products, f, log[n - 1]) then [Describe(n - 1, log[n - 1])] else [])
         + History(locations, products, f, log, n - 1)
  }

  /** Each entry of the history is a listed record, described as the record says. */
  lemma {:induction false} HistoryEntries(locations: map<LocationId, Location>, products: map<ProductKey, Product>,
                                        f: HistoryFilter, log: seq<ChangeRecord>, n: nat)
    requires n <= |log|
    ensures forall k :: 0 <= k < |History(locations, products, f, log, n)| ==> History(locations, products, f, log, n)[k].id < n
    ensures forall e :: e in History(locations, products, f, log, n) ==>
              e.id < n && InHistory(locations, products, f, log[e.id]) && e == Describe(e.id, log[e.id])
  {
    if n > 0 {
      HistoryEntries(locations, products, f, log, n - 1);
      var t := History(locations, products, f, log, n - 1);
      var h := History(locations, products, f, log, n);
      if InHistory(locations, products, f, log[n - 1]) {
        assert h == [Describe(n - 1, log[n - 1])] + t;
        forall k | 0 < k < |h| ensures h[k] == t[k - 1] {}
      } else {
        assert h == t;
      }
    }
  }

  /** Every id in `h` is below `n`. */
  predicate IdsBelow(h: seq<MovementEntry>, n: nat)
  {
    forall k :: 0 <= k < |h| ==> h[k].id < n
  }

  lemma {:induction false} HistoryBelow(locations: map<LocationId, Location>, products: map<ProductKey, Product>,
                                        f: HistoryFilter, log: seq<ChangeRecord>, n: nat)
    requires n <= |log|
    ensures IdsBelow(History(locations, products, f, log, n), n)
  {
    if n > 0 {
      HistoryBelow(locations, products, f, log, n - 1);
      var t := History(locations, products, f, log, n - 1);
      var h := History(locations, products, f, log, n);
      if InHistory(locations, products, f, log[n - 1]) {
        assert h == [Describe(n - 1, log[n - 1])] + t;
        forall k | 0 < k < |h| ensures h[k].id < n {
          assert h[k] == t[k - 1];
        }
      } else {
        assert h == t;
      }
    }
  }

  /** Ids strictly decrease along `h`. */
  predicate NewestFirst(h: seq<MovementEntry>)
  {
    forall k, j :: 0 <= k < j < |h| ==> h[k].id > h[j].id
  }

  /** An entry newer than every entry of a newest-first list may go in front of it. */
  lemma PrependNewest(e: MovementEntry, t: seq<MovementEntry>)
    requires NewestFirst(t) && IdsBelow(t, e.id)
    ensures NewestFirst([e] + t)
  {
    var h := [e] + t;
    forall k, j | 0 <= k < j < |h| ensures h[k].id > h[j].id {
      assert h[j] == t[j - 1];
      if k > 0 {
        assert h[k] == t[k - 1];
      }
    }
  }

  /** The history is newest first. */
  lemma {:induction false} HistoryOrder(locations: map<LocationId, Location>, products: map<ProductKey, Product>,
                                        f: HistoryFilter, log: seq<ChangeRecord>, n: nat)
    requires n <= |log|
    ensures NewestFirst(History(locations, products, f, log, n))
  {
    if n > 0 {
      HistoryOrder(locations, products, f, log, n - 1);
      HistoryBelow(locations, products, f, log, n - 1);
      var t := History(locations, products, f, log, n - 1);
      if InHistory(locations, products, f, log[n - 1]) {
        PrependNewest(Describe(n - 1, log[n - 1]), t);
      }
    }
  }

  /** Every listed record among the first `n` is in the history. */
  lemma {:induction false} HistoryComplete(locations: map<LocationId, Location>, products: map<ProductKey, Product>,
                                           f: HistoryFilter, log: seq<ChangeRecord>, n: nat)
    requires n <= |log|
    ensures forall i :: 0 <= i < n && InHistory(locations, products, f, log[i]) ==>
              Describe(i, log[i]) in History(locations, products, f, log, n)
  {
    if n > 0 {
      HistoryComplete(locations, products, f, log, n - 1);
      var t := History(locations, products, f, log, n - 1);
      var h := History(locations, products, f, log, n);
      assert h == (if InHistory(locations, products, f, log[n - 1]) then [Describe(n - 1, log[n - 1])] else []) + t;
      forall i | 0 <= i < n && InHistory(locations, products, f, log[i])
        ensures Describe(i, log[i]) in h
      {
        if i < n - 1 {
          assert Describe(i, log[i]) in t;
        }
      }
    }
  }

  /**
   * The user's movements, newest first, at most `limit` of them; each
   * carries its quantity change, after minus before.  When fewer than
   * `limit` are returned, every listed record is among them.
   */
  method MovementHistory(stock: Ledger, f: HistoryFilter, limit: nat) returns (ms: seq<MovementEntry>)
    ensures ms == Ordering.Take(History(stock.locations, stock.products, f, stock.log, |stock.log|), limit)
    ensures |ms| <= limit
    ensures forall e :: e in ms ==>
      && e.id < |stock.log| && InHistory(stock.locations, stock.products, f, stock.log[e.id])
      && e == Describe(e.id, stock.log[e.id]) && e.change == e.after - e.before
    ensures forall k, j :: 0 <= k < j < |ms| ==> ms[k].id > ms[j].id
    ensures |ms| < limit ==>
      forall i :: 0 <= i < |stock.log| && InHistory(stock.locations, stock.products, f, stock.log[i]) ==>
        Describe(i, stock.log[i]) in ms
  {
    var locations, products, log := stock.locations, stock.products, stock.log;
    var acc: seq<MovementEntry> := [];
    for i := 0 to |log|
      invariant acc == History(locations, products, f, log, i)
    {
      if InHistory(locations, products, f, log[i]) {
        acc := [Describe(i, log[i])] + acc;
      }
    }
    HistoryOrder(locations, products, f, log, |log|);
    HistoryEntries(locations, products, f, log, |log|);
    HistoryComplete(locations, products, f, log, |log|);
    ms := Ordering.Take(acc, limit);
  }
}

=== FILE: warehouse_service.dfy ===
/**
 * The warehouse keeper's operations: receiving returns, moving stock
 * between locations, reporting discrepancies and reversing a logged
 * inventory change.
 */
module WarehouseService {
  import opened Common
  import opened Ledger
  import WarehouseRepository

  // ----- Returns -----

  /** A received return, as stored; every stored return is "processed". */
  datatype ReturnRecord = ReturnRecord(ref: string, size: string, quantity: int, reason: string,
                                       condition: string, origin: LocationId, receivedBy: UserId,
                                       receivedAt: int, notes: Option<string>)

  class ReturnLog {
    var records: seq<ReturnRecord>

    constructor ()
      ensures records == []
    {
      records := [];
    }

    method Add(r: ReturnRecord) returns (id: nat)
      modifies this
      ensures id == |old(records)| && records == old(records) + [r]
    {
      id := |records|;
      records := records + [r];
    }
  }

  /** Only returns in new or good condition go back into stock. */
  predicate Restockable(condition: string)
  {
    condition == "nuevo" || condition == "good"
  }

  /** The product created for a returned reference the location does not carry. */
  const UnknownProduct := Product("Unknown", "Unknown", "Unknown", 0.0, 0.0, true)

  /**
   * Puts `qty` units of one size back into stock at `location`: the row
   * grows by `qty`, or is created with `qty` units, and the product is
   * created as "Unknown" when the location does not carry the reference.
   * The change record logs the old and the new quantity of the row, 0 for a
   * new row.
   */
  method AddToInventory(stock: Ledger, ref: string, size: string, qty: int, location: LocationId, user: UserId)
    returns (changeId: nat)
    requires stock.Valid() && qty > 0 && location in stock.locations
    modifies stock
    ensures stock.Valid() && stock.locations == old(stock.locations)
    ensures var v := Variant(ref, size, location);
      && QuantityOf(stock.rows, v) == QuantityOf(old(stock.rows), v) + qty
      && Find(stock.rows, v).Some?
      && (forall w :: w != v ==> QuantityOf(stock.rows, w) == QuantityOf(old(stock.rows), w))
      && Units(stock.rows) == Units(old(stock.rows)) + qty
      && (v.Key() in old(stock.products) ==> stock.products == old(stock.products))
      && (v.Key() !in old(stock.products) ==> stock.products == old(stock.products)[v.Key() := UnknownProduct])
      && changeId == |old(stock.log)|
      && stock.log == old(stock.log) + [ChangeRecord(v, ReturnAddition, QuantityOf(old(stock.rows), v),
                                                     QuantityOf(stock.rows, v), Some(user), None)]
  {
    var v := Variant(ref, size, location);
    if v.Key() !in stock.products {
      stock.PutProduct(v.Key(), UnknownProduct);
    }
    var oldQuantity := QuantityOf(stock.rows, v);
    stock.Increase(v, qty);
    changeId := stock.Record(ChangeRecord(v, ReturnAddition, oldQuantity, oldQuantity + qty, Some(user), None));
  }

  /**
   * Receives a return at the keeper's location.  An unknown origin is
   * refused.  The return is stored; when its condition allows, its units go
   * back into stock.  If the keeper has no location the stored return stays
   * but the stock update fails.
   */
  method ProcessReturn(stock: Ledger, returnLog: ReturnLog, keeper: User, ret: ReturnRecord)
    returns (r: Result<nat>)
    requires stock.Valid() && ret.quantity > 0 && ret.receivedBy == keeper.id
    modifies stock, returnLog
    ensures stock.Valid() && stock.locations == old(stock.locations)
    ensures ret.origin !in stock.locations ==> r == Err(NotFound) && returnLog.records == old(returnLog.records)
    ensures ret.origin in stock.locations ==> returnLog.records == old(returnLog.records) + [ret]
    ensures r.Ok? ==> r.value == |old(returnLog.records)|
    ensures !Restockable(ret.condition) || r.Err? ==>
              stock.rows == old(stock.rows) && stock.products == old(stock.products) && stock.log == old(stock.log)
    ensures ret.origin in stock.locations && Restockable(ret.condition) ==>
      (r.Ok? <==> keeper.location.Some? && keeper.location.value in stock.locations)
    ensures ret.origin in stock.locations && !Restockable(ret.condition) ==> r.Ok?
    ensures r.Ok? && Restockable(ret.condition) ==> var v := Variant(ret.ref, ret.size, keeper.location.value);
      && QuantityOf(stock.rows, v) == QuantityOf(old(stock.rows), v) + ret.quantity
      && Find(stock.rows, v).Some?
      && (forall w :: w != v ==> QuantityOf(stock.rows, w) == QuantityOf(old(stock.rows), w))
      && Units(stock.rows) == Units(old(stock.rows)) + ret.quantity
      && (v.Key() in old(stock.products) ==> stock.products == old(stock.products))
      && (v.Key() !in old(stock.products) ==> stock.products == old(stock.products)[v.Key() := UnknownProduct])
      && stock.log == old(stock.log) + [ChangeRecord(v, ReturnAddition, QuantityOf(old(stock.rows), v),
                                                     QuantityOf(stock.rows, v), Some(keeper.id), None)]
  {
    if ret.origin !in stock.locations {
      return Err(NotFound);
    }
    var id := returnLog.Add(ret);
    if Restockable(ret.condition) {
      if keeper.location.None? || keeper.location.value !in stock.locations {
        return Err(InventoryUpdateFailed);
      }
      var _ := AddToInventory(stock, ret.ref, ret.size, ret.quantity, keeper.location.value, keeper.id);
    }
    r := Ok(id);
  }

  // ----- Moves between locations -----

  /** Both locations must exist; the move itself is the repository's. */
  method UpdateProductLocation(stock: Ledger, keeper: User, ref: string, size: string, qty: int,
                               src: LocationId, dst: LocationId, movementType: string)
    returns (r: Result<WarehouseRepository.MoveReceipt>)
    requires stock.Valid() && qty > 0
    modifies stock
    ensures stock.Valid() && stock.locations == old(stock.locations)
    ensures src !in stock.locations || dst !in stock.locations ==> r == Err(NotFound)
    ensures r.Err? ==> stock.rows == old(stock.rows) && stock.products == old(stock.products) && stock.log == old(stock.log)
    ensures r.Ok? <==> src in stock.locations && dst in stock.locations && src != dst
                       && CanTake(old(stock.rows), old(stock.products), Variant(ref, size, src), qty, false)
    ensures src in stock.locations && dst in stock.locations && src == dst ==> r == Err(SameLocation)
    ensures src in stock.locations && dst in stock.locations && src != dst
            && !CanTake(old(stock.rows), old(stock.products), Variant(ref, size, src), qty, false) ==>
              r == Err(InsufficientStock)
    ensures r.Ok? ==> var vs := Variant(ref, size, src); var vd := Variant(ref, size, dst);
      && QuantityOf(stock.rows, vs) == QuantityOf(old(stock.rows), vs) - qty
      && QuantityOf(stock.rows, vd) == QuantityOf(old(stock.rows), vd) + qty
      && (forall w :: w != vs && w != vd ==> QuantityOf(stock.rows, w) == QuantityOf(old(stock.rows), w))
      && Units(stock.rows) == Units(old(stock.rows))
      && r.value == WarehouseRepository.MoveReceipt(|old(stock.log)|, qty)
      && stock.log == old(stock.log) + [ChangeRecord(vs, Movement(movementType), QuantityOf(old(stock.rows), vs),
                                                     QuantityOf(stock.rows, vs), Some(keeper.id), None)]
      && stock.log[|old(stock.log)|].before == stock.log[|old(stock.log)|].after + qty
      && (vd.Key() in old(stock.products) ==> stock.products == old(stock.products))
      && (vd.Key() !in old(stock.products) ==>
            stock.products == old(stock.products)[vd.Key() := WarehouseRepository.Inherit(old(stock.products)[vs.Key()])])
  {
    if src !in stock.locations || dst !in stock.locations {
      return Err(NotFound);
    }
    r := WarehouseRepository.UpdateProductLocation(stock, ref, size, qty, src, dst, keeper.id, movementType);
  }

  // ----- Discrepancies -----

  datatype DiscrepancyType = Missing | Excess | Damaged | LocationError | SizeError

  /** The enum value the service stores for each kind of discrepancy. */
  function DiscrepancyTypeName(t: DiscrepancyType): string
  {
    match t
    case Missing => "missing"
    case Excess => "excess"
    case Damaged => "damaged"
    case LocationError => "location_error"
    case SizeError => "size_error"
  }

  /** A discrepancy as the keeper reports it; `claimedDifference` is the client's own figure. */
  datatype Discrepancy = Discrepancy(location: LocationId, ref: string, size: string, kind: DiscrepancyType,
                                     expected: int, actual: int, claimedDifference: int,
                                     description: string, priority: string)

  /**
   * A stored report: no product, the size, the expected and the actual
   * quantity in the places of a change's before and after, the reporter,
   * and the description, kind and priority folded into the notes.
   */
  datatype DiscrepancyRecord = DiscrepancyRecord(size: string, expected: int, actual: int,
                                                 reportedBy: UserId, notes: string)

  datatype DiscrepancyReceipt = DiscrepancyReceipt(id: nat, location: LocationId, ref: string, size: string,
                                                   expected: int, actual: int, difference: int)

  class DiscrepancyLog {
    var records: seq<DiscrepancyRecord>

    constructor ()
      ensures records == []
    {
      records := [];
    }

    method Add(d: DiscrepancyRecord) returns (id: nat)
      modifies this
      ensures id == |old(records)| && records == old(records) + [d]
    {
      id := |records|;
      records := records + [d];
    }
  }

  /** The notes of a stored report. */
  function DiscrepancyNotes(d: Discrepancy): string
  {
    "DISCREPANCIA: " + d.description + " | Tipo: " + DiscrepancyTypeName(d.kind) + " | Prioridad: " + d.priority
  }

  /** How far the counted units are from the system's: actual minus expected. */
  function DiscrepancyDifference(expected: int, actual: int): (d: int)
    ensures expected + d == actual
  {
    actual - expected
  }

  /**
   * Reports a discrepancy at a location.  An unknown location is not found
   * and nothing is stored.  Otherwise one report is stored and the answer
   * carries the difference the service computes, actual minus expected,
   * whatever difference the client sent.  Stock is not touched: the ledger
   * is outside this method's frame.
   */
  method ReportInventoryDiscrepancy(stock: Ledger, reports: DiscrepancyLog, keeper: User, d: Discrepancy)
    returns (r: Result<DiscrepancyReceipt>)
    modifies reports
    ensures r.Err? <==> d.location !in stock.locations
    ensures r.Err? ==> r.error == NotFound && reports.records == old(reports.records)
    ensures r.Ok? ==>
      && r.value.id == |old(reports.records)|
      && r.value.location == d.location && r.value.ref == d.ref && r.value.size == d.size
      && r.value.expected == d.expected && r.value.actual == d.actual
      && d.expected + r.value.difference == d.actual
      && reports.records == old(reports.records)
                            + [DiscrepancyRecord(d.size, d.expected, d.actual, keeper.id, DiscrepancyNotes(d))]
  {
    if d.location !in stock.locations {
      return Err(NotFound);
    }
    var difference := DiscrepancyDifference(d.expected, d.actual);
    var id := reports.Add(DiscrepancyRecord(d.size, d.expected, d.actual, keeper.id, DiscrepancyNotes(d)));
    r := Ok(DiscrepancyReceipt(id, d.location, d.ref, d.size, d.expected, d.actual, difference));
  }

  // ----- Reversing a change -----

  datatype ReversalReceipt = ReversalReceipt(id: nat, quantity: nat)

  /** The units a reversal moves: the size of the original change. */
  function ReversalQuantity(c: ChangeRecord): (q: nat)
    ensures q == c.before - c.after || q == c.after - c.before
  {
    if c.after >= c.before then c.after - c.before else c.before - c.after
  }

  /** The live quantity after a reversal as the code computes it, with no guard against going negative. */
  function ReversedQuantityAsWritten(live: int, c: ChangeRecord): int
  {
    live + (c.before - c.after)
  }

  /**
   * Undoing an increase that the stock no longer holds drives it negative:
   * a row raised from 0 to 5 and since sold down to 2 is reversed to -3.
   */
  lemma ReversalBelowZero(v: Variant)
    ensures ReversedQuantityAsWritten(2, ChangeRecord(v, ReturnAddition, 0, 5, None, None)) == -3
    ensures forall live: int, c: ChangeRecord ::
              ReversedQuantityAsWritten(live, c) < 0 <==> live < c.after - c.before
  {
  }

  /**
   * Reverses logged change `original`.  A missing record is not found and
   * changes nothing.  The reversal record swaps the original's before and
   * after and points back at it.  The live row of the same size, when there
   * is one, moves by the original's (before - after), so reversing a change
   * whose row has not moved since restores the quantity it had before; a
   * reversal that would leave the row negative is refused and changes
   * nothing.  The reported quantity is the size of the original change.
   */
  method ReverseInventoryMovement(stock: Ledger, keeper: User, original: nat) returns (r: Result<ReversalReceipt>)
    requires stock.Valid()
    modifies stock
    ensures stock.Valid() && stock.locations == old(stock.locations) && stock.products == old(stock.products)
    ensures original >= |old(stock.log)| ==> r == Err(NotFound)
    ensures r.Err? ==> stock.rows == old(stock.rows) && stock.log == old(stock.log)
    ensures original < |old(stock.log)| ==> var c := old(stock.log)[original];
      && (c.variant.Key() !in old(stock.products) ==> r == Err(Internal(NotFound)))
      && ((c.variant.Key() in old(stock.products) && Find(old(stock.rows), c.variant).Some?
           && ReversedQuantityAsWritten(QuantityOf(old(stock.rows), c.variant), c) < 0) ==> r == Err(InsufficientStock))
      && (r.Ok? <==> c.variant.Key() in old(stock.products)
                     && (Find(old(stock.rows), c.variant).Some? ==>
                           ReversedQuantityAsWritten(QuantityOf(old(stock.rows), c.variant), c) >= 0))
      && (r.Ok? ==>
            && r.value == ReversalReceipt(|old(stock.log)|, ReversalQuantity(c))
            && stock.log == old(stock.log) + [ChangeRecord(c.variant, Reversal, c.after, c.before,
                                                           Some(keeper.id), Some(original))]
            && (Find(old(stock.rows), c.variant).Some? ==>
                  QuantityOf(stock.rows, c.variant) == ReversedQuantityAsWritten(QuantityOf(old(stock.rows), c.variant), c))
            && (QuantityOf(old(stock.rows), c.variant) == c.after && Find(old(stock.rows), c.variant).Some? ==>
                  QuantityOf(stock.rows, c.variant) == c.before)
            && (Find(old(stock.rows), c.variant).None? ==> stock.rows == old(stock.rows))
            && (forall w :: w != c.variant ==> QuantityOf(stock.rows, w) == QuantityOf(old(stock.rows), w)))
  {
    if original >= |stock.log| {
      return Err(NotFound);
    }
    var c := stock.log[original];
    if c.variant.Key() !in stock.products {
      // The product lookup comes back empty and the handler fails.
      return Err(Internal(NotFound));
    }
    var live := QuantityOf(stock.rows, c.variant);
    var found := Find(stock.rows, c.variant).Some?;
    if found && ReversedQuantityAsWritten(live, c) < 0 {
      return Err(InsufficientStock);
    }
    var id := stock.Record(ChangeRecord(c.variant, Reversal, c.after, c.before, Some(keeper.id), Some(original)));
    if found {
      stock.Shift(c.variant, c.before - c.after);
    }
    r := Ok(ReversalReceipt(id, ReversalQuantity(c)));
  }
}
